=== FILE: README.md ===
# guardian-ai core, modelled in Dafny

This project models the deterministic core of guardian-ai, a code-review assistant. The assistant fetches a GitHub diff, builds prompts for a language model, streams the answer back, and keeps reviews and a semantic index of a repository in SQLite. The model covers five groups of logic:

- **Repository indexing and search.** The segmenter cuts a repository walk into line windows (`segment_codebase`). The index builder writes chunk, embedding and mapping rows and the vector index (`create_vector_indexes`). The search resolves nearest-neighbour positions back to chunk rows (`search_similar_code`). The table schema's primary and foreign keys are the store invariant `Store.Valid`, which every operation preserves.
- **The review and project store** of `lemma/db.py` and `db.py`: inserts, deletes and queries over the `projects`, `reviews` and `files` tables, with the referential integrity between reviews and files as the invariant `Reviews.Valid`.
- **GitHub URL handling.** This covers the classifier and the extractors of `github_api.py` and `ask_pr.py`, whose regular expressions are written out as segment matchers that keep their start-only anchoring. It also covers the URL reader and archive folder name of `lemma/embeddings/manage_repo.py`.
- **Prompt assembly and provider dispatch**: `ChatClient.prepare_prompts` in its falling-back and its strict version over the `CODE_PROMPTS` table, `string_to_enum`, the default model names, the Llama 3 template, and `ModelConfig.from_model_name`.
- **Stream folding, patch lists and display helpers**: `process_stream` of the command line, the accumulation of `views/processing.py`, the patch lists, the review titles, the diff escaping for the JavaScript viewer, the viewer height, the Mermaid slice, and `get_programming_language`.

Every operation is a pure function. A table is a sequence of rows in rowid order, so an insert appends. A Python exception is a value: `Exceptions.Raised`, or a module's own error datatype. Everything outside the program is an input:

- the embedding model's output;
- the nearest-neighbour answer, as `(distance, position)` pairs;
- `uuid4` ids, and the `CURRENT_TIMESTAMP` text an insert stores;
- environment variables, with `None` when unset;
- the file-system walk;
- the model's stream, as a sequence of chunks.

Vectors are sequences of integers, and a vector has norm zero exactly when all its components are zero.

Files: `wrappers.dfy` and `exceptions.dfy` hold the shared values, and `text.dfy` holds Python's string operations. Each module follows one part of the program:

| file | module |
|---|---|
| `segment.dfy` | `Segment` |
| `store.dfy` | `Store` |
| `build.dfy` | `IndexBuild` |
| `search.dfy` | `Search` |
| `consistency.dfy` | `Consistency`: builder and search together |
| `reviews.dfy` | `Reviews` |
| `urls.dfy` | `GitHubUrls` |
| `manage_repo.dfy` | `ManageRepo` |
| `providers.dfy` | `Providers` |
| `config.dfy` | `Config` |
| `prompts.dfy` | `Prompts` |
| `cli.dfy` | `Cli` |
| `processing.dfy` | `Processing` |
| `ui.dfy` | `ReviewUi` |
| `detect.dfy` | `Detect` |

## Model

| member | source | states |
|---|---|---|
| Segment.ReadLinesRoundTrip | lemma/embeddings/segment.py:45-47 | the lines `readlines` returns, concatenated, are the file's text again |
| Segment.FileChunksFrom | lemma/embeddings/segment.py:53-69 | the chunking loop yields no chunk exactly when `chunk_start` has reached the line count; every chunk carries the file's path and consecutive indices from the entry index |
| Segment.FileChunkAt | lemma/embeddings/segment.py:55-58 | chunk `i` holds the lines of window `[start + i*size, start + (i+1)*size)` |
| Segment.FileChunkCount | lemma/embeddings/segment.py:53-55 | the loop runs the least `k` times with `k * size` covering the remaining lines |
| Segment.ChunksReassembleFrom | lemma/embeddings/segment.py:53-69 | the chunk texts, concatenated in index order, are the lines from `chunk_start` on |
| Segment.FileRoundTrip | lemma/embeddings/segment.py:45-69 | a read file's chunk texts, joined in `chunk_index` order, give back the file's text |
| Segment.WindowSizes | lemma/embeddings/segment.py:55-58 | every chunk has between 1 and `max_chunk_size` lines, and all but the last have exactly `max_chunk_size` |
| Segment.ChunkCount | lemma/embeddings/segment.py:53-68 | a file of `n` lines gives `ceil(n / max_chunk_size)` chunks, none for an empty file |
| Segment.FileChunkFields | lemma/embeddings/segment.py:60-66 | every chunk of a file carries that file's path and `chunk_index` 0, 1, ... in order |
| Segment.NonPositiveSizeNeverExits | lemma/embeddings/segment.py:53-69 | with `max_chunk_size <= 0`, `chunk_start` never reaches the line count of a non-empty file, so the loop never ends |
| Segment.SegmentIsChunksOfKeptFiles | lemma/embeddings/segment.py:25-71 | the segmenter's output is exactly the chunks of the files that survive the filters, file after file in walk order |
| Segment.DirChunksAreKeptFileChunks | lemma/embeddings/segment.py:32-69 | one directory's inner loop produces the chunks of its kept files, in order |
| Segment.SkippedDirKeepsNothing | lemma/embeddings/segment.py:27-30 | a directory whose path ends in ".git" contributes no file |
| Segment.ChunksOfFilesAppend | lemma/embeddings/segment.py:32-69 | chunking two lists of files one after the other is chunking their concatenation |
| Segment.KeptFileBlock | lemma/embeddings/segment.py:32-66 | each kept file's chunks form one contiguous block of the output, preceded by the chunks of the files before it |
| Segment.FilteredFileNotKept | lemma/embeddings/segment.py:37-50 | an ignored file, a file whose lower-cased name contains "test" when tests are skipped, or a file that could not be read contributes no chunk |
| Segment.NaiveTestFilter | lemma/embeddings/segment.py:39-42 | any name with "test" in it, in either case, is caught by the test filter, such as "latest.py" |
| Segment.GitSkipIsSuffixOnly | lemma/embeddings/segment.py:27-30 | ".git" itself and "lib.git" are skipped but ".git/objects" is walked |
| Segment.FourHundredFiftyLines | lemma/embeddings/segment.py:53-69 | 450 lines with windows of 200 give three chunks of 200, 200 and 50 lines |
| Store.IndexPath | lemma/embeddings/create_vector_indexes.py:134 | the index file of a project lies under "bin/" (for a relative project id) and ends in "_index.faiss" |
| Store.CreateEmbeddingsTables | lemma/embeddings/create_tables.py:6-76 | after the call the tables exist, no row of any table changes, and the constraints still hold |
| Store.CreateTablesIdempotent | lemma/embeddings/create_tables.py:18-71 | creating the tables twice is creating them once (`IF NOT EXISTS`) |
| Store.DeleteProjectMappings | lemma/embeddings/create_vector_indexes.py:59 | the mapping rows left are exactly those of other projects, and the mapping key still holds |
| Store.DeleteMappingsStep | lemma/embeddings/create_tables.py:85 | emptying `faiss_index_mapping` succeeds exactly when the tables exist, leaves the other tables alone and keeps the constraints |
| Store.DeleteEmbeddingsStep | lemma/embeddings/create_tables.py:86 | emptying `file_chunk_embeddings` succeeds exactly when the tables exist, leaves the other tables alone and keeps the constraints |
| Store.ReferencedWhenRowsExist | lemma/embeddings/create_tables.py:35-56 | under the foreign keys, some row refers to a chunk exactly when the embedding or mapping table is non-empty |
| Store.DeleteChunksStep | lemma/embeddings/create_tables.py:87 | emptying `file_chunks` is refused while an embedding or mapping row refers to a chunk, and otherwise empties it and keeps the constraints |
| Store.DeleteAllEmbeddings | lemma/embeddings/create_tables.py:79-93 | the transaction never breaks the constraints and never touches the index files |
| Store.DeleteAllEmptiesTables | lemma/embeddings/create_tables.py:83-93 | with the tables present, the three deletes in this order empty all three tables; without them, the rollback leaves the store as it was |
| Store.ChunksFirstIsRefused | lemma/embeddings/create_tables.py:79-93 | deleting chunks before their embeddings is a foreign-key failure, which is why the order is mappings, embeddings, chunks |
| Store.FindChunk | lemma/embeddings/search.py:107-118 | a chunk id is found exactly when some `file_chunks` row has it, and the row found has that id |
| Store.FindChunkUnique | lemma/embeddings/create_tables.py:21 | under the primary key, looking up a row's id finds that row |
| Store.EmbeddingOfRow | lemma/embeddings/create_tables.py:39 | under the embeddings' primary key, the vector found for a chunk is the one row's vector |
| Store.MappedChunk | lemma/embeddings/create_tables.py:48-53 | the mapped chunk of a (project, position) key comes from a mapping row with that key, and there is none exactly when no row has it |
| Store.MappedChunkRow | lemma/embeddings/create_tables.py:52 | under the mapping key, looking up a row's key finds that row's chunk |
| IndexBuild.Positions | lemma/embeddings/create_vector_indexes.py:94-117 | the positions a pass keeps are ascending, all kept, and include every kept position among the first `n` |
| IndexBuild.Loop | lemma/embeddings/create_vector_indexes.py:77-117 | after `n` iterations there is one chunk row per chunk in input order, one embedding row per vector of the first vector's length, and the non-zero ones among those are the index list with their chunk ids |
| IndexBuild.MappingRows | lemma/embeddings/create_vector_indexes.py:141-148 | mapping row `j` is (project, `j`, id of the `j`-th indexed vector), one per indexed vector |
| IndexBuild.Cleared | lemma/embeddings/create_vector_indexes.py:54-60 | after table creation and the committed delete, the project has no mapping row, other projects keep theirs, and the constraints hold |
| IndexBuild.CreateVectorIndexes | lemma/embeddings/create_vector_indexes.py:13-153 | a run that returns yields "bin/<project>_index.faiss" and writes that file; a run that raises leaves no mapping row of the project; an empty embedding reply is the ValueError "No embeddings generated"; any failure but the last one leaves only the cleared store; existing chunk rows are kept as a prefix |
| IndexBuild.RunShape | lemma/embeddings/create_vector_indexes.py:77-153 | a run past the embedding service appends the loop's chunk and embedding rows; with no indexed vector it raises after those writes and adds no mapping; otherwise it writes the index file and one mapping row per indexed vector |
| IndexBuild.BuildKeepsSchema | lemma/embeddings/create_tables.py:18-56 | with fresh uuid4 ids, every outcome of a run keeps the primary and foreign keys of the three tables |
| IndexBuild.BuildAlignsIndex | lemma/embeddings/create_vector_indexes.py:141-148 | after a run that returns, every index position `p` maps to a chunk whose stored embedding is the `p`-th vector of the index file, and every mapping row of the project names a position inside the index |
| IndexBuild.BuildLeavesOtherProjects | lemma/embeddings/create_vector_indexes.py:59-60 | mapping rows of other projects are neither removed nor added, whatever the outcome |
| IndexBuild.BuildWritesEveryChunk | lemma/embeddings/create_vector_indexes.py:77-123 | every input chunk gets a `file_chunks` row with its fresh id in input order, and the run raises "No valid embeddings" exactly when no vector has the first one's length and a non-zero component |
| IndexBuild.BuildEmbeddingRows | lemma/embeddings/create_vector_indexes.py:94-109 | a chunk gets an embedding row exactly when its vector has the first vector's length, that row holds its vector, and every new row records that length |
| IndexBuild.IndexHoldsNonZeroVectors | lemma/embeddings/create_vector_indexes.py:96-117 | every vector in the index file of a run has the first vector's length and a non-zero component, and the index holds exactly the vectors with both properties, in chunk order |
| IndexBuild.IndexedIdsAreRunIds | lemma/embeddings/create_vector_indexes.py:111-117 | every chunk id put in the index list is one of the run's fresh ids |
| Search.IdsAmongAppend | lemma/embeddings/search.py:80-93 | the rowid-ordered list of rows appended later is the old list followed by the new rows' ids |
| Search.ResolvePosition | lemma/embeddings/search.py:103-104 | a position at or past the list's length resolves to nothing; a non-negative one to that element; a negative one from the end, as Python indexing does; below `-len` it raises IndexError |
| Search.HitFor | lemma/embeddings/search.py:107-132 | a resolved id gives one record, carrying its chunk row's fields and the pair's distance, exactly when `file_chunks` has that id, and none otherwise |
| Search.ResolveHits | lemma/embeddings/search.py:100-134 | the loop raises exactly when some position is below `-len`; otherwise it gives at most one record per pair, each naming an id of the rowid-ordered list and carrying that chunk's row |
| Search.ResolveHitsAppend | lemma/embeddings/search.py:101 | the pairs are handled one at a time: the records for two runs of pairs are the records of each, in pair order, with no re-sort or de-duplication |
| Search.OnePairResolves | lemma/embeddings/search.py:101-132 | one pair gives at most one record, carrying that pair's distance |
| Search.SearchSimilarCode | lemma/embeddings/search.py:11-136 | the search raises FileNotFoundError exactly when the project's index file is missing; an empty embedding reply returns []; a non-empty reply whose first vector is not as wide as the index fails faiss's width assertion, and only then; it returns at most `top_k` records, each naming a chunk of the project's rowid-ordered embedding rows |
| Search.SearchViaMapping | lemma/embeddings/create_vector_indexes.py:141-148 | the corrected search, resolving each position through `faiss_index_mapping`, has the same missing-file error, the same width assertion and the same `top_k` bound |
| Search.SearchesAgree | lemma/embeddings/search.py:79-104 | whenever the project's mapping rows list exactly the rowid-ordered ids and no position is negative, the search as written and the corrected search return the same |
| Consistency.FreshBuildMappingFollowsRowid | lemma/embeddings/create_vector_indexes.py:77-148 | after a first build of a project in which no vector of the first vector's length is zero, the run succeeds, the project's rowid order is the ids of the fitting chunks, and the mapping rows list exactly that order; when every vector fits, the order is all the run's ids |
| Consistency.FreshBuildSearchesAgree | lemma/embeddings/search.py:79-104 | after such a build the search as written returns what the corrected search returns, for every answer without negative positions |
| Consistency.MappingSearchFindsIndexedChunks | lemma/embeddings/create_vector_indexes.py:141-148 | on an aligned store, every record of the corrected search comes from one pair, keeps its distance, and names the chunk whose stored vector is the index's vector at that pair's position |
| Consistency.ZeroVectorMisresolves | lemma/embeddings/create_vector_indexes.py:111-114 | with vectors [0] and [1] the index holds only [1]; position 0 is resolved by the search as written to the first chunk, whose vector is [0], and by the mapping to the second |
| Consistency.StaleBuildMisresolves | lemma/embeddings/search.py:80-88 | after two builds of one project, position 0 of the new index is resolved by the search as written to the first build's chunk, and by the mapping to the second build's |
| Consistency.PaddingResolvesToLastRow | lemma/embeddings/search.py:103-104 | asked for two neighbours of a one-chunk index, the answer (0, -1) yields that chunk twice, since the padding position -1 passes the bound test and is resolved to the last row; through the mapping only position 0 yields a record |
| Consistency.BuildExtendsRowidOrder | lemma/embeddings/search.py:80-93 | a build appends to the project's rowid order the ids of the chunks whose vectors have the first one's length, zero vectors included, in input order |
| Reviews.KindOf | lemma/db.py:131-177 | the caller sees a ValueError only for a missing review in `insert_file`, a TypeError only for a row that is not iterable, and `sqlite3.Error` for everything else |
| Reviews.MessageOf | lemma/db.py:153-156 | every re-raised `sqlite3.Error` message starts with "Database error: " |
| Reviews.FindReview | lemma/db.py:229-230 | the row found has the id asked for, and nothing is found exactly when no row has it |
| Reviews.InsertReview | lemma/db.py:120-156 | a `None` name raises before any statement runs; the insert succeeds exactly when the name and URL are present, the uuid is unused and the project, if any, exists; it then appends one row with the new id and returns that id |
| Reviews.InsertReviewThenFind | lemma/db.py:120-156 | a review just inserted is the row a lookup of its id finds |
| Reviews.InsertReviewKeepsKeys | lemma/db.py:120-156 | a successful `insert_review` keeps the primary and foreign keys |
| Reviews.InsertFile | lemma/db.py:159-177 | an unknown review id raises a ValueError, not re-wrapped, and writes nothing; the insert succeeds exactly when the review exists, the name is present and the uuid is unused, and appends one row |
| Reviews.InsertFileKeepsKeys | lemma/db.py:159-177 | a successful `insert_file` keeps the primary and foreign keys |
| Reviews.InsertFileThenQuery | db.py:116-180 | after `insert_file`, `get_review_with_files` for that review returns the earlier files followed by exactly the new one |
| Reviews.InsertProject | lemma/db.py:180-194 | the insert succeeds exactly when name and URL are present (the `NOT NULL` columns) and the id is new; a missing name or URL is the `NOT NULL` failure of that column; a successful insert appends one project row holding the given name, URL and a 0/1 flag that is 1 exactly when `repo_validated` is truthy, changes no other table and returns the new id |
| Reviews.InsertProjectKeepsKeys | lemma/db.py:185-190 | a successful `insert_project` keeps the keys, and the stored flag is 1 exactly when `repo_validated` is truthy |
| Reviews.DeleteReview | lemma/db.py:197-207 | afterwards the review and all files with its id are gone, every other row stays, and projects do not change |
| Reviews.DeleteReviewKeepsKeys | lemma/db.py:197-207 | `delete_review` keeps the keys: no file is left pointing at the deleted review |
| Reviews.DeleteUnknownReview | db.py:137-147 | deleting an id no review has changes nothing |
| Reviews.InsertThenDeleteReview | db.py:85-147 | deleting a review just inserted gives back the tables as they were |
| Reviews.InsertByAge | db.py:150-158 | inserting a row into a newest-first list keeps it newest first and adds exactly that row |
| Reviews.SortNewestFirst | db.py:156 | the result is ordered by the `created_at` text descending, under SQLite's binary collation, and is a permutation of the input |
| Reviews.NotAfterTotal | db.py:156 | any two `created_at` texts are ordered one way or the other by the binary collation `ORDER BY` uses |
| Reviews.NotAfterTrans | db.py:156 | the binary collation is transitive |
| Reviews.NotAfterAntisymmetric | db.py:156 | two texts that each sort no later than the other are equal, so only equal timestamps tie |
| Reviews.AllReviews | db.py:150-160 | `get_all_reviews` returns every review row, each once, newest first; none for an empty table |
| Reviews.AllProjectReviews | lemma/db.py:260-270 | the result is exactly the reviews of that project, newest first |
| Reviews.GetDictResults | lemma/db.py:111-117 | a list of rows becomes a list of dicts, one per row pairing columns positionally; a single row becomes one dict; a `None` row raises TypeError |
| Reviews.ZipDictLookup | lemma/db.py:114-116 | the dict maps a column name to that column's value when no later column repeats the name |
| Reviews.ReviewWithFiles | db.py:163-180 | `(None, None)` exactly for an unknown id; otherwise the review with that id and exactly the files carrying it |
| Reviews.ReviewWithFilesDicts | lemma/db.py:223-241 | an unknown id raises TypeError, since the missing row goes through `get_dict_results` before the test, so the `(None, None)` branch is never reached |
| Reviews.ReviewDictsOfKnownId | lemma/db.py:229-237 | for a known id the result is the review's dict and, in rowid order, the dict of each file of the review, every column included |
| Reviews.ReviewDictFields | lemma/db.py:32-45 | the review dict maps "id", "name" and "project_id" to those fields of the row, and "created_at" and "updated_at" both to the `CURRENT_TIMESTAMP` text stored at the insert |
| Reviews.FileDictFields | lemma/db.py:47-58 | a file dict maps "id" and "review_id" to the row's keys, and "created_at" and "updated_at" both to the `CURRENT_TIMESTAMP` text stored at the insert |
| Reviews.GetProject | lemma/db.py:276-286 | `get_project` always raises a "Database error", since the query names `project.id` on the table `projects` |
| GitHubUrls.Locate | github_api.py:33-35 | the host, then `owner/` and `repo/` as non-empty slash-free segments, are read off the start of the URL, with the rest kept |
| GitHubUrls.LocateOf | github_api.py:33-35 | any way of writing a URL as host, owner, repository and rest is the one found |
| GitHubUrls.DigitRun | github_api.py:49 | `\d+` takes the longest run of digits at the start |
| GitHubUrls.PullRequestAt | github_api.py:33 | the pull-request pattern matches exactly when the text after `owner/repo/` is `pull/` and a digit, and its repository name is two segments joined by one `/` |
| GitHubUrls.PullRequestOf | github_api.py:49-58 | a pull-request URL yields "owner/repo" and the decimal value of its whole digit run |
| GitHubUrls.BranchRun | github_api.py:95 | the greedy match of `[^/]+(?:/[^/]+)*` is a non-empty prefix |
| GitHubUrls.BranchRunShape | github_api.py:95 | the greedy match is a path of non-empty segments joined by single `/`s, stopping at the end or at a `/` not followed by a segment |
| GitHubUrls.BranchRunOf | github_api.py:95 | any segment path followed by such a stop is exactly the greedy match |
| GitHubUrls.BranchAt | github_api.py:34 | the branch pattern matches exactly when `tree/` and a segment character follow `owner/repo/`, and the branch is a segment path |
| GitHubUrls.BranchOf | github_api.py:95-104 | a branch URL yields "owner/repo" and the whole segment path after `/tree/`, without a trailing `/` |
| GitHubUrls.CommitAt | github_api.py:35 | the commit pattern matches exactly when `commit/` and 40 lower-case hex digits follow `owner/repo/`, and yields those 40 digits |
| GitHubUrls.PatternsExclusive | github_api.py:33-35 | at most one of the three patterns matches a URL |
| GitHubUrls.Identify | github_api.py:22-44 | the type is PULL_REQUEST, BRANCH or COMMIT exactly when that pattern matches at the start, and UNKNOWN otherwise |
| GitHubUrls.IdentifyKeepsPrefix | github_api.py:37-42 | only a prefix is matched: any text appended to a classified URL keeps its type |
| GitHubUrls.ShortOrUpperHashUnknown | github_api.py:35-44 | after `/commit/`, fewer than 40 lower-case hex digits make the URL UNKNOWN |
| GitHubUrls.ExtractRepoAndPrNumber | github_api.py:47-61 | a result's repository name is two non-empty slash-free parts joined by one `/` |
| GitHubUrls.PullRequestExtracted | github_api.py:49-58 | every URL classified as a pull request is extracted, with the same repository and number |
| GitHubUrls.LooseDotExtracts | github_api.py:49 | with any other character in place of the dot of "github.com" the URL is UNKNOWN, yet the extractor reads it as the ".com" URL |
| GitHubUrls.SearchFrom | github_api.py:95-96 | `re.search` finds the leftmost offset at which the pattern matches, and no earlier offset matches |
| GitHubUrls.ExtractRepoAndBranchName | github_api.py:93-107 | the result is None exactly when the branch pattern matches at no offset; otherwise its name has two parts and its branch is a segment path |
| GitHubUrls.ExtractRepoAndCommitHash | github_api.py:139-153 | the result is None exactly when the commit pattern matches at no offset; otherwise it carries 40 lower-case hex digits |
| GitHubUrls.ClassifiedExtracted | github_api.py:39-42 | a URL classified as a branch or commit is extracted from offset 0 |
| GitHubUrls.ExtractPrAndRepo | ask_pr.py:17-36 | a result's repository name contains a `/` |
| GitHubUrls.AskPrAgrees | ask_pr.py:19-22 | `extract_pr_and_repo`, read through the `/`-separated pieces, agrees with `extract_repo_and_pr_number` on every input |
| ManageRepo.UrlPath | lemma/embeddings/manage_repo.py:25 | the path `urlparse` returns holds no query or fragment, is a prefix of the `urlsplit` path, and is that whole path for a scheme outside `uses_params` |
| ManageRepo.UrlPathOf | lemma/embeddings/manage_repo.py:25 | the path of `scheme://host/path`, with no `?`, `#` or `;`, is `/path` |
| ManageRepo.DropParams | lemma/embeddings/manage_repo.py:25 | splitting off `;params` keeps a prefix of the path and stops only at a `;` |
| ManageRepo.ParamsCut | lemma/embeddings/manage_repo.py:25 | a last segment `name;params` is cut back to `name`, with the directories before it kept |
| ManageRepo.ParamsKept | lemma/embeddings/manage_repo.py:25 | a path whose last segment has no `;` is kept whole |
| ManageRepo.GitHubScheme | lemma/embeddings/manage_repo.py:25 | `https` is a scheme whose paths have their `;params` split off |
| ManageRepo.GitHubParamsDropped | lemma/embeddings/manage_repo.py:25 | the path of `https://github.com/owner/repo;params` is `/owner/repo`: the `;params` never reach the repository name |
| ManageRepo.RepoInfoFromPath | lemma/embeddings/manage_repo.py:26-33 | the path, stripped of `/` at both ends, raises "Invalid GitHub repository URL." exactly when it holds no `/`; otherwise owner and repo are its first two slash-free pieces and the name is owner, `/`, and repo with every ".git" removed |
| ManageRepo.ParseRepoInfoFromGitHub | lemma/embeddings/manage_repo.py:23-33 | the only error is "Invalid GitHub repository URL."; the owner is non-empty and neither part holds a `/` |
| ManageRepo.LaterSegmentsIgnored | lemma/embeddings/manage_repo.py:31 | whatever follows `owner/repo` in the path is ignored |
| ManageRepo.EmptyRepoSegment | lemma/embeddings/manage_repo.py:26-31 | an empty segment is not rejected: `/owner//x` gives the repository "" |
| ManageRepo.GitSuffixDropped | lemma/embeddings/manage_repo.py:32 | a trailing ".git" is removed from the name when the rest holds no ".git" |
| ManageRepo.CloneUrlParsed | lemma/embeddings/manage_repo.py:23-33 | `https://github.com/owner/repo.git` gives owner, "repo.git" as the repository and "owner/repo" as the name |
| ManageRepo.ExtractedFolder | lemma/embeddings/manage_repo.py:78-82 | the folder is "{owner}-{repo}-" followed by the whole sha for a private repository and by its first 7 characters otherwise |
| Providers.StringToEnum | llm_client.py:17-21 | a member is found exactly when the upper-cased text is a member's name, and it is that member; otherwise `ValueError` "No enum member with name '...'" naming the original text |
| Providers.ValueRoundTrip | llm_client.py:12-21 | each member is found again from its value ("ollama", "openai") and from its name |
| Providers.CaseInsensitive | llm_client.py:19 | the lookup ignores case: a text and its lower-cased form are both found, as the same member, or both rejected |
| Providers.ClaudeIsNoMember | llm_client.py:12-14 | the enumeration has no `CLAUDE` member, so "claude" raises `ValueError` |
| Providers.DefaultModelName | llm_client.py:24-30 | "gpt-3.5-turbo" exactly for OpenAI and "llama3" exactly for Ollama |
| Providers.Llama3Template | llm_client.py:8-9 | the rendering starts with the fixed system header, ends with the assistant header, and its length is the parts' lengths summed |
| Providers.ParseRendered | llm_client.py:8-9 | a system text without `<` and any message are read back from their rendering |
| Providers.ParseSound | llm_client.py:8-9 | whatever reads back is exactly the rendering of the system text and message it reads back to |
| Config.FromModelName | views/config.py:49-66 | with neither an argument nor `DEFAULT_LLM_MODEL` the call raises `AttributeError` on `None.lower`; a result carries the chosen name; the only other errors are those of the fallback lookup or the missing `CLAUDE` member |
| Config.EnvFallback | views/config.py:61-64 | the provider named by `DEFAULT_LLM_CLIENT`, "openai" when unset, and its lookup error otherwise |
| Config.DispatchFollowsRules | views/config.py:53-64 | the provider is that of the first of "gpt", "llama", "deepseek", "claude" occurring in the lower-cased name, and the environment fallback when none occurs |
| Config.GptWins | views/config.py:53-54 | a name containing "gpt" in any case is OpenAI, whatever else it contains |
| Config.LlamaWithoutGpt | views/config.py:55-56 | a name containing "llama" but not "gpt" is Ollama |
| Config.FallbackWhenNoRule | views/config.py:61-64 | a non-empty name containing none of the four substrings takes its provider from the environment |
| Config.UnsetClientIsOpenAI | views/config.py:62-64 | with `DEFAULT_LLM_CLIENT` unset such a name is OpenAI |
| Config.DefaultModelDispatchesBack | views/config.py:49-66 | each provider's default model name is dispatched back to that provider |
| Config.DefaultModelUsesEnvironment | views/config.py:29 | the form's default model "o1-mini" matches no rule, so its provider comes from the environment |
| Prompts.Lookup | lemma/code_prompts.py:133-193 | `CODE_PROMPTS.get(key)`: found exactly when some pair carries the key, and then it is that pair's entry |
| Prompts.DefaultIsFirst | lemma/code_prompts.py:133-137 | "default" is the first key, and its entry is the dict lemma/chat_client.py falls back to |
| Prompts.DiffTestIsPrefix | lemma/chat_client.py:52 | `patch[:4] == "diff"` holds exactly when the patch starts with "diff", short patches included |
| Prompts.Unfence | lemma/chat_client.py:59 | what is read back from a user message is six characters shorter than it |
| Prompts.FenceRoundTrip | lemma/chat_client.py:59 | the patch is read back from the fenced user message, whatever it contains |
| Prompts.UnfenceSound | lemma/chat_client.py:59 | a message that reads back is the fencing of what it reads back to |
| Prompts.OptionsOr | lemma/chat_client.py:57 | `options or DEFAULT_PROMPT_OPTIONS` is never empty |
| Prompts.TableOptionsNonEmpty | lemma/code_prompts.py:104-193 | every entry of the table carries options, so the fallback to the default options never applies to a table entry |
| Prompts.PreparePrompts | lemma/chat_client.py:32-61 | raises "Error: No prompt or prompt_template" exactly when both are missing or empty; the user message reads back to the patch; a prompt gives the default options and a system prompt starting with the prompt and a newline; otherwise the template's entry, or the "default" one, gives the system prompt and options |
| Prompts.StrictPreparePrompts | chat_client.py:26-46 | raises exactly when there is no prompt and the template is missing, empty or unknown |
| Prompts.PromptOverridesTemplate | lemma/chat_client.py:45-55 | a non-empty prompt decides alone, in both clients: the template is ignored and the ending is the diff one exactly when the patch starts with "diff" |
| Prompts.UnknownTemplateFallsBack | lemma/chat_client.py:34-44 | an unknown template is served as "default": "You are a helpful coding assistant." with the default options |
| Prompts.StrictAgrees | chat_client.py:26-46 | the two clients agree on every input except an unknown template without a prompt, where only chat_client.py raises "Error: Invalid prompt_template" |
| Prompts.KnownTemplate | lemma/chat_client.py:34-35 | a known template gives its own entry's system prompt and options |
| Prompts.CodeReviewTemplate | lemma/code_prompts.py:143-147 | "code-review" uses its own prompt and a temperature of 0.2 |
| Cli.StepOf | cli.py:14-33 | one chunk emits the OpenAI delta content or the Ollama message content, `None` read as "", for those clients; only an Anthropic `message_delta` with a truthy stop reason stops; only an Anthropic `message_start` is skipped; an Anthropic chunk without `type` re-emits the `content` left by earlier chunks, and raises `UnboundLocalError` exactly when there is none |
| Cli.ListedIgnoresCarried | cli.py:14-17 | the OpenAI and Ollama branches assign `content` before reading it, so what it held before never shows in the output |
| Cli.UntypedChunkRepeatsLast | cli.py:19 | a Claude chunk without `type` after a stretch that neither stops nor fails writes that stretch's last `content` again |
| Cli.UntypedFirstChunkRaises | cli.py:19-35 | a Claude stream whose first chunk has no `type` raises `UnboundLocalError` for `content`, having written nothing |
| Cli.UntypedChunkExample | cli.py:19-35 | a text delta "Hi" followed by a chunk without `type` writes "HiHi" and raises nothing |
| Cli.ProcessStream | cli.py:12-13 | an empty stream writes nothing and raises nothing |
| Cli.ListedConcatenates | cli.py:12-36 | for OpenAI and Ollama the output is the in-order concatenation of the chunks' contents, and nothing is raised |
| Cli.FlowingPrefix | cli.py:34-36 | chunks that neither stop nor fail write their text ahead of what the rest of the stream writes, and the rest runs from the `content` they leave behind |
| Cli.StopDiscardsRest | cli.py:26-28 | a `message_delta` with a truthy stop reason ends processing: nothing after it is written |
| Cli.UnknownClientRaises | cli.py:32-33 | any other client type raises "unkown client_type" at the first chunk, having written nothing |
| Cli.ClaudeReply | cli.py:18-31 | the Anthropic events start, block start, two text deltas and a stopping `message_delta` write exactly the two deltas' text |
| Cli.CliSettings | cli.py:64-71 | a given client is kept, a missing one comes from `DEFAULT_LLM_CLIENT` ("openai" when unset) and fails when that names no member; a missing model is the client's default; with neither prompt nor template the template is "code-review" |
| Cli.DefaultsAvoidMissingPrompt | cli.py:70-71 | after the defaults, "No prompt or prompt_template" is raised exactly when an empty prompt or template was given and neither is non-empty; giving neither reviews with "code-review" |
| Cli.CliPatches | cli.py:85-92 | per file, the i-th patch or the i-th file's whole content, failing with `IndexError` exactly when whole files are asked for and there are fewer contents than patches; otherwise one joined text |
| Cli.CombinedSplitsBack | cli.py:90-92 | the single combined text splits at newlines back into the diffs it was joined from when none of them spans lines |
| Processing.GetPatches | views/processing.py:54-59 | per file, the patches and file names unchanged; otherwise one patch named "Combined Files" |
| Processing.CombinedPatchSplits | views/processing.py:54-59 | the combined patch splits at newlines back into the per-file patches when none spans lines, and is "" when there are none |
| Processing.AgreesWithCli | views/processing.py:54-59 | the web form and the command line send the same patches when whole files are not requested |
| Processing.OpenAIAgreesWithCli | views/processing.py:9-13 | an OpenAI stream accumulates exactly what the command line writes for it |
| Processing.OllamaStreamingRaises | views/processing.py:14-19 | against the older two-member `LLMType` taken alone, an Ollama stream raises `AttributeError` for `LLMType.CLAUDE` at its first chunk and accumulates nothing |
| Processing.OllamaStreamAccumulates | views/processing.py:14-21 | once the `CLAUDE` test is sound, an Ollama stream whose chunks all carry content accumulates what the command line writes, and raises nothing |
| Processing.AnalysedContent | views/processing.py:30-34 | the whole file's content when `analyze_whole_file` is set, else the patch; `IndexError` exactly when whole files are asked for and the index is past the contents |
| Processing.AnalysisPrompt | views/processing.py:24-51 | a prompt that is built carries, read back from its user message, exactly the analysed content |
| Processing.DefaultFormUsesCodeReview | views/config.py:25-30 | a form left at its defaults reviews with the "code-review" prompt and a temperature of 0.2 |
| Processing.CombinedWholeFileSeesFirstFile | views/processing.py:24-51 | in combined mode with whole files requested, the one analysis sees only the first file's content |
| Processing.SavedCode | views/processing.py:64-66 | the file's content in per-file mode, failing exactly when the index is past the contents; a single space otherwise |
| Processing.PerFileIndicesInRange | views/processing.py:54-75 | per file, with as many contents as patches, every listed patch has its content saved and can be analysed |
| ReviewUi.Truncate | lemma/views/ui.py:203-207 | a text no longer than the limit is kept; a longer one becomes its first `n` characters followed by "..." |
| ReviewUi.TruncateIdempotent | views/ui.py:181-185 | a truncated title is not shortened again |
| ReviewUi.ReviewTitle | lemma/views/ui.py:186-208 | for the five URL types the title is the template, the type's separator and at most 14 (7 for a commit) leading characters of the URL's last segment, and `TypeError` exactly when the template is missing; otherwise the prompt cut to 26 characters and "...", or the template when there is no prompt |
| ReviewUi.PullRequestTitle | lemma/views/ui.py:199-200 | a pull request's title is the template, " pull/" and its number, in full up to 14 digits |
| ReviewUi.CommitTitle | lemma/views/ui.py:201-202 | a commit's title is the template, a space and the first seven characters of its hash |
| ReviewUi.PromptTitleBounded | lemma/views/ui.py:203-207 | without a URL type the title is at most 29 characters long and starts as the prompt does |
| ReviewUi.SidebarTitle | views/ui.py:181-185 | a non-empty template is shown cut to 22 characters and "..." (at most 25 characters); otherwise the URL type |
| ReviewUi.IndividualPatches | lemma/views/ui.py:357-359 | the per-file patches are those `get_patches` gives per file |
| ReviewUi.ZipSeconds | lemma/views/ui.py:364-366 | `zip` keeps as many patches as there are file names |
| ReviewUi.CombinedPatches | lemma/views/ui.py:362-367 | one patch joining with newlines the patches that have a file name, named "Combined Files" |
| ReviewUi.CombinedAgreesWithProcessing | views/ui.py:315-318 | with a name for every patch the view combines exactly as `get_patches` does |
| ReviewUi.CombinedSplitsBack | lemma/views/ui.py:362-367 | the combined patch splits at newlines back into the named patches when none spans lines |
| ReviewUi.EscapeDiffIsEncoded | lemma/views/ui.py:89 | the two replacements amount to one left-to-right pass that escapes every backtick and rewrites every "${" |
| ReviewUi.EscapeDiffEscapesBackticks | views/ui.py:77 | every backtick of the escaped diff follows a backslash |
| ReviewUi.EscapeDiffReadsBackWithoutBackslash | html_templates.py:52 | a diff without backslashes is read back unchanged by the template literal it is placed in |
| ReviewUi.BackslashBacktickEndsLiteral | lemma/views/ui.py:89 | the diff holding a backslash and a backtick is escaped so that every backtick follows a backslash, yet the literal ends at its backtick and cannot be read back |
| ReviewUi.EscapeDiffCorrectedIsEncoded | lemma/views/ui.py:89 | with backslashes doubled first the escaping is the same one-pass encoding with backslashes escaped too |
| ReviewUi.EncodedReadsBack | html_templates.py:52 | the one-pass encoding with backslashes escaped reads back as the diff, for every diff |
| ReviewUi.CorrectedEscapeReadsBack | html_templates.py:52 | the corrected escaping reads back as the diff and escapes every backtick |
| ReviewUi.ViewerHeight | lemma/views/ui.py:88 | per file the height is the code's height capped at 1000, equal to it exactly when it is at most 1000; otherwise the code's height |
| ReviewUi.ViewerHeightMonotone | views/ui.py:76 | a taller code block never gets a shorter viewer |
| ReviewUi.MermaidSource | lemma/views/ui.py:433-436 | a diagram is shown exactly when the answer starts with "```mermaid", and its source is the answer without its first 10 and last 3 characters (empty when shorter than that) |
| ReviewUi.MermaidRoundTrip | views/ui.py:398-401 | a diagram fenced by "```mermaid" and "```" gives back the text between the fences |
| Detect.FirstListing | detect.py:42-46 | the index of an entry listing the extension with no earlier entry listing it, and none exactly when no entry lists it |
| Detect.ProgrammingLanguage | detect.py:3-46 | the answer is "Unknown" or one of the table's languages |
| Detect.FirstListingWins | detect.py:42-44 | the language is that of the first entry listing the lower-cased extension |
| Detect.UnknownIsNoLanguage | detect.py:16-40 | "Unknown" is not a language of the table, so it cannot be confused with a match |
| Detect.UnknownIffUnlisted | detect.py:42-46 | the answer is "Unknown" exactly when no entry lists the lower-cased extension |
| Detect.CaseInsensitive | detect.py:14 | an extension and its lower-cased form detect the same language |
| Detect.ExtensionsDottedAndShort | detect.py:16-40 | every listed extension starts with a dot and has at most six characters |
| Detect.UnlistedShapes | detect.py:42-46 | an extension without its leading dot, or longer than six characters, is "Unknown" |
| Detect.FirstExtensionDetectsLanguage | tests/test_detect.py:25-55 | each language's first listed extension detects that language: ".py" python through ".cu" cuda |
| Detect.HeaderIsCpp | detect.py:20-21 | ".h" is listed by both "cpp" and "c", and detects as "cpp", which comes first |
| Detect.UpperCasePython | detect.py:14-17 | ".PY" detects as python |
| Detect.UnrecognisedExamples | tests/test_detect.py:51 | ".unknown", and "py" without its dot, are "Unknown" |

## Left out

- Search.SearchSimilarCode: the width check compares the query with the first vector of the index file; a file without vectors has no such vector, and the builder never writes one, so against it the model checks nothing where faiss would compare with the dimension stored in the file. The answer has `top_k` pairs, so a `top_k` of 0 gives no results, where faiss refuses a `k` of 0 or less with a `RuntimeError`; a negative `top_k` is outside the model.
- Network, file and console I/O, including the GitHub API, the model clients, `git`, archive download and extraction, the SQLite connection and the FAISS library. Their results are inputs, and the FAISS index file is a sequence of vectors in the store.
- Floating point: vectors are integer sequences and norm zero means all components are zero. Distances are passed through unchanged as reals. Prompt temperatures are held in tenths.
- `create_embeddings` and the embedding model: their output is an input (`Store.EmbedOutcome`). The embedding module itself holds only stubs.
- `is_ignored_file` is a parameter of the segmenter, because its rules are outside this model.
- `get_code_height` and `get_line_count` are imported from detect by both views and by tests/test_detect.py, but detect.py as modelled defines only `get_programming_language`. They are not part of this model: the height is a parameter of `ReviewUi.ViewerHeight`.
- Concurrency: the `async` functions run their steps in order, one chunk at a time.
- `urlparse` is modelled for the `scheme://host/path;params?query#fragment` shape: `ManageRepo.UrlPath` keeps the part between the host and the first `?` or `#`, and splits the `;params` off the last segment for the schemes in `uses_params`. The stripping of leading spaces and control characters, the removal of tabs and newlines, and the `ValueError` for unbalanced IPv6 brackets in the host are not modelled.
- Python's `lower`/`upper` are modelled on ASCII letters only, and `\d` as the ASCII digits.
- The prose of the prompt constants is abstract: an entry's system prompt names the constant that holds it (`Prompts.Prose`).
- The root `code_prompts.py` does not define `CODE_PROMPTS`, `DEFAULT_PROMPT_OPTIONS` or the two endings, although chat_client.py imports them. Both chat clients are modelled over the table of lemma/code_prompts.py.
- In the OpenAI and Ollama branches of `Cli.StepOf` and of `Processing.ChunkText`, and in the Claude branch of `Processing.ChunkText`, a chunk whose shape does not match its client type is one `TypeError`, `Cli.ShapeMismatch`. Python would raise whatever a missing attribute or key raises there: `chunk.text` on a chunk without it is an `AttributeError`. In the Claude branch of `Cli.StepOf` the model follows the code instead: a chunk without `type` assigns nothing, and only a missing `delta.text` or `delta.stop_reason` is folded into the chunk's optional fields.
- The template-literal reader `ReviewUi.ReadTemplate` reads only the escapes and the substitution the escaping produces. Other escapes are not given a reading.
- Streamlit rendering, session state and widgets; the views' layout code.
- ReviewUi.ReviewTitle: the review's `github_url` is taken to be present; a `None` URL together with a shown URL type is not modelled.
- Segment.SegmentCodebase: `max_chunk_size` must be positive. With 0 or less, Python returns `[]` when every kept file is empty and loops forever otherwise (`Segment.NonPositiveSizeNeverExits`); the model gives neither outcome.
- IndexBuild.CreateVectorIndexes: when the run raises `IndexError` (fewer vectors than chunks), the inserts not yet committed are dropped from the store, as a closed connection would drop them.
- Reviews.SortNewestFirst: SQL leaves the order of reviews with the same `created_at` text open. The model keeps them in rowid order, and the contract states only the ordering by time and that the rows are a permutation.
- Providers.DefaultModelName: the branch raising "not a valid llm client type" is unreachable, since `LlmType` has exactly the two members.
- Cli.ProcessStream: whether `LLMType.CLAUDE` exists is the parameter `claudeDefined`. The llm_client.py modelled here is older than the files that use it: its enumeration lacks `CLAUDE` and it defines no `ClaudeClient`, while chat_client.py:4 imports `ClaudeClient` from it, and the command line and the views test `LLMType.CLAUDE`. With that file, cli.py and views/processing.py would fail with `ImportError` when loaded, through chat_client.py. `claudeDefined` covers both versions.
- Providers.StringToEnum: follows the modelled llm_client.py, which is older than its importers and tests. tests/test_llm_client.py:17 expects "claude" to give `LLMType.CLAUDE`, while the model, like that file, raises `ValueError`.
- Providers.DefaultModelName: follows the modelled llm_client.py, which is older than its importers and tests. tests/test_llm_client.py:23-25 expects "gpt-4o-mini", "llama3.1" and a Claude default, while the model gives "gpt-3.5-turbo" and "llama3" as that file does.
- Processing.ChunkText: `claudeDefined` false is the modelled llm_client.py, which is older than its importers and tests, and with it views/processing.py would not load at all (`ImportError` through chat_client.py:4); `claudeDefined` true is the newer version those files expect.

## Findings

| source | as written | input that shows it | evidently intended | confidence | as-written member | corrected member |
|---|---|---|---|---|---|---|
| lemma/embeddings/search.py:79-104 | a nearest-neighbour position is resolved against the project's `file_chunk_embeddings` rows in rowid order, not through `faiss_index_mapping` | chunks with vectors `[0]` and `[1]`: only `[1]` enters the index, at position 0, and position 0 resolves to the first chunk. The same happens with a second build of a project, and with the padding position -1 | resolve position `p` through the mapping row `(project_id, p)` the builder wrote | not executed | Search.SearchSimilarCode, Consistency.ZeroVectorMisresolves, Consistency.StaleBuildMisresolves, Consistency.PaddingResolvesToLastRow | Search.SearchViaMapping, Consistency.MappingSearchFindsIndexedChunks, Consistency.FreshBuildSearchesAgree |
| views/processing.py:14-19 | a version mismatch rather than a reachable bug: the test `client_type == LLMType.CLAUDE` is evaluated for every non-OpenAI stream, but the llm_client.py:12-14 modelled here defines no `CLAUDE` member. That file is older than its importers: chat_client.py:4 imports a `ClaudeClient` it lacks, so with it views/processing.py fails to load with `ImportError` before any stream, and tests/test_llm_client.py:17 expects `CLAUDE` | against the modelled llm_client.py taken alone, any non-empty Ollama stream raises `AttributeError` at its first chunk | with the newer llm_client.py that defines `CLAUDE`, an Ollama stream accumulates its message contents | not executed; version mismatch | Processing.OllamaStreamingRaises | Processing.OllamaStreamAccumulates |
| lemma/views/ui.py:89 | the diff placed in the viewer's template literal has backticks and `${` escaped but not backslashes | a diff holding a backslash followed by a backtick: the backtick's escape is itself escaped and the literal ends there | double backslashes first, so the literal reads back as the diff | not executed | ReviewUi.BackslashBacktickEndsLiteral | ReviewUi.EscapeDiffCorrected, ReviewUi.CorrectedEscapeReadsBack |

=== FILE: build.dfy ===
/** `create_vector_indexes`: a transition of the store that writes one chunk
    row per input chunk, an embedding row per vector of the expected
    length, the index file of the non-zero ones and the mapping from index
    positions to chunk ids. */
module IndexBuild {
  import opened Wrappers
  import opened Store
  import Segment

  /** The exceptions `create_vector_indexes` lets escape. */
  datatype BuildError =
    | EmbeddingServiceError     // raised by the embedding service
    | NoEmbeddings              // ValueError: the service returned nothing
    | EmbeddingIndexOutOfRange  // IndexError: fewer vectors than chunks
    | NoValidEmbeddings         // ValueError: no vector reached the index

  /** The store after the call, whether it returned or raised. */
  datatype Built = Built(db: Db, result: Result<string, BuildError>)

  /** `np.linalg.norm(arr) == 0`. */
  predicate IsZero(v: Vector) {
    forall k :: 0 <= k < |v| ==> v[k] == 0
  }

  /** Which vectors a position list keeps: those of the expected length (they
      get an embedding row), or those that are also non-zero (they enter the index). */
  datatype Keep = Fitting | Indexable

  predicate Kept(vs: seq<Vector>, dim: nat, k: nat, mode: Keep)
    requires k < |vs|
  {
    |vs[k]| == dim && (mode == Indexable ==> !IsZero(vs[k]))
  }

  /** The positions among the first `n` vectors that `mode` keeps, ascending. */
  function Positions(vs: seq<Vector>, dim: nat, n: nat, mode: Keep): (r: seq<nat>)
    requires n <= |vs|
    ensures forall j :: 0 <= j < |r| ==> r[j] < n && Kept(vs, dim, r[j], mode)
    ensures forall j, k :: 0 <= j < k < |r| ==> r[j] < r[k]
    ensures forall k :: 0 <= k < n && Kept(vs, dim, k, mode) ==> k in r
    ensures |r| <= n
  {
    if n == 0 then []
    else Positions(vs, dim, n - 1, mode) + (if Kept(vs, dim, n - 1, mode) then [n - 1] else [])
  }

  /** The `file_chunks` row written for one input chunk. */
  function RowFor(projectId: string, repoPath: string, c: Segment.Chunk, id: Id): ChunkRow {
    ChunkRow(id, projectId, repoPath, c.filePath, c.chunkIndex, c.chunkText)
  }

  /** What the loop has produced so far: the rows it inserted, and the lists
      `faiss_vectors` and `faiss_index_map`. */
  datatype Pass = Pass(rows: seq<ChunkRow>, embeddingRows: seq<EmbeddingRow>, vectors: seq<Vector>, indexIds: seq<Id>)

  /** The first `n` iterations of the loop over the chunks. Every chunk gets
      its row; a vector of the wrong length gets nothing more; a zero vector
      gets an embedding row but stays out of the index. The four outputs
      are assembled field by field. */
  function Loop(projectId: string, repoPath: string, chunks: seq<Segment.Chunk>, vs: seq<Vector>, ids: seq<Id>, dim: nat, n: nat): (p: Pass)
    requires n <= |chunks| <= |vs| && |ids| == |chunks|
    ensures |p.rows| == n
    ensures forall k :: 0 <= k < n ==> p.rows[k] == RowFor(projectId, repoPath, chunks[k], ids[k])
    ensures var e := Positions(vs, dim, n, Fitting);
      |p.embeddingRows| == |e| &&
      forall j :: 0 <= j < |e| ==> p.embeddingRows[j] == EmbeddingRow(ids[e[j]], vs[e[j]], dim)
    ensures var x := Positions(vs, dim, n, Indexable);
      |p.vectors| == |x| == |p.indexIds| &&
      forall j :: 0 <= j < |x| ==> p.vectors[j] == vs[x[j]] && p.indexIds[j] == ids[x[j]]
  {
    var index := IndexedSoFar(vs, ids, dim, n);
    Pass(RowsSoFar(projectId, repoPath, chunks, ids, n), EmbeddedSoFar(vs, ids, dim, n), index.0, index.1)
  }

  /** The chunk rows of the first `n` iterations: one per chunk, in order. */
  function RowsSoFar(projectId: string, repoPath: string, chunks: seq<Segment.Chunk>, ids: seq<Id>, n: nat): (r: seq<ChunkRow>)
    requires n <= |chunks| && |ids| == |chunks|
    ensures |r| == n
    ensures forall k :: 0 <= k < n ==> r[k] == RowFor(projectId, repoPath, chunks[k], ids[k])
  {
    if n == 0 then []
    else RowsSoFar(projectId, repoPath, chunks, ids, n - 1) + [RowFor(projectId, repoPath, chunks[n - 1], ids[n - 1])]
  }

  /** The embedding rows of the first `n` iterations: one per vector of
      the expected length. */
  function EmbeddedSoFar(vs: seq<Vector>, ids: seq<Id>, dim: nat, n: nat): (r: seq<EmbeddingRow>)
    requires n <= |ids| <= |vs|
    ensures var e := Positions(vs, dim, n, Fitting);
      |r| == |e| && forall j :: 0 <= j < |e| ==> r[j] == EmbeddingRow(ids[e[j]], vs[e[j]], dim)
  {
    if n == 0 then []
    else
      var k := n - 1;
      var r := EmbeddedSoFar(vs, ids, dim, k);
      if |vs[k]| != dim then r else r + [EmbeddingRow(ids[k], vs[k], dim)]
  }

  /** `faiss_vectors` and `faiss_index_map` after the first `n`
      iterations: the non-zero vectors of the expected length, with their ids. */
  function IndexedSoFar(vs: seq<Vector>, ids: seq<Id>, dim: nat, n: nat): (r: (seq<Vector>, seq<Id>))
    requires n <= |ids| <= |vs|
    ensures var x := Positions(vs, dim, n, Indexable);
      |r.0| == |x| == |r.1| &&
      forall j :: 0 <= j < |x| ==> r.0[j] == vs[x[j]] && r.1[j] == ids[x[j]]
  {
    if n == 0 then ([], [])
    else
      var k := n - 1;
      var r := IndexedSoFar(vs, ids, dim, k);
      if |vs[k]| != dim || IsZero(vs[k]) then r else (r.0 + [vs[k]], r.1 + [ids[k]])
  }

  /** The mapping rows inserted after the index is written: position `j` to the `j`-th indexed chunk. */
  function MappingRows(projectId: string, indexIds: seq<Id>): (r: seq<MappingRow>)
    ensures |r| == |indexIds|
    ensures forall j :: 0 <= j < |r| ==> r[j].projectId == projectId && r[j].chunkId == indexIds[j]
    ensures forall j :: 0 <= j < |r| ==> r[j].faissIndex == j
  {
    seq(|indexIds|, j requires 0 <= j < |indexIds| => MappingRow(projectId, j, indexIds[j]))
  }

  /** The uuid4 ids drawn for the chunks: pairwise distinct and not yet in `file_chunks`. */
  predicate FreshIds(db: Db, ids: seq<Id>) {
    (forall i, j :: 0 <= i < j < |ids| ==> ids[i] != ids[j]) &&
    (forall k :: 0 <= k < |ids| ==> ids[k] !in ChunkIds(db.chunks))
  }

  /** The tables after `create_embeddings_tables` and the committed delete of
      the project's mapping rows. */
  function Cleared(db: Db, projectId: string): (r: Db)
    ensures r.hasTables && r.chunks == db.chunks && r.embeddings == db.embeddings && r.indexFiles == db.indexFiles
    ensures forall m :: m in r.mappings <==> m in db.mappings && m.projectId != projectId
    ensures Valid(db) ==> Valid(r)
  {
    var t := CreateEmbeddingsTables(db);
    t.(mappings := DeleteProjectMappings(t.mappings, projectId))
  }

  /** `create_vector_indexes(conn, project_id, repo_local_path, all_chunks)`,
      with `embed` the embedding service's reply for the chunk texts and
      `ids` the uuid4 values drawn, one per chunk. The inserts of a run that
      raises `IndexError` were never committed and are dropped. */
  function CreateVectorIndexes(db: Db, projectId: string, repoPath: string, chunks: seq<Segment.Chunk>, embed: EmbedOutcome, ids: seq<Id>): (out: Built)
    requires |ids| == |chunks|
    ensures out.result.Ok? ==> out.result.value == IndexPath(projectId) && IndexPath(projectId) in out.db.indexFiles
    ensures out.result.Err? ==> forall m :: m in out.db.mappings ==> m.projectId != projectId
    ensures (embed == ReturnedNone || embed == Returned([])) ==> out.result == Err(NoEmbeddings)
    ensures out.result.Err? && out.result.error != NoValidEmbeddings ==> out.db == Cleared(db, projectId)
    ensures |db.chunks| <= |out.db.chunks| && out.db.chunks[..|db.chunks|] == db.chunks
  {
    var cleared := Cleared(db, projectId);
    match embed
    case Raised => Built(cleared, Err(EmbeddingServiceError))
    case ReturnedNone => Built(cleared, Err(NoEmbeddings))
    case Returned(vs) =>
      if |vs| == 0 then Built(cleared, Err(NoEmbeddings))
      else if |vs| < |chunks| then Built(cleared, Err(EmbeddingIndexOutOfRange))
      else
        var p := Loop(projectId, repoPath, chunks, vs, ids, |vs[0]|, |chunks|);
        var written := cleared.(chunks := cleared.chunks + p.rows, embeddings := cleared.embeddings + p.embeddingRows);
        if |p.vectors| == 0 then Built(written, Err(NoValidEmbeddings))
        else
          var path := IndexPath(projectId);
          Built(written.(mappings := written.mappings + MappingRows(projectId, p.indexIds),
                         indexFiles := written.indexFiles[path := p.vectors]),
                Ok(path))
  }

  /** The inputs of a run that gets past the embedding service: at least
      one vector, and at least as many vectors as chunks. */
  predicate Proceeds(chunks: seq<Segment.Chunk>, embed: EmbedOutcome) {
    embed.Returned? && |embed.vectors| > 0 && |embed.vectors| >= |chunks|
  }

  /** The loop state of a run that proceeds. */
  function RunPass(projectId: string, repoPath: string, chunks: seq<Segment.Chunk>, embed: EmbedOutcome, ids: seq<Id>): Pass
    requires |ids| == |chunks| && Proceeds(chunks, embed)
  {
    Loop(projectId, repoPath, chunks, embed.vectors, ids, |embed.vectors[0]|, |chunks|)
  }

  /** The effect of a run that proceeds, field by field. */
  lemma RunShape(db: Db, projectId: string, repoPath: string, chunks: seq<Segment.Chunk>, embed: EmbedOutcome, ids: seq<Id>)
    requires |ids| == |chunks| && Proceeds(chunks, embed)
    ensures var out := CreateVectorIndexes(db, projectId, repoPath, chunks, embed, ids);
      var p := RunPass(projectId, repoPath, chunks, embed, ids);
      out.db.hasTables &&
      out.db.chunks == db.chunks + p.rows &&
      out.db.embeddings == db.embeddings + p.embeddingRows &&
      (|p.vectors| == 0 ==> out.result == Err(NoValidEmbeddings) && out.db.mappings == Cleared(db, projectId).mappings) &&
      (|p.vectors| > 0 ==>
        out.result == Ok(IndexPath(projectId)) &&
        out.db.mappings == Cleared(db, projectId).mappings + MappingRows(projectId, p.indexIds) &&
        out.db.indexFiles[IndexPath(projectId)] == p.vectors)
  {
  }

  /** The rows of a run, in the form the key and order arguments use. */
  lemma PassShape(projectId: string, repoPath: string, chunks: seq<Segment.Chunk>, vs: seq<Vector>, ids: seq<Id>)
    requires 0 < |vs| && |chunks| <= |vs| && |ids| == |chunks|
    ensures var p := Loop(projectId, repoPath, chunks, vs, ids, |vs[0]|, |chunks|);
      var e := Positions(vs, |vs[0]|, |chunks|, Fitting);
      |p.rows| == |ids| && |p.embeddingRows| == |e| &&
      (forall k :: 0 <= k < |p.rows| ==> p.rows[k].id == ids[k] && p.rows[k].projectId == projectId) &&
      (forall j :: 0 <= j < |e| ==> e[j] < |ids| && p.embeddingRows[j].chunkId == ids[e[j]]) &&
      (forall j, k :: 0 <= j < k < |e| ==> e[j] < e[k])
  {
  }

  /** The ids a run adds to the index are among the run's ids. */
  lemma IndexedIdsAreRunIds(projectId: string, repoPath: string, chunks: seq<Segment.Chunk>, embed: EmbedOutcome, ids: seq<Id>)
    requires |ids| == |chunks| && Proceeds(chunks, embed)
    ensures var p := RunPass(projectId, repoPath, chunks, embed, ids);
      forall j :: 0 <= j < |p.indexIds| ==> p.indexIds[j] in ids
  {
    var vs := embed.vectors;
    var p := RunPass(projectId, repoPath, chunks, embed, ids);
    var x := Positions(vs, |vs[0]|, |chunks|, Indexable);
    forall j | 0 <= j < |p.indexIds| ensures p.indexIds[j] in ids {
      assert p.indexIds[j] == ids[x[j]];
    }
  }

  /** A fresh id has no embedding row yet: every embedding row refers to a stored chunk. */
  lemma FreshNotEmbedded(db: Db, ids: seq<Id>, k: nat)
    requires Valid(db) && FreshIds(db, ids) && k < |ids|
    ensures ids[k] !in EmbeddedIds(db.embeddings)
  {
  }

  /** The chunk rows a run appends carry the fresh ids, which no earlier row has. */
  lemma AppendedChunksKeepKey(prev: seq<ChunkRow>, rows: seq<ChunkRow>, ids: seq<Id>)
    requires ChunkKey(prev) && |rows| == |ids|
    requires forall k :: 0 <= k < |rows| ==> rows[k].id == ids[k]
    requires forall i, j :: 0 <= i < j < |ids| ==> ids[i] != ids[j]
    requires forall k :: 0 <= k < |ids| ==> ids[k] !in ChunkIds(prev)
    ensures ChunkKey(prev + rows)
    ensures ChunkIds(prev + rows) == ChunkIds(prev) + ChunkIds(rows)
  {
    var all := prev + rows;
    forall i, j | 0 <= i < j < |all| ensures all[i].id != all[j].id {
      if j >= |prev| && i < |prev| {
        assert all[i] in prev;
      }
    }
  }

  /** The embedding rows a run appends are for distinct fresh ids. */
  lemma AppendedEmbeddingsKeepKey(db: Db, e: seq<nat>, rows: seq<EmbeddingRow>, ids: seq<Id>)
    requires Valid(db) && FreshIds(db, ids)
    requires |rows| == |e|
    requires forall j :: 0 <= j < |e| ==> e[j] < |ids| && rows[j].chunkId == ids[e[j]]
    requires forall j, k :: 0 <= j < k < |e| ==> e[j] < e[k]
    ensures EmbeddingKey(db.embeddings + rows)
  {
    var all := db.embeddings + rows;
    forall i, j | 0 <= i < j < |all| ensures all[i].chunkId != all[j].chunkId {
      if i < |db.embeddings| && j >= |db.embeddings| {
        assert all[i] in db.embeddings;
      }
    }
  }

  /** The rows appended for the index positions: one per position, of the project alone. */
  lemma AppendedMappingsKeepKey(prev: seq<MappingRow>, projectId: string, indexIds: seq<Id>)
    requires MappingKey(prev)
    requires forall m :: m in prev ==> m.projectId != projectId
    ensures MappingKey(prev + MappingRows(projectId, indexIds))
  {
    var all := prev + MappingRows(projectId, indexIds);
    forall i, j | 0 <= i < j < |all|
      ensures all[i].projectId != all[j].projectId || all[i].faissIndex != all[j].faissIndex
    {
      if i < |prev| && j >= |prev| {
        assert all[i] in prev;
      }
    }
  }

  /** Appending mapping rows that refer to stored chunks and keep the key
      keeps the schema. */
  lemma MappedWrittenValid(written: Db, maps: seq<MappingRow>)
    requires Valid(written) && written.hasTables && MappingKey(written.mappings + maps)
    requires forall m :: m in maps ==> m.chunkId in ChunkIds(written.chunks)
    ensures Valid(written.(mappings := written.mappings + maps))
  {
  }

  /** The tables after the loop's inserts keep the schema: the new rows
      carry fresh ids and the new embedding rows refer to new chunk rows. */
  lemma WrittenRowsValid(cleared: Db, rows: seq<ChunkRow>, embeddingRows: seq<EmbeddingRow>, ids: seq<Id>, e: seq<nat>)
    requires Valid(cleared) && cleared.hasTables
    requires ChunkKey(cleared.chunks + rows) && EmbeddingKey(cleared.embeddings + embeddingRows)
    requires |rows| == |ids| && |embeddingRows| == |e|
    requires forall k :: 0 <= k < |rows| ==> rows[k].id == ids[k]
    requires forall j :: 0 <= j < |e| ==> e[j] < |ids| && embeddingRows[j].chunkId == ids[e[j]]
    ensures var written := cleared.(chunks := cleared.chunks + rows, embeddings := cleared.embeddings + embeddingRows);
      Valid(written) && forall k :: 0 <= k < |ids| ==> ids[k] in ChunkIds(written.chunks)
  {
    var all := cleared.chunks + rows;
    forall k | 0 <= k < |ids| ensures ids[k] in ChunkIds(all) {
      assert all[|cleared.chunks| + k] == rows[k];
    }
    forall r | r in embeddingRows ensures r.chunkId in ChunkIds(all) {
      var j :| 0 <= j < |embeddingRows| && embeddingRows[j] == r;
      assert ids[e[j]] in ChunkIds(all);
    }
  }

  /** The mapping rows of a run refer to chunks the run stored. */
  lemma MappingRowsReferToRun(written: Db, projectId: string, indexIds: seq<Id>, ids: seq<Id>)
    requires forall k :: 0 <= k < |ids| ==> ids[k] in ChunkIds(written.chunks)
    requires forall j :: 0 <= j < |indexIds| ==> indexIds[j] in ids
    ensures forall m :: m in MappingRows(projectId, indexIds) ==> m.chunkId in ChunkIds(written.chunks)
  {
  }

  /** A run keeps the primary and foreign keys of the schema, whether it
      returns or raises. */
  lemma BuildKeepsSchema(db: Db, projectId: string, repoPath: string, chunks: seq<Segment.Chunk>, embed: EmbedOutcome, ids: seq<Id>)
    requires Valid(db) && |ids| == |chunks| && FreshIds(db, ids)
    ensures Valid(CreateVectorIndexes(db, projectId, repoPath, chunks, embed, ids).db)
  {
    if Proceeds(chunks, embed) {
      RunKeepsSchema(db, projectId, repoPath, chunks, embed, ids);
    }
  }

  /** The schema after a run that gets past the embedding service. */
  lemma RunKeepsSchema(db: Db, projectId: string, repoPath: string, chunks: seq<Segment.Chunk>, embed: EmbedOutcome, ids: seq<Id>)
    requires Valid(db) && |ids| == |chunks| && FreshIds(db, ids) && Proceeds(chunks, embed)
    ensures Valid(CreateVectorIndexes(db, projectId, repoPath, chunks, embed, ids).db)
  {
    var written := WrittenKeepsSchema(db, projectId, repoPath, chunks, embed, ids);
    if |RunPass(projectId, repoPath, chunks, embed, ids).vectors| > 0 {
      IndexedRunKeepsSchema(db, projectId, repoPath, chunks, embed, ids, written);
    } else {
      RunShape(db, projectId, repoPath, chunks, embed, ids);
      SameTablesValid(CreateVectorIndexes(db, projectId, repoPath, chunks, embed, ids).db, written);
    }
  }

  /** The schema after a run that writes an index. */
  lemma IndexedRunKeepsSchema(db: Db, projectId: string, repoPath: string, chunks: seq<Segment.Chunk>, embed: EmbedOutcome, ids: seq<Id>, written: Db)
    requires |ids| == |chunks| && Proceeds(chunks, embed)
    requires |RunPass(projectId, repoPath, chunks, embed, ids).vectors| > 0
    requires Valid(written) && written.hasTables
    requires forall k :: 0 <= k < |ids| ==> ids[k] in ChunkIds(written.chunks)
    requires forall m :: m in written.mappings ==> m.projectId != projectId
    requires var p := RunPass(projectId, repoPath, chunks, embed, ids);
      var cleared := Cleared(db, projectId);
      written == cleared.(chunks := cleared.chunks + p.rows, embeddings := cleared.embeddings + p.embeddingRows)
    ensures Valid(CreateVectorIndexes(db, projectId, repoPath, chunks, embed, ids).db)
  {
    var p := RunPass(projectId, repoPath, chunks, embed, ids);
    RunShape(db, projectId, repoPath, chunks, embed, ids);
    IndexedIdsAreRunIds(projectId, repoPath, chunks, embed, ids);
    IndexedKeepsSchema(written, projectId, p.indexIds, ids);
    SameTablesValid(CreateVectorIndexes(db, projectId, repoPath, chunks, embed, ids).db,
                    written.(mappings := written.mappings + MappingRows(projectId, p.indexIds)));
  }

  /** Validity depends on the tables alone. */
  lemma SameTablesValid(x: Db, y: Db)
    requires Valid(y) && x.hasTables == y.hasTables
    requires x.chunks == y.chunks && x.embeddings == y.embeddings && x.mappings == y.mappings
    ensures Valid(x)
  {
  }

  /** Appending the mapping rows of a run to the written store keeps the schema. */
  lemma IndexedKeepsSchema(written: Db, projectId: string, indexIds: seq<Id>, ids: seq<Id>)
    requires Valid(written) && written.hasTables
    requires forall k :: 0 <= k < |ids| ==> ids[k] in ChunkIds(written.chunks)
    requires forall m :: m in written.mappings ==> m.projectId != projectId
    requires forall j :: 0 <= j < |indexIds| ==> indexIds[j] in ids
    ensures Valid(written.(mappings := written.mappings + MappingRows(projectId, indexIds)))
  {
    AppendedMappingsKeepKey(written.mappings, projectId, indexIds);
    MappingRowsReferToRun(written, projectId, indexIds, ids);
    MappedWrittenValid(written, MappingRows(projectId, indexIds));
  }

  /** The store after the loop's inserts, before any mapping row: it keeps
      the schema and holds every fresh id. */
  lemma WrittenKeepsSchema(db: Db, projectId: string, repoPath: string, chunks: seq<Segment.Chunk>, embed: EmbedOutcome, ids: seq<Id>)
      returns (written: Db)
    requires Valid(db) && |ids| == |chunks| && FreshIds(db, ids) && Proceeds(chunks, embed)
    ensures var cleared := Cleared(db, projectId);
      var p := RunPass(projectId, repoPath, chunks, embed, ids);
      written == cleared.(chunks := cleared.chunks + p.rows, embeddings := cleared.embeddings + p.embeddingRows) &&
      Valid(written) && written.hasTables &&
      (forall k :: 0 <= k < |ids| ==> ids[k] in ChunkIds(written.chunks)) &&
      (forall m :: m in written.mappings ==> m.projectId != projectId)
  {
    var vs := embed.vectors;
    var cleared := Cleared(db, projectId);
    var p := RunPass(projectId, repoPath, chunks, embed, ids);
    var e := Positions(vs, |vs[0]|, |chunks|, Fitting);
    PassShape(projectId, repoPath, chunks, vs, ids);
    AppendedChunksKeepKey(cleared.chunks, p.rows, ids);
    AppendedEmbeddingsKeepKey(db, e, p.embeddingRows, ids);
    WrittenRowsValid(cleared, p.rows, p.embeddingRows, ids, e);
    written := cleared.(chunks := cleared.chunks + p.rows, embeddings := cleared.embeddings + p.embeddingRows);
  }

  /** The persisted index of a project and its mapping rows agree: every
      position of the index is mapped to a chunk whose stored vector is the
      vector at that position, and no other position of the project is mapped. */
  predicate Aligned(db: Db, projectId: string) {
    IndexPath(projectId) in db.indexFiles &&
    var index := db.indexFiles[IndexPath(projectId)];
    (forall p :: 0 <= p < |index| ==>
      MappedChunk(db.mappings, projectId, p).Some? &&
      EmbeddingOf(db.embeddings, MappedChunk(db.mappings, projectId, p).value) == Some(index[p])) &&
    (forall m :: m in db.mappings && m.projectId == projectId ==> 0 <= m.faissIndex < |index|)
  }

  /** After a run that returns, the mapping rows of the project are exactly
      the positions 0..N-1 of the index just written, each naming the chunk
      whose vector was added at that position. Earlier mapping rows of the
      project are gone, so a rebuild leaves one generation. */
  lemma BuildAlignsIndex(db: Db, projectId: string, repoPath: string, chunks: seq<Segment.Chunk>, embed: EmbedOutcome, ids: seq<Id>)
    requires Valid(db) && |ids| == |chunks| && FreshIds(db, ids)
    requires CreateVectorIndexes(db, projectId, repoPath, chunks, embed, ids).result.Ok?
    ensures Aligned(CreateVectorIndexes(db, projectId, repoPath, chunks, embed, ids).db, projectId)
  {
    var out := CreateVectorIndexes(db, projectId, repoPath, chunks, embed, ids).db;
    BuildKeepsSchema(db, projectId, repoPath, chunks, embed, ids);
    assert Proceeds(chunks, embed);
    RunShape(db, projectId, repoPath, chunks, embed, ids);
    var vs := embed.vectors;
    AlignedAfterRun(out, projectId, Cleared(db, projectId).mappings, db.embeddings,
      RunPass(projectId, repoPath, chunks, embed, ids), repoPath, chunks, vs, ids);
  }

  /** The alignment argument on the tables alone: the mapping rows appended
      name the indexed ids position by position, and each indexed id has
      an embedding row holding its vector. */
  lemma AlignedAfterRun(out: Db, projectId: string, prevMappings: seq<MappingRow>, prevEmbeddings: seq<EmbeddingRow>,
                        p: Pass, repoPath: string, chunks: seq<Segment.Chunk>, vs: seq<Vector>, ids: seq<Id>)
    requires |chunks| <= |vs| && |ids| == |chunks| && |vs| > 0
    requires p == Loop(projectId, repoPath, chunks, vs, ids, |vs[0]|, |chunks|)
    requires forall m :: m in prevMappings ==> m.projectId != projectId
    requires out.mappings == prevMappings + MappingRows(projectId, p.indexIds)
    requires out.embeddings == prevEmbeddings + p.embeddingRows
    requires MappingKey(out.mappings) && EmbeddingKey(out.embeddings)
    requires IndexPath(projectId) in out.indexFiles && out.indexFiles[IndexPath(projectId)] == p.vectors
    ensures Aligned(out, projectId)
  {
    forall q | 0 <= q < |p.vectors|
      ensures MappedChunk(out.mappings, projectId, q) == Some(p.indexIds[q])
      ensures EmbeddingOf(out.embeddings, p.indexIds[q]) == Some(p.vectors[q])
    {
      PositionResolves(out, projectId, prevMappings, prevEmbeddings, p, repoPath, chunks, vs, ids, q);
    }
    MappedPositionsInRange(out, projectId, prevMappings, p);
  }

  /** Index position q maps to the q-th indexed id, whose embedding row holds the q-th vector. */
  lemma PositionResolves(out: Db, projectId: string, prevMappings: seq<MappingRow>, prevEmbeddings: seq<EmbeddingRow>,
                         p: Pass, repoPath: string, chunks: seq<Segment.Chunk>, vs: seq<Vector>, ids: seq<Id>, q: nat)
    requires |chunks| <= |vs| && |ids| == |chunks| && |vs| > 0
    requires p == Loop(projectId, repoPath, chunks, vs, ids, |vs[0]|, |chunks|)
    requires forall m :: m in prevMappings ==> m.projectId != projectId
    requires out.mappings == prevMappings + MappingRows(projectId, p.indexIds)
    requires out.embeddings == prevEmbeddings + p.embeddingRows
    requires MappingKey(out.mappings) && EmbeddingKey(out.embeddings)
    requires q < |p.vectors|
    ensures MappedChunk(out.mappings, projectId, q) == Some(p.indexIds[q])
    ensures EmbeddingOf(out.embeddings, p.indexIds[q]) == Some(p.vectors[q])
  {
    var dim := |vs[0]|;
    var e := Positions(vs, dim, |chunks|, Fitting);
    var x := Positions(vs, dim, |chunks|, Indexable);
    var maps := MappingRows(projectId, p.indexIds);
    assert maps[q] in out.mappings;
    MappedChunkRow(out.mappings, maps[q]);
    assert Kept(vs, dim, x[q], Fitting);
    var j :| 0 <= j < |e| && e[j] == x[q];
    assert p.embeddingRows[j] in out.embeddings;
    EmbeddingOfRow(out.embeddings, p.embeddingRows[j]);
  }

  /** Every mapping row of the project names a position inside the index. */
  lemma MappedPositionsInRange(out: Db, projectId: string, prevMappings: seq<MappingRow>, p: Pass)
    requires |p.indexIds| == |p.vectors|
    requires forall m :: m in prevMappings ==> m.projectId != projectId
    requires out.mappings == prevMappings + MappingRows(projectId, p.indexIds)
    ensures forall m :: m in out.mappings && m.projectId == projectId ==> 0 <= m.faissIndex < |p.vectors|
  {
    var maps := MappingRows(projectId, p.indexIds);
    forall m | m in out.mappings && m.projectId == projectId
      ensures 0 <= m.faissIndex < |p.vectors|
    {
      assert m !in prevMappings;
      var j :| 0 <= j < |maps| && maps[j] == m;
    }
  }

  /** Mapping rows of other projects are neither removed nor added. */
  lemma BuildLeavesOtherProjects(db: Db, projectId: string, repoPath: string, chunks: seq<Segment.Chunk>, embed: EmbedOutcome, ids: seq<Id>, m: MappingRow)
    requires |ids| == |chunks| && m.projectId != projectId
    ensures m in CreateVectorIndexes(db, projectId, repoPath, chunks, embed, ids).db.mappings <==> m in db.mappings
  {
    var out := CreateVectorIndexes(db, projectId, repoPath, chunks, embed, ids);
    if out.result.Ok? {
      assert Proceeds(chunks, embed);
      RunShape(db, projectId, repoPath, chunks, embed, ids);
      var p := RunPass(projectId, repoPath, chunks, embed, ids);
      assert m !in MappingRows(projectId, p.indexIds);
    } else if Proceeds(chunks, embed) {
      RunShape(db, projectId, repoPath, chunks, embed, ids);
    }
  }

  /** Once the run gets past the embedding service, every input chunk has a
      new row in input order, whatever its vector, and the run raises
      "No valid embeddings" exactly when no vector has the first vector's
      length and a non-zero component. */
  lemma BuildWritesEveryChunk(db: Db, projectId: string, repoPath: string, chunks: seq<Segment.Chunk>, embed: EmbedOutcome, ids: seq<Id>)
    requires |ids| == |chunks| && Proceeds(chunks, embed)
    ensures var out := CreateVectorIndexes(db, projectId, repoPath, chunks, embed, ids).db;
      |out.chunks| == |db.chunks| + |chunks| &&
      forall k :: 0 <= k < |chunks| ==> out.chunks[|db.chunks| + k] == RowFor(projectId, repoPath, chunks[k], ids[k])
    ensures CreateVectorIndexes(db, projectId, repoPath, chunks, embed, ids).result == Err(NoValidEmbeddings) <==>
      forall k :: 0 <= k < |chunks| ==> !Kept(embed.vectors, |embed.vectors[0]|, k, Indexable)
  {
    RunShape(db, projectId, repoPath, chunks, embed, ids);
    var vs := embed.vectors;
    var x := Positions(vs, |vs[0]|, |chunks|, Indexable);
    if |x| > 0 {
      assert Kept(vs, |vs[0]|, x[0], Indexable);
    }
  }

  /** Embedding rows of a run: a chunk gets one exactly when its vector has
      the first vector's length, zero vectors included, and the row holds that
      vector with `embedding_dim` equal to the first vector's length. */
  lemma BuildEmbeddingRows(db: Db, projectId: string, repoPath: string, chunks: seq<Segment.Chunk>, embed: EmbedOutcome, ids: seq<Id>, k: nat)
    requires Valid(db) && |ids| == |chunks| && FreshIds(db, ids) && Proceeds(chunks, embed)
    requires k < |chunks|
    ensures var out := CreateVectorIndexes(db, projectId, repoPath, chunks, embed, ids).db;
      var vs := embed.vectors;
      (ids[k] in EmbeddedIds(out.embeddings) <==> |vs[k]| == |vs[0]|) &&
      (|vs[k]| == |vs[0]| ==> EmbeddingOf(out.embeddings, ids[k]) == Some(vs[k])) &&
      (forall r :: r in out.embeddings && r !in db.embeddings ==> r.dim == |vs[0]| == |r.embedding|)
  {
    var vs := embed.vectors;
    var p := RunPass(projectId, repoPath, chunks, embed, ids);
    var e := Positions(vs, |vs[0]|, |chunks|, Fitting);
    RunShape(db, projectId, repoPath, chunks, embed, ids);
    PassShape(projectId, repoPath, chunks, vs, ids);
    AppendedEmbeddingsKeepKey(db, e, p.embeddingRows, ids);
    FreshNotEmbedded(db, ids, k);
    EmbeddingRowsAfterRun(db, db.embeddings + p.embeddingRows, p, projectId, repoPath, chunks, vs, ids, k);
  }

  /** The embedding-row argument on the tables alone. */
  lemma EmbeddingRowsAfterRun(db: Db, embeddings: seq<EmbeddingRow>, p: Pass, projectId: string, repoPath: string,
                              chunks: seq<Segment.Chunk>, vs: seq<Vector>, ids: seq<Id>, k: nat)
    requires k < |chunks| <= |vs| && |ids| == |chunks|
    requires forall i, j :: 0 <= i < j < |ids| ==> ids[i] != ids[j]
    requires ids[k] !in EmbeddedIds(db.embeddings)
    requires p == Loop(projectId, repoPath, chunks, vs, ids, |vs[0]|, |chunks|)
    requires embeddings == db.embeddings + p.embeddingRows && EmbeddingKey(embeddings)
    ensures ids[k] in EmbeddedIds(embeddings) <==> |vs[k]| == |vs[0]|
    ensures |vs[k]| == |vs[0]| ==> EmbeddingOf(embeddings, ids[k]) == Some(vs[k])
    ensures forall r :: r in embeddings && r !in db.embeddings ==> r.dim == |vs[0]| == |r.embedding|
  {
    var dim := |vs[0]|;
    var e := Positions(vs, dim, |chunks|, Fitting);
    FittingRows(projectId, repoPath, chunks, vs, ids, k);
    if |vs[k]| == dim {
      FittingHasRow(embeddings, db.embeddings, p.embeddingRows, e, vs, ids, dim, k);
    }
    NewRowsAreFitting(db.embeddings, p.embeddingRows, e, vs, ids, dim, k);
  }

  /** The embedding rows of a run, one per fitting position, in the form the row arguments use. */
  lemma FittingRows(projectId: string, repoPath: string, chunks: seq<Segment.Chunk>, vs: seq<Vector>, ids: seq<Id>, k: nat)
    requires k < |chunks| <= |vs| && |ids| == |chunks|
    ensures var p := Loop(projectId, repoPath, chunks, vs, ids, |vs[0]|, |chunks|);
      var e := Positions(vs, |vs[0]|, |chunks|, Fitting);
      |p.embeddingRows| == |e| &&
      (forall j :: 0 <= j < |e| ==>
        e[j] < |vs| && e[j] < |ids| && |vs[e[j]]| == |vs[0]| &&
        p.embeddingRows[j] == EmbeddingRow(ids[e[j]], vs[e[j]], |vs[0]|)) &&
      (|vs[k]| == |vs[0]| ==> k in e)
  {
  }

  /** A new row for `ids[k]` can only come from position `k`, which then fits;
      and every new row has the expected length. */
  lemma NewRowsAreFitting(prev: seq<EmbeddingRow>, rows: seq<EmbeddingRow>, e: seq<nat>, vs: seq<Vector>, ids: seq<Id>, dim: nat, k: nat)
    requires |rows| == |e| && k < |ids| && k < |vs|
    requires forall i, j :: 0 <= i < j < |ids| ==> ids[i] != ids[j]
    requires forall j :: 0 <= j < |e| ==> e[j] < |vs| && e[j] < |ids| && |vs[e[j]]| == dim && rows[j] == EmbeddingRow(ids[e[j]], vs[e[j]], dim)
    requires ids[k] !in EmbeddedIds(prev)
    ensures ids[k] in EmbeddedIds(prev + rows) ==> |vs[k]| == dim
    ensures forall r :: r in prev + rows && r !in prev ==> r.dim == dim == |r.embedding|
  {
    if ids[k] in EmbeddedIds(prev + rows) {
      var r :| r in prev + rows && r.chunkId == ids[k];
      assert r in rows;
      var j :| 0 <= j < |rows| && rows[j] == r;
      assert e[j] == k;
    }
  }

  lemma FittingHasRow(embeddings: seq<EmbeddingRow>, prev: seq<EmbeddingRow>, rows: seq<EmbeddingRow>, e: seq<nat>,
                      vs: seq<Vector>, ids: seq<Id>, dim: nat, k: nat)
    requires embeddings == prev + rows && EmbeddingKey(embeddings)
    requires |rows| == |e| && k < |vs| && k < |ids| && |vs[k]| == dim
    requires forall j :: 0 <= j < |e| ==> e[j] < |vs| && e[j] < |ids| && rows[j] == EmbeddingRow(ids[e[j]], vs[e[j]], dim)
    requires k in e
    ensures EmbeddingOf(embeddings, ids[k]) == Some(vs[k])
  {
    var j :| 0 <= j < |e| && e[j] == k;
    assert rows[j] in embeddings;
    EmbeddingOfRow(embeddings, rows[j]);
  }

  /** Every vector in the index written by a run has the first vector's
      length and a non-zero component, and they are the kept vectors in input order. */
  lemma IndexHoldsNonZeroVectors(db: Db, projectId: string, repoPath: string, chunks: seq<Segment.Chunk>, embed: EmbedOutcome, ids: seq<Id>)
    requires |ids| == |chunks|
    requires CreateVectorIndexes(db, projectId, repoPath, chunks, embed, ids).result.Ok?
    ensures var index := CreateVectorIndexes(db, projectId, repoPath, chunks, embed, ids).db.indexFiles[IndexPath(projectId)];
      |index| > 0 &&
      forall q :: 0 <= q < |index| ==> |index[q]| == |embed.vectors[0]| && !IsZero(index[q])
    ensures var index := CreateVectorIndexes(db, projectId, repoPath, chunks, embed, ids).db.indexFiles[IndexPath(projectId)];
      var x := Positions(embed.vectors, |embed.vectors[0]|, |chunks|, Indexable);
      |index| == |x| && forall q :: 0 <= q < |index| ==> index[q] == embed.vectors[x[q]]
  {
    assert Proceeds(chunks, embed);
    RunShape(db, projectId, repoPath, chunks, embed, ids);
    var vs := embed.vectors;
    var x := Positions(vs, |vs[0]|, |chunks|, Indexable);
    var index := CreateVectorIndexes(db, projectId, repoPath, chunks, embed, ids).db.indexFiles[IndexPath(projectId)];
    assert index == RunPass(projectId, repoPath, chunks, embed, ids).vectors;
    forall q | 0 <= q < |index| ensures |index[q]| == |vs[0]| && !IsZero(index[q]) {
      var k := x[q];
      assert Kept(vs, |vs[0]|, k, Indexable);
    }
  }
}

=== FILE: cli.dfy ===
/** The command-line client (cli.py): `process_stream`, which writes the
    content of each streamed chunk to the output, and the argument defaults
    and patch list of `cli`. Fetching the diff and calling the model are
    left to the caller; the stream is given as a sequence of chunks. */
module Cli {
  import opened Wrappers
  import Text
  import Exceptions
  import opened Providers
  import Prompts

  /** A streamed chunk in the shape each client produces it. */
  datatype Chunk =
    /** OpenAI: `chunk.choices[0].delta.content`. */
    | OpenAIChunk(deltaContent: Option<string>)
    /** Ollama: `chunk['message']['content']`. */
    | OllamaChunk(messageContent: Option<string>)
    /** Anthropic streaming event: its `type`, `delta.text` when present
        and whether `delta.stop_reason` is truthy. */
    | ClaudeEvent(kind: string, deltaText: Option<string>, stopReason: bool)
    /** Anthropic text stream: `chunk.text`. */
    | ClaudeText(text: Option<string>)

  /** The client type a stream is processed for: a member of the two-member
      `LLMType`, a `CLAUDE` member (only where the enumeration defines one),
      or any other value. */
  datatype StreamClient = Listed(t: LlmType) | Claude | Unlisted

  /** What processing a stream leaves behind: the text written so far and
      the exception that ended it, if any. */
  datatype Outcome = Outcome(written: string, raised: Option<Exceptions.Raised>)

  /** What one chunk does to the output. */
  datatype Step = Emit(content: string) | Skip | Stop | Fail(error: Exceptions.Raised)

  const ShapeMismatch := Exceptions.TypeError("chunk does not have the client's shape")

  /** Reading the loop variable `content` before any iteration assigned it. */
  const Unbound := Exceptions.UnboundLocalError("content")

  /** One iteration of `process_stream`'s loop. `carried` is what the loop
      variable `content` holds from earlier iterations, `None` while it is
      unassigned: in the `CLAUDE` branch a chunk without a `type` attribute
      assigns nothing, so the old value is written again. `claudeDefined`
      says whether `LLMType` has a `CLAUDE` member: llm_client.py's has not,
      so testing for it raises `AttributeError` once the first two tests fail. */
  function StepOf(client: StreamClient, claudeDefined: bool, carried: Option<string>, chunk: Chunk): (s: Step)
    ensures s.Emit? && client.Listed? && client.t == OpenAI ==> chunk.OpenAIChunk? && s.content == chunk.deltaContent.GetOr("")
    ensures s.Emit? && client.Listed? && client.t == Ollama ==> chunk.OllamaChunk? && s.content == chunk.messageContent.GetOr("")
    ensures s.Stop? ==> client.Claude? && chunk.ClaudeEvent? && chunk.kind == "message_delta" && chunk.stopReason
    ensures s.Skip? ==> client.Claude? && chunk.ClaudeEvent? && chunk.kind == "message_start"
    ensures s.Emit? && client.Claude? && !chunk.ClaudeEvent? ==> carried == Some(s.content)
    ensures s == Fail(Unbound) <==> client.Claude? && claudeDefined && !chunk.ClaudeEvent? && carried.None?
  {
    match client
    case Listed(OpenAI) => if chunk.OpenAIChunk? then Emit(chunk.deltaContent.GetOr("")) else Fail(ShapeMismatch)
    case Listed(Ollama) => if chunk.OllamaChunk? then Emit(chunk.messageContent.GetOr("")) else Fail(ShapeMismatch)
    case Unlisted =>
      if claudeDefined then Fail(Exceptions.Error("unkown client_type"))
      else Fail(Exceptions.AttributeError("LLMType", "CLAUDE"))
    case Claude =>
      if !claudeDefined then Fail(Exceptions.AttributeError("LLMType", "CLAUDE"))
      else ClaudeStep(carried, chunk)
  }

  /** The `LLMType.CLAUDE` branch. */
  function ClaudeStep(carried: Option<string>, chunk: Chunk): Step {
    match chunk
    case ClaudeEvent(kind, text, stop) =>
      if kind == "message_start" then Skip
      else if kind == "content_block_delta" then Emit(text.GetOr(""))
      else if kind == "message_delta" && stop then Stop
      else Emit("")
    case _ => if carried.Some? then Emit(carried.value) else Fail(Unbound)
  }

  /** What `content` holds after a step: an emitted text was assigned to it. */
  function Carry(carried: Option<string>, s: Step): Option<string> {
    if s.Emit? then Some(s.content) else carried
  }

  /** The loop over `stream` entered with `content` holding `carried`. */
  function ProcessFrom(stream: seq<Chunk>, client: StreamClient, claudeDefined: bool, carried: Option<string>): (o: Outcome)
    requires client.Claude? ==> claudeDefined
    ensures |stream| == 0 ==> o == Outcome("", None)
    decreases |stream|
  {
    if |stream| == 0 then Outcome("", None)
    else
      match StepOf(client, claudeDefined, carried, stream[0])
      case Fail(e) => Outcome("", Some(e))
      case Stop => Outcome("", None)
      case Skip => ProcessFrom(stream[1..], client, claudeDefined, carried)
      case Emit(c) =>
        var rest := ProcessFrom(stream[1..], client, claudeDefined, Some(c));
        Outcome(c + rest.written, rest.raised)
  }

  /** `process_stream(stream, output, client_type)`: the text written to
      `output` and what was raised. Empty content writes nothing. */
  function ProcessStream(stream: seq<Chunk>, client: StreamClient, claudeDefined: bool): (o: Outcome)
    requires client.Claude? ==> claudeDefined
    ensures |stream| == 0 ==> o == Outcome("", None)
  {
    ProcessFrom(stream, client, claudeDefined, None)
  }

  /** The content an OpenAI or Ollama chunk carries, `None` read as "". */
  function ListedContent(chunk: Chunk): string {
    match chunk
    case OpenAIChunk(c) => c.GetOr("")
    case OllamaChunk(c) => c.GetOr("")
    case _ => ""
  }

  /** The chunks have the shape of the listed client. */
  predicate ShapedFor(t: LlmType, stream: seq<Chunk>) {
    forall i :: 0 <= i < |stream| ==> (if t == OpenAI then stream[i].OpenAIChunk? else stream[i].OllamaChunk?)
  }

  /** For OpenAI and Ollama the output is the in-order concatenation of the
      chunks' contents, and nothing is raised. */
  lemma ListedConcatenates(stream: seq<Chunk>, t: LlmType, claudeDefined: bool)
    requires ShapedFor(t, stream)
    ensures ProcessStream(stream, Listed(t), claudeDefined)
      == Outcome(Text.Concat(seq(|stream|, i requires 0 <= i < |stream| => ListedContent(stream[i]))), None)
  {
    ListedConcatenatesFrom(stream, t, claudeDefined, None);
  }

  /** `ListedConcatenates` from any value of `content`: these branches assign
      it on every chunk, so the value carried in does not matter. */
  lemma {:induction false} ListedConcatenatesFrom(stream: seq<Chunk>, t: LlmType, claudeDefined: bool, carried: Option<string>)
    requires ShapedFor(t, stream)
    ensures ProcessFrom(stream, Listed(t), claudeDefined, carried)
      == Outcome(Text.Concat(seq(|stream|, i requires 0 <= i < |stream| => ListedContent(stream[i]))), None)
    decreases |stream|
  {
    var contents := seq(|stream|, i requires 0 <= i < |stream| => ListedContent(stream[i]));
    if |stream| > 0 {
      var tail := stream[1..];
      assert ShapedFor(t, tail) by {
        forall i | 0 <= i < |tail| ensures (if t == OpenAI then tail[i].OpenAIChunk? else tail[i].OllamaChunk?) {
          assert tail[i] == stream[i + 1];
        }
      }
      ListedConcatenatesFrom(tail, t, claudeDefined, Some(contents[0]));
      var tailContents := seq(|tail|, i requires 0 <= i < |tail| => ListedContent(tail[i]));
      assert contents[1..] == tailContents;
      assert StepOf(Listed(t), claudeDefined, carried, stream[0]) == Emit(contents[0]);
    }
  }

  /** The OpenAI and Ollama branches assign `content` on every chunk before
      reading it, so what it held before the loop never shows. */
  lemma {:induction false} ListedIgnoresCarried(stream: seq<Chunk>, t: LlmType, claudeDefined: bool, c1: Option<string>, c2: Option<string>)
    ensures ProcessFrom(stream, Listed(t), claudeDefined, c1) == ProcessFrom(stream, Listed(t), claudeDefined, c2)
    decreases |stream|
  {
    if |stream| > 0 {
      var s := StepOf(Listed(t), claudeDefined, c1, stream[0]);
      assert s == StepOf(Listed(t), claudeDefined, c2, stream[0]);
      if s.Emit? {
        ListedIgnoresCarried(stream[1..], t, claudeDefined, Some(s.content), Some(s.content));
      }
    }
  }

  /** Chunks that neither stop nor fail when entered with `content` holding
      `carried`. */
  predicate Flowing(stream: seq<Chunk>, client: StreamClient, claudeDefined: bool, carried: Option<string>)
    decreases |stream|
  {
    |stream| == 0 ||
    (var s := StepOf(client, claudeDefined, carried, stream[0]);
     !s.Stop? && !s.Fail? && Flowing(stream[1..], client, claudeDefined, Carry(carried, s)))
  }

  /** What `content` holds after the chunks of `stream`. */
  function CarriedAfter(stream: seq<Chunk>, client: StreamClient, claudeDefined: bool, carried: Option<string>): Option<string>
    decreases |stream|
  {
    if |stream| == 0 then carried
    else CarriedAfter(stream[1..], client, claudeDefined, Carry(carried, StepOf(client, claudeDefined, carried, stream[0])))
  }

  /** A stretch of chunks that neither stops nor fails writes its text and
      hands over to what follows, together with the value of `content` it
      leaves. */
  lemma {:induction false} FlowingPrefix(a: seq<Chunk>, b: seq<Chunk>, client: StreamClient, claudeDefined: bool, carried: Option<string>)
    requires client.Claude? ==> claudeDefined
    requires Flowing(a, client, claudeDefined, carried)
    ensures var after := CarriedAfter(a, client, claudeDefined, carried);
      ProcessFrom(a + b, client, claudeDefined, carried).raised == ProcessFrom(b, client, claudeDefined, after).raised
    ensures var after := CarriedAfter(a, client, claudeDefined, carried);
      ProcessFrom(a + b, client, claudeDefined, carried).written
        == ProcessFrom(a, client, claudeDefined, carried).written + ProcessFrom(b, client, claudeDefined, after).written
    decreases |a|
  {
    if |a| == 0 {
      assert a + b == b;
    } else {
      assert (a + b)[0] == a[0];
      assert (a + b)[1..] == a[1..] + b;
      var s := StepOf(client, claudeDefined, carried, a[0]);
      FlowingPrefix(a[1..], b, client, claudeDefined, Carry(carried, s));
    }
  }

  /** A Claude `message_delta` with a truthy stop reason ends processing:
      nothing after it is read, so whatever follows changes nothing. */
  lemma StopDiscardsRest(a: seq<Chunk>, stop: Chunk, b: seq<Chunk>)
    requires Flowing(a, Claude, true, None)
    requires stop.ClaudeEvent? && stop.kind == "message_delta" && stop.stopReason
    ensures ProcessStream(a + [stop] + b, Claude, true) == ProcessStream(a, Claude, true)
  {
    assert a + [stop] + b == a + ([stop] + b);
    FlowingPrefix(a, [stop] + b, Claude, true, None);
    FlowingPrefix(a, [], Claude, true, None);
    assert a + [] == a;
  }

  /** In the `CLAUDE` branch a chunk without a `type` attribute assigns no
      `content`, so the text of the last emitting chunk is written again. */
  lemma UntypedChunkRepeatsLast(a: seq<Chunk>, t: Chunk, b: seq<Chunk>, c: string)
    requires Flowing(a, Claude, true, None) && CarriedAfter(a, Claude, true, None) == Some(c)
    requires !t.ClaudeEvent?
    ensures ProcessStream(a + [t] + b, Claude, true).written
      == ProcessStream(a, Claude, true).written + c + ProcessFrom(b, Claude, true, Some(c)).written
    ensures ProcessStream(a + [t] + b, Claude, true).raised == ProcessFrom(b, Claude, true, Some(c)).raised
  {
    assert a + [t] + b == a + ([t] + b);
    FlowingPrefix(a, [t] + b, Claude, true, None);
    assert ([t] + b)[0] == t && ([t] + b)[1..] == b;
  }

  /** As the first chunk it reads `content` before any assignment. */
  lemma UntypedFirstChunkRaises(t: Chunk, rest: seq<Chunk>)
    requires !t.ClaudeEvent?
    ensures ProcessStream([t] + rest, Claude, true) == Outcome("", Some(Exceptions.UnboundLocalError("content")))
  {
    assert ([t] + rest)[0] == t;
  }

  /** A text delta "Hi" followed by a chunk without `type` writes "HiHi". */
  lemma UntypedChunkExample(d: Chunk, t: Chunk)
    requires d == ClaudeEvent("content_block_delta", Some("Hi"), false) && !t.ClaudeEvent?
    ensures ProcessStream([d, t], Claude, true) == Outcome("HiHi", None)
  {
    assert ClaudeStep(None, d) == Emit("Hi") by { assert d.kind[0] != "message_start"[0]; }
    EmitStep(d, [t], "Hi", None);
    EmitStep(t, [], "Hi", Some("Hi"));
    assert [d] + [t] == [d, t] && [t] + [] == [t];
    assert ProcessFrom([d] + [t], Claude, true, None).raised == None by {
      assert ([d] + [t])[1..] == [t] && ([t])[1..] == [];
    }
  }

  /** A client type that is neither listed nor `CLAUDE` raises at the first
      chunk, having written nothing; an empty stream raises nothing. */
  lemma UnknownClientRaises(stream: seq<Chunk>, claudeDefined: bool)
    requires |stream| > 0
    ensures ProcessStream(stream, Unlisted, claudeDefined) == Outcome("", Some(
      if claudeDefined then Exceptions.Error("unkown client_type") else Exceptions.AttributeError("LLMType", "CLAUDE")))
  {
  }

  /** The Anthropic event sequence of a typical reply writes its two deltas. */
  lemma ClaudeReply(start: Chunk, open: Chunk, d1: Chunk, d2: Chunk, stop: Chunk)
    requires start == ClaudeEvent("message_start", None, false)
    requires open == ClaudeEvent("content_block_start", None, false)
    requires d1 == ClaudeEvent("content_block_delta", Some("Hello"), false)
    requires d2 == ClaudeEvent("content_block_delta", Some(" World"), false)
    requires stop == ClaudeEvent("message_delta", None, true)
    ensures ProcessStream([start, open, d1, d2, stop], Claude, true).written == "Hello World"
  {
    ReplyDeltas(d1, d2, stop, Some(""));
    assert ClaudeStep(None, open) == Emit("") by { assert open.kind[8] != stop.kind[8]; }
    assert ClaudeStep(None, start) == Skip;
    var s1 := [open] + [d1, d2, stop];
    EmitStep(open, [d1, d2, stop], "", None);
    SkipStep(start, s1, None);
    assert [start] + s1 == [start, open, d1, d2, stop];
  }

  /** The two deltas and the stop of `ClaudeReply`, from any `content`. */
  lemma ReplyDeltas(d1: Chunk, d2: Chunk, stop: Chunk, carried: Option<string>)
    requires d1 == ClaudeEvent("content_block_delta", Some("Hello"), false)
    requires d2 == ClaudeEvent("content_block_delta", Some(" World"), false)
    requires stop == ClaudeEvent("message_delta", None, true)
    ensures ProcessFrom([d1, d2, stop], Claude, true, carried).written == "Hello World"
  {
    assert ClaudeStep(Some(" World"), stop) == Stop;
    assert ClaudeStep(Some("Hello"), d2) == Emit(" World");
    assert ClaudeStep(carried, d1) == Emit("Hello");
    StopStep(stop, [], Some(" World"));
    EmitStep(d2, [stop] + [], " World", Some("Hello"));
    EmitStep(d1, [d2] + ([stop] + []), "Hello", carried);
    assert [d1] + ([d2] + ([stop] + [])) == [d1, d2, stop];
  }

  /** A chunk that emits `c` puts `c` before what the rest writes. */
  lemma EmitStep(e: Chunk, rest: seq<Chunk>, c: string, carried: Option<string>)
    requires ClaudeStep(carried, e) == Emit(c)
    ensures ProcessFrom([e] + rest, Claude, true, carried).written == c + ProcessFrom(rest, Claude, true, Some(c)).written
  {
    assert ([e] + rest)[0] == e && ([e] + rest)[1..] == rest;
  }

  /** A stopping chunk writes nothing and ends the stream. */
  lemma StopStep(e: Chunk, rest: seq<Chunk>, carried: Option<string>)
    requires ClaudeStep(carried, e) == Stop
    ensures ProcessFrom([e] + rest, Claude, true, carried).written == ""
  {
    assert ([e] + rest)[0] == e;
  }

  /** A skipped chunk leaves the rest to write. */
  lemma SkipStep(e: Chunk, rest: seq<Chunk>, carried: Option<string>)
    requires ClaudeStep(carried, e) == Skip
    ensures ProcessFrom([e] + rest, Claude, true, carried) == ProcessFrom(rest, Claude, true, carried)
  {
    assert ([e] + rest)[0] == e && ([e] + rest)[1..] == rest;
  }

  /** The settings `cli` derives from its arguments and the environment. */
  datatype Settings = Settings(client: LlmType, modelName: string, prompt: Option<string>, template: Option<string>)

  /** The defaults of `cli`: the client type from `DEFAULT_LLM_CLIENT`
      ("openai" when unset), the provider's default model, and the
      "code-review" template when neither prompt nor template is given.
      Only `None` triggers a default; an empty string is kept. */
  function CliSettings(client: Option<LlmType>, model: Option<string>, prompt: Option<string>, template: Option<string>, envClient: Option<string>)
    : (r: Result<Settings, Exceptions.Raised>)
    ensures client.Some? ==> r.Ok? && r.value.client == client.value
    ensures client.None? ==> (r.Ok? <==> StringToEnum(envClient.GetOr("openai")).Ok?)
    ensures client.None? && r.Ok? ==> r.value.client == StringToEnum(envClient.GetOr("openai")).value
    ensures r.Ok? ==> r.value.modelName == model.GetOr(DefaultModelName(r.value.client))
    ensures r.Ok? ==> r.value.prompt == prompt
    ensures r.Ok? ==> r.value.template == (if prompt.None? && template.None? then Some("code-review") else template)
  {
    var t := if client.Some? then Ok(client.value) else StringToEnum(envClient.GetOr("openai"));
    match t
    case Err(e) => Err(e)
    case Ok(c) =>
      var m := if model.Some? then model.value else DefaultModelName(c);
      var tpl := if prompt.None? && template.None? then Some("code-review") else template;
      Ok(Settings(c, m, prompt, tpl))
  }

  /** With the defaults applied, building the prompt fails only when an
      empty string was given for the prompt and no usable template, or for
      the template and no usable prompt; giving neither selects the
      "code-review" template. */
  lemma {:induction false} DefaultsAvoidMissingPrompt(client: Option<LlmType>, model: Option<string>, prompt: Option<string>, template: Option<string>, envClient: Option<string>, patch: string)
    requires CliSettings(client, model, prompt, template, envClient).Ok?
    ensures var s := CliSettings(client, model, prompt, template, envClient).value;
      Prompts.StrictPreparePrompts(s.prompt, s.template, patch) == Err(Prompts.NoPromptError) <==>
      (prompt.Some? || template.Some?) && !Truthy(prompt) && !Truthy(template)
    ensures prompt.None? && template.None? ==>
      var s := CliSettings(client, model, prompt, template, envClient).value;
      Prompts.StrictPreparePrompts(s.prompt, s.template, patch)
        == Ok(Prompts.ChatPrompt(Prompts.Prose("CODE_REVIEW_PROMPT"), Prompts.Fence(patch), map["temperature" := 2]))
  {
    var s := CliSettings(client, model, prompt, template, envClient).value;
    Prompts.StrictAgrees(s.prompt, s.template, patch);
    if prompt.None? && template.None? {
      Prompts.CodeReviewTemplate(patch);
      CodeReviewKnown();
    }
  }

  lemma CodeReviewKnown()
    ensures Prompts.Lookup("code-review", Prompts.CodePrompts).Some?
  {
    assert Prompts.CodePrompts[2].0 == "code-review";
  }

  /** The patches `cli` sends one by one. Per file, the i-th patch, or the
      i-th file's whole content, which needs as many contents as patches;
      otherwise one text joining them with newlines. */
  function CliPatches(perFile: bool, wholeFile: bool, patches: seq<string>, contents: seq<string>)
    : (r: Result<seq<string>, Exceptions.Raised>)
    ensures r.Err? <==> perFile && wholeFile && |contents| < |patches|
    ensures r.Ok? && perFile ==>
      |r.value| == |patches| && forall i :: 0 <= i < |patches| ==> r.value[i] == (if wholeFile then contents[i] else patches[i])
    ensures r.Ok? && !perFile ==> |r.value| == 1
  {
    if perFile then
      if wholeFile && |contents| < |patches| then Err(Exceptions.IndexError(|contents|, |contents|))
      else Ok(seq(|patches|, i requires 0 <= i < |patches| => if wholeFile then contents[i] else patches[i]))
    else Ok([Text.Join("\n", if wholeFile then contents else patches)])
  }

  /** The single combined patch splits back into the diffs it was joined
      from whenever none of them spans lines. */
  lemma CombinedSplitsBack(wholeFile: bool, patches: seq<string>, contents: seq<string>)
    requires var diffs := if wholeFile then contents else patches;
      |diffs| > 0 && forall i :: 0 <= i < |diffs| ==> '\n' !in diffs[i]
    ensures Text.Split(CliPatches(false, wholeFile, patches, contents).value[0], '\n')
      == (if wholeFile then contents else patches)
  {
    Text.JoinSplit(if wholeFile then contents else patches, '\n');
  }
}

=== FILE: config.dfy ===
/** views/config.py: the review settings with their defaults, and
    `ModelConfig.from_model_name`, which picks the provider from substrings
    of the model name. The environment variables `DEFAULT_LLM_MODEL` and
    `DEFAULT_LLM_CLIENT` are parameters (`None` when unset). */
module Config {
  import opened Wrappers
  import Text
  import Exceptions
  import opened Providers

  /** `ReviewConfig`: what the review form collects. */
  datatype ReviewConfig = ReviewConfig(
    perFileAnalysis: bool,
    analyzeWholeFile: bool,
    promptInput: string,
    promptTemplateSelected: Option<string>,
    selectedModel: string,
    streamChecked: bool,
    reviewId: Option<string>,
    repoName: Option<string>,
    url: Option<string>,
    urlType: Option<string>,
    createdAt: Option<int>,
    projectId: Option<string>)

  /** `ReviewConfig()` with every field at its declared default. */
  const DefaultReviewConfig := ReviewConfig(false, false, "", Some("code-review"), "o1-mini", true, None, None, None, None, None, None)

  /** `ModelConfig`. */
  datatype ModelConfig = ModelConfig(modelName: string, clientType: LlmType)

  /** The substring tests of `from_model_name` in the order they are tried,
      each with the member it selects; `None` stands for `LLMType.CLAUDE`,
      which llm_client.py does not define. */
  const Rules: seq<(string, Option<LlmType>)> :=
    [("gpt", Some(OpenAI)), ("llama", Some(Ollama)), ("deepseek", Some(Ollama)), ("claude", None)]

  /** The index of the first rule whose substring occurs in `lowered`. */
  function FirstRule(lowered: string, rules: seq<(string, Option<LlmType>)>): (r: Option<nat>)
    ensures r.Some? ==> r.value < |rules| && Text.Contains(lowered, rules[r.value].0)
    ensures r.Some? ==> forall j :: 0 <= j < r.value ==> !Text.Contains(lowered, rules[j].0)
    ensures r.None? <==> forall j :: 0 <= j < |rules| ==> !Text.Contains(lowered, rules[j].0)
  {
    if |rules| == 0 then None
    else if Text.Contains(lowered, rules[0].0) then Some(0)
    else match FirstRule(lowered, rules[1..])
      case Some(i) => Some(i + 1)
      case None => None
  }

  /** The name `from_model_name` works with: the argument when truthy,
      otherwise `DEFAULT_LLM_MODEL`. */
  function ChosenName(modelName: Option<string>, envModel: Option<string>): Option<string> {
    if Truthy(modelName) then modelName else envModel
  }

  /** `ModelConfig.from_model_name`. */
  function FromModelName(modelName: Option<string>, envModel: Option<string>, envClient: Option<string>)
    : (r: Result<ModelConfig, Exceptions.Raised>)
    ensures ChosenName(modelName, envModel).None? ==> r == Err(Exceptions.AttributeError("NoneType", "lower"))
    ensures r.Ok? ==> r.value.modelName == ChosenName(modelName, envModel).value
    ensures r.Err? && ChosenName(modelName, envModel).Some? ==>
      r.error == Exceptions.AttributeError("LLMType", "CLAUDE") || StringToEnum(envClient.GetOr("openai")).Err?
  {
    match ChosenName(modelName, envModel)
    case None => Err(Exceptions.AttributeError("NoneType", "lower"))
    case Some(name) =>
      var lowered := Text.Lower(name);
      if Text.Contains(lowered, "gpt") then Ok(ModelConfig(name, OpenAI))
      else if Text.Contains(lowered, "llama") then Ok(ModelConfig(name, Ollama))
      else if Text.Contains(lowered, "deepseek") then Ok(ModelConfig(name, Ollama))
      else if Text.Contains(lowered, "claude") then Err(Exceptions.AttributeError("LLMType", "CLAUDE"))
      else
        EnvFallback(name, envClient)
  }

  /** The client type named by `DEFAULT_LLM_CLIENT` ("openai" when unset). */
  function EnvFallback(name: string, envClient: Option<string>): (r: Result<ModelConfig, Exceptions.Raised>)
    ensures r.Ok? <==> StringToEnum(envClient.GetOr("openai")).Ok?
    ensures r.Ok? ==> r.value == ModelConfig(name, StringToEnum(envClient.GetOr("openai")).value)
    ensures r.Err? ==> r.error == StringToEnum(envClient.GetOr("openai")).error
  {
    match StringToEnum(envClient.GetOr("openai"))
    case Ok(t) => Ok(ModelConfig(name, t))
    case Err(e) => Err(e)
  }

  /** The result of the rule at index `i`, or of the environment fallback. */
  function ApplyRule(name: string, i: Option<nat>, envClient: Option<string>): Result<ModelConfig, Exceptions.Raised>
    requires i.Some? ==> i.value < |Rules|
  {
    match i
    case Some(k) =>
      (match Rules[k].1
       case Some(t) => Ok(ModelConfig(name, t))
       case None => Err(Exceptions.AttributeError("LLMType", "CLAUDE")))
    case None => EnvFallback(name, envClient)
  }

  /** The rule table read as data. */
  lemma RulesShape()
    ensures |Rules| == 4
    ensures Rules[0].0 == "gpt" && Rules[1].0 == "llama" && Rules[2].0 == "deepseek" && Rules[3].0 == "claude"
  {
  }

  /** `from_model_name` is the first matching rule of the table, tried on the
      lower-cased name, and the environment's client type when none matches. */
  lemma {:induction false} DispatchFollowsRules(modelName: Option<string>, envModel: Option<string>, envClient: Option<string>)
    requires ChosenName(modelName, envModel).Some?
    ensures var name := ChosenName(modelName, envModel).value;
      FromModelName(modelName, envModel, envClient) == ApplyRule(name, FirstRule(Text.Lower(name), Rules), envClient)
  {
    var name := ChosenName(modelName, envModel).value;
    var lowered := Text.Lower(name);
    RulesShape();
    var i := FirstRule(lowered, Rules);
    if i.Some? {
      assert !Text.Contains(lowered, Rules[0].0) ==> i.value != 0;
      assert i.value == 0 || !Text.Contains(lowered, Rules[0].0);
    }
  }

  /** The first matching substring decides: a name containing "gpt" is an
      OpenAI model whatever else it contains, "claude" included. */
  lemma GptWins(name: string, envModel: Option<string>, envClient: Option<string>)
    requires Text.Contains(Text.Lower(name), "gpt")
    ensures FromModelName(Some(name), envModel, envClient) == Ok(ModelConfig(name, OpenAI))
  {
  }

  /** `Lower(s) == l`, checked character by character. */
  lemma LowerIs(s: string, l: string)
    requires |s| == |l| && forall i :: 0 <= i < |s| ==> Text.LowerChar(s[i]) == l[i]
    ensures Text.Lower(s) == l
  {
  }

  /** None of the rule substrings occurs in `lowered`. */
  predicate NoRuleMatches(lowered: string) {
    !Text.Contains(lowered, "gpt") && !Text.Contains(lowered, "llama")
    && !Text.Contains(lowered, "deepseek") && !Text.Contains(lowered, "claude")
  }

  /** `NoRuleMatches` is the table finding no rule. */
  lemma NoRuleMatchesTable(lowered: string)
    ensures NoRuleMatches(lowered) <==> FirstRule(lowered, Rules).None?
  {
    RulesShape();
    if NoRuleMatches(lowered) {
      forall j | 0 <= j < |Rules|
        ensures !Text.Contains(lowered, Rules[j].0)
      {
        assert j == 0 || j == 1 || j == 2 || j == 3;
      }
    }
  }

  /** A non-empty name in which none of the rule substrings occurs, after
      lower-casing, takes the environment's client type. */
  lemma FallbackWhenNoRule(name: string, envModel: Option<string>, envClient: Option<string>)
    requires name != "" && NoRuleMatches(Text.Lower(name))
    ensures FromModelName(Some(name), envModel, envClient) == EnvFallback(name, envClient)
  {
  }

  /** A name whose lower-cased form contains "llama" but not "gpt" is an
      Ollama model. */
  lemma LlamaWithoutGpt(name: string, envModel: Option<string>, envClient: Option<string>)
    requires !Text.Contains(Text.Lower(name), "gpt") && Text.Contains(Text.Lower(name), "llama")
    ensures FromModelName(Some(name), envModel, envClient) == Ok(ModelConfig(name, Ollama))
  {
  }

  /** Each provider's default model name is dispatched back to that provider. */
  lemma {:induction false} DefaultModelDispatchesBack(t: LlmType, envModel: Option<string>, envClient: Option<string>)
    ensures FromModelName(Some(DefaultModelName(t)), envModel, envClient) == Ok(ModelConfig(DefaultModelName(t), t))
  {
    var name := DefaultModelName(t);
    match t
    case OpenAI =>
      GptNameFacts(name);
      GptWins(name, envModel, envClient);
    case Ollama =>
      LlamaNameFacts(name);
      LlamaWithoutGpt(name, envModel, envClient);
  }

  lemma GptNameFacts(name: string)
    requires name == "gpt-3.5-turbo"
    ensures Text.Contains(Text.Lower(name), "gpt")
  {
    LowerIs(name, name);
    assert "gpt" <= name;
  }

  lemma LlamaNameFacts(name: string)
    requires name == "llama3"
    ensures !Text.Contains(Text.Lower(name), "gpt") && Text.Contains(Text.Lower(name), "llama")
  {
    LowerIs(name, name);
    assert 'g' !in name;
    NotContained(name, "gpt");
    assert "llama" <= name;
  }

  /** `sub` occurs nowhere in `s` when its first character does not. */
  lemma {:induction false} NotContained(s: string, sub: string)
    requires |sub| > 0 && sub[0] !in s
    ensures !Text.Contains(s, sub)
    decreases |s|
  {
    if |s| > 0 {
      assert s[0] in s;
      assert forall c :: c in s[1..] ==> c in s;
      NotContained(s[1..], sub);
    }
  }

  lemma MiniNameFacts(name: string)
    requires name == "o1-mini"
    ensures NoRuleMatches(Text.Lower(name))
  {
    LowerIs(name, name);
    MiniMatchesNoName(name);
  }

  /** "o1-mini" contains none of the four rule substrings. */
  lemma MiniMatchesNoName(name: string)
    requires name == "o1-mini"
    ensures !Text.Contains(name, "gpt") && !Text.Contains(name, "llama")
    ensures !Text.Contains(name, "deepseek") && !Text.Contains(name, "claude")
  {
    NotContained(name, "gpt");
    NotContained(name, "llama");
    NotContained(name, "deepseek");
    NotContained(name, "claude");
  }

  /** The default selected model "o1-mini" matches no rule, so its provider
      always comes from `DEFAULT_LLM_CLIENT` ("openai" when unset). */
  lemma {:induction false} DefaultModelUsesEnvironment(envModel: Option<string>, envClient: Option<string>)
    ensures FromModelName(Some(DefaultReviewConfig.selectedModel), envModel, envClient) == EnvFallback("o1-mini", envClient)
  {
    var name := DefaultReviewConfig.selectedModel;
    MiniNameFacts(name);
    FallbackWhenNoRule(name, envModel, envClient);
  }

  /** With no `DEFAULT_LLM_CLIENT` and no matching substring the provider
      is OpenAI. */
  lemma UnsetClientIsOpenAI(name: string, envModel: Option<string>)
    requires name != "" && NoRuleMatches(Text.Lower(name))
    ensures FromModelName(Some(name), envModel, None) == Ok(ModelConfig(name, OpenAI))
  {
    FallbackWhenNoRule(name, envModel, None);
    ValueRoundTrip(OpenAI);
  }
}

=== FILE: consistency.dfy ===
/** How the index builder and the search fit together. The builder maps
    index position `j` to the `j`-th chunk whose vector entered the index;
    the search instead takes the `j`-th of the project's embedding rows in
    rowid order. The two agree after a single build in which every vector
    entered the index, and disagree once a zero vector, an earlier build or
    a negative padding position is involved. */
module Consistency {
  import opened Wrappers
  import opened Store
  import opened IndexBuild
  import opened Search
  import Segment

  /** The ids at positions `e`, in that order. */
  function Pick(ids: seq<Id>, e: seq<nat>): (r: seq<Id>)
    requires forall j :: 0 <= j < |e| ==> e[j] < |ids|
    ensures |r| == |e| && forall j :: 0 <= j < |e| ==> r[j] == ids[e[j]]
  {
    seq(|e|, j requires 0 <= j < |e| => ids[e[j]])
  }

  /** When every vector is kept, the kept positions are all of them. */
  lemma {:induction false} PositionsAll(vs: seq<Vector>, dim: nat, n: nat, mode: Keep)
    requires n <= |vs|
    requires forall k :: 0 <= k < n ==> Kept(vs, dim, k, mode)
    ensures |Positions(vs, dim, n, mode)| == n
    ensures forall j :: 0 <= j < n ==> Positions(vs, dim, n, mode)[j] == j
  {
    if n > 0 {
      PositionsAll(vs, dim, n - 1, mode);
      var prev := Positions(vs, dim, n - 1, mode);
      assert Kept(vs, dim, n - 1, mode);
      var all := Positions(vs, dim, n, mode);
      assert all == prev + [n - 1];
      forall j | 0 <= j < n ensures all[j] == j {
        if j < n - 1 {
          assert all[j] == prev[j];
        }
      }
    }
  }

  /** The project's chunk ids after a run: the earlier ones and the fresh ones. */
  lemma ProjectIdsAfterRun(prev: seq<ChunkRow>, rows: seq<ChunkRow>, projectId: string, ids: seq<Id>, x: Id)
    requires |rows| == |ids|
    requires forall k :: 0 <= k < |rows| ==> rows[k].id == ids[k] && rows[k].projectId == projectId
    ensures x in ProjectChunkIds(prev + rows, projectId) <==> x in ProjectChunkIds(prev, projectId) || x in ids
  {
    if x in ids {
      var k :| 0 <= k < |ids| && ids[k] == x;
      assert rows[k] in prev + rows;
    }
    if x in ProjectChunkIds(prev + rows, projectId) {
      var r :| r in prev + rows && r.projectId == projectId && r.id == x;
      if r !in prev {
        var k :| 0 <= k < |rows| && rows[k] == r;
      }
    }
  }

  /** The rowid order after a run that gets past the embedding service: the
      project's earlier entries, then one entry per chunk whose vector has
      the first vector's length, zero vectors included, in input order. */
  lemma BuildExtendsRowidOrder(db: Db, projectId: string, repoPath: string, chunks: seq<Segment.Chunk>, embed: EmbedOutcome, ids: seq<Id>)
    requires Valid(db) && |ids| == |chunks| && FreshIds(db, ids) && Proceeds(chunks, embed)
    ensures var out := CreateVectorIndexes(db, projectId, repoPath, chunks, embed, ids).db;
      var e := Positions(embed.vectors, |embed.vectors[0]|, |chunks|, Fitting);
      RowidOrder(out, projectId) == RowidOrder(db, projectId) + Pick(ids, e)
  {
    RunShape(db, projectId, repoPath, chunks, embed, ids);
    var p := RunPass(projectId, repoPath, chunks, embed, ids);
    var e := Positions(embed.vectors, |embed.vectors[0]|, |chunks|, Fitting);
    PassShape(projectId, repoPath, chunks, embed.vectors, ids);
    RowidOrderAfterAppend(db.chunks, db.embeddings, p.rows, p.embeddingRows, projectId, ids, e);
  }

  /** The rowid-order argument on the tables alone. */
  lemma RowidOrderAfterAppend(prevChunks: seq<ChunkRow>, prevEmbeddings: seq<EmbeddingRow>, rows: seq<ChunkRow>, embeddingRows: seq<EmbeddingRow>,
                              projectId: string, ids: seq<Id>, e: seq<nat>)
    requires forall r :: r in prevEmbeddings ==> r.chunkId in ChunkIds(prevChunks)
    requires forall k :: 0 <= k < |ids| ==> ids[k] !in ChunkIds(prevChunks)
    requires |rows| == |ids| && |embeddingRows| == |e|
    requires forall k :: 0 <= k < |rows| ==> rows[k].id == ids[k] && rows[k].projectId == projectId
    requires forall j :: 0 <= j < |e| ==> e[j] < |ids| && embeddingRows[j].chunkId == ids[e[j]]
    ensures IdsAmong(prevEmbeddings + embeddingRows, ProjectChunkIds(prevChunks + rows, projectId))
      == IdsAmong(prevEmbeddings, ProjectChunkIds(prevChunks, projectId)) + Pick(ids, e)
  {
    var before := ProjectChunkIds(prevChunks, projectId);
    var after := ProjectChunkIds(prevChunks + rows, projectId);
    IdsAmongAppend(prevEmbeddings, embeddingRows, after);
    OldRowsSameProject(prevChunks, prevEmbeddings, rows, projectId, ids);
    NewRowsInProject(prevChunks, rows, embeddingRows, projectId, ids, e);
  }

  /** Earlier embeddings resolve the same way once the run's chunks are appended. */
  lemma OldRowsSameProject(prevChunks: seq<ChunkRow>, prevEmbeddings: seq<EmbeddingRow>, rows: seq<ChunkRow>,
                           projectId: string, ids: seq<Id>)
    requires forall r :: r in prevEmbeddings ==> r.chunkId in ChunkIds(prevChunks)
    requires forall k :: 0 <= k < |ids| ==> ids[k] !in ChunkIds(prevChunks)
    requires |rows| == |ids|
    requires forall k :: 0 <= k < |rows| ==> rows[k].id == ids[k] && rows[k].projectId == projectId
    ensures IdsAmong(prevEmbeddings, ProjectChunkIds(prevChunks + rows, projectId))
      == IdsAmong(prevEmbeddings, ProjectChunkIds(prevChunks, projectId))
  {
    var before := ProjectChunkIds(prevChunks, projectId);
    var after := ProjectChunkIds(prevChunks + rows, projectId);
    forall r | r in prevEmbeddings ensures r.chunkId in after <==> r.chunkId in before {
      ProjectIdsAfterRun(prevChunks, rows, projectId, ids, r.chunkId);
    }
    IdsAmongSame(prevEmbeddings, after, before);
  }

  /** Every embedding the run writes resolves to its own chunk, in write order. */
  lemma NewRowsInProject(prevChunks: seq<ChunkRow>, rows: seq<ChunkRow>, embeddingRows: seq<EmbeddingRow>,
                         projectId: string, ids: seq<Id>, e: seq<nat>)
    requires forall k :: 0 <= k < |ids| ==> ids[k] !in ChunkIds(prevChunks)
    requires |rows| == |ids| && |embeddingRows| == |e|
    requires forall k :: 0 <= k < |rows| ==> rows[k].id == ids[k] && rows[k].projectId == projectId
    requires forall j :: 0 <= j < |e| ==> e[j] < |ids| && embeddingRows[j].chunkId == ids[e[j]]
    ensures IdsAmong(embeddingRows, ProjectChunkIds(prevChunks + rows, projectId)) == Pick(ids, e)
  {
    var after := ProjectChunkIds(prevChunks + rows, projectId);
    forall j | 0 <= j < |embeddingRows| ensures embeddingRows[j].chunkId in after {
      ProjectIdsAfterRun(prevChunks, rows, projectId, ids, ids[e[j]]);
    }
    IdsAmongAll(embeddingRows, after);
  }

  /** A first build of a project in which every vector of the first
      vector's length has a non-zero component, so that the chunks with an
      embedding row are exactly those in the index: the mapping rows then
      list exactly the rowid order. When every vector also has that length,
      the order is that of all the run's ids. */
  lemma FreshBuildMappingFollowsRowid(db: Db, projectId: string, repoPath: string, chunks: seq<Segment.Chunk>, embed: EmbedOutcome, ids: seq<Id>)
    requires Valid(db) && |ids| == |chunks| && FreshIds(db, ids) && Proceeds(chunks, embed) && |chunks| > 0
    requires RowidOrder(db, projectId) == []
    requires FittingIndexed(embed.vectors, |chunks|)
    ensures var out := CreateVectorIndexes(db, projectId, repoPath, chunks, embed, ids);
      out.result.Ok? &&
      RowidOrder(out.db, projectId) == Pick(ids, Positions(embed.vectors, |embed.vectors[0]|, |chunks|, Fitting)) &&
      MappingFollows(out.db, projectId, RowidOrder(out.db, projectId))
    ensures (forall k :: 0 <= k < |chunks| ==> Kept(embed.vectors, |embed.vectors[0]|, k, Indexable)) ==>
      RowidOrder(CreateVectorIndexes(db, projectId, repoPath, chunks, embed, ids).db, projectId) == ids
  {
    var vs := embed.vectors;
    var out := CreateVectorIndexes(db, projectId, repoPath, chunks, embed, ids);
    var e := Positions(vs, |vs[0]|, |chunks|, Fitting);
    FittingIndexedMappings(db, projectId, repoPath, chunks, embed, ids);
    BuildKeepsSchema(db, projectId, repoPath, chunks, embed, ids);
    BuildExtendsRowidOrder(db, projectId, repoPath, chunks, embed, ids);
    assert RowidOrder(out.db, projectId) == Pick(ids, e);
    MappingRowsFollow(out.db.mappings, Cleared(db, projectId).mappings, projectId, Pick(ids, e));
    if forall k :: 0 <= k < |chunks| ==> Kept(vs, |vs[0]|, k, Indexable) {
      EveryVectorKept(projectId, repoPath, chunks, vs, ids);
    }
  }

  /** When no fitting vector is zero, the run succeeds and appends one
      mapping row per chunk with an embedding row, in input order. */
  lemma FittingIndexedMappings(db: Db, projectId: string, repoPath: string, chunks: seq<Segment.Chunk>, embed: EmbedOutcome, ids: seq<Id>)
    requires |ids| == |chunks| && Proceeds(chunks, embed) && |chunks| > 0
    requires FittingIndexed(embed.vectors, |chunks|)
    ensures var out := CreateVectorIndexes(db, projectId, repoPath, chunks, embed, ids);
      var e := Positions(embed.vectors, |embed.vectors[0]|, |chunks|, Fitting);
      out.result.Ok? && out.db.mappings == Cleared(db, projectId).mappings + MappingRows(projectId, Pick(ids, e))
  {
    var vs := embed.vectors;
    var dim := |vs[0]|;
    var n := |chunks|;
    var p := RunPass(projectId, repoPath, chunks, embed, ids);
    var e := Positions(vs, dim, n, Fitting);
    SamePositions(vs, dim, n);
    assert Kept(vs, dim, 0, Fitting);
    assert |p.vectors| > 0;
    assert p.indexIds == Pick(ids, e);
    RunShape(db, projectId, repoPath, chunks, embed, ids);
  }

  /** Every vector among the first `n` that has the first vector's length
      has a non-zero component. */
  predicate FittingIndexed(vs: seq<Vector>, n: nat)
    requires 0 < |vs| && n <= |vs|
  {
    forall k :: 0 <= k < n && Kept(vs, |vs[0]|, k, Fitting) ==> Kept(vs, |vs[0]|, k, Indexable)
  }

  /** When no fitting vector is zero, the embedding rows and the index
      keep the same positions. */
  lemma {:induction false} SamePositions(vs: seq<Vector>, dim: nat, n: nat)
    requires 0 < |vs| && n <= |vs| && dim == |vs[0]| && FittingIndexed(vs, n)
    ensures Positions(vs, dim, n, Fitting) == Positions(vs, dim, n, Indexable)
  {
    if n > 0 {
      SamePositions(vs, dim, n - 1);
      assert Kept(vs, dim, n - 1, Fitting) == Kept(vs, dim, n - 1, Indexable);
    }
  }

  /** When every vector enters the index, the run succeeds and appends one
      mapping row per chunk, in input order. */
  lemma AllIndexedMappings(db: Db, projectId: string, repoPath: string, chunks: seq<Segment.Chunk>, embed: EmbedOutcome, ids: seq<Id>)
    requires |ids| == |chunks| && Proceeds(chunks, embed) && |chunks| > 0
    requires forall k :: 0 <= k < |chunks| ==> Kept(embed.vectors, |embed.vectors[0]|, k, Indexable)
    ensures var out := CreateVectorIndexes(db, projectId, repoPath, chunks, embed, ids);
      out.result.Ok? && out.db.mappings == Cleared(db, projectId).mappings + MappingRows(projectId, ids)
  {
    RunShape(db, projectId, repoPath, chunks, embed, ids);
    EveryVectorKept(projectId, repoPath, chunks, embed.vectors, ids);
  }

  /** When every vector enters the index, the loop keeps every chunk in
      both lists. */
  lemma EveryVectorKept(projectId: string, repoPath: string, chunks: seq<Segment.Chunk>, vs: seq<Vector>, ids: seq<Id>)
    requires 0 < |chunks| <= |vs| && |ids| == |chunks|
    requires forall k :: 0 <= k < |chunks| ==> Kept(vs, |vs[0]|, k, Indexable)
    ensures var p := Loop(projectId, repoPath, chunks, vs, ids, |vs[0]|, |chunks|);
      var e := Positions(vs, |vs[0]|, |chunks|, Fitting);
      |p.vectors| > 0 && p.indexIds == ids && Pick(ids, e) == ids
  {
    var dim := |vs[0]|;
    var n := |chunks|;
    PositionsAll(vs, dim, n, Indexable);
    var p := Loop(projectId, repoPath, chunks, vs, ids, dim, n);
    AllPositionsPick(p.indexIds, ids, Positions(vs, dim, n, Indexable));
    forall k | 0 <= k < n ensures Kept(vs, dim, k, Fitting) {
      assert Kept(vs, dim, k, Indexable);
    }
    PositionsAll(vs, dim, n, Fitting);
    var e := Positions(vs, dim, n, Fitting);
    AllPositionsPick(Pick(ids, e), ids, e);
  }

  /** Picking every position in order picks the whole sequence. */
  lemma AllPositionsPick(a: seq<Id>, ids: seq<Id>, x: seq<nat>)
    requires |a| == |x| == |ids|
    requires forall j :: 0 <= j < |x| ==> x[j] == j
    requires forall j :: 0 <= j < |x| ==> x[j] < |ids| && a[j] == ids[x[j]]
    ensures a == ids
  {
  }

  /** The mapping argument on the table alone: appended after rows of other
      projects, the rows of `MappingRows` list `ids` position by position. */
  lemma MappingRowsFollow(mappings: seq<MappingRow>, prev: seq<MappingRow>, projectId: string, ids: seq<Id>)
    requires forall m :: m in prev ==> m.projectId != projectId
    requires mappings == prev + MappingRows(projectId, ids) && MappingKey(mappings)
    ensures forall q: int :: MappedChunk(mappings, projectId, q) == (if 0 <= q < |ids| then Some(ids[q]) else None)
  {
    var maps := MappingRows(projectId, ids);
    forall q: int ensures MappedChunk(mappings, projectId, q) == (if 0 <= q < |ids| then Some(ids[q]) else None) {
      if 0 <= q < |ids| {
        assert maps[q] in mappings;
        MappedChunkRow(mappings, maps[q]);
      }
    }
  }

  /** In that situation the search as written returns what a search through
      the mapping returns, for every answer without negative positions. */
  lemma FreshBuildSearchesAgree(db: Db, projectId: string, repoPath: string, chunks: seq<Segment.Chunk>, embed: EmbedOutcome, ids: seq<Id>,
                                query: EmbedOutcome, knn: seq<Neighbour>)
    requires Valid(db) && |ids| == |chunks| && FreshIds(db, ids) && Proceeds(chunks, embed) && |chunks| > 0
    requires RowidOrder(db, projectId) == []
    requires FittingIndexed(embed.vectors, |chunks|)
    requires forall j :: 0 <= j < |knn| ==> knn[j].position >= 0
    ensures var out := CreateVectorIndexes(db, projectId, repoPath, chunks, embed, ids).db;
      SearchSimilarCode(out, projectId, query, knn, |knn|) == SearchViaMapping(out, projectId, query, knn, |knn|)
  {
    FreshBuildMappingFollowsRowid(db, projectId, repoPath, chunks, embed, ids);
    var out := CreateVectorIndexes(db, projectId, repoPath, chunks, embed, ids).db;
    SearchesAgree(out, projectId, query, knn, |knn|);
  }

  /** Through the mapping, a hit for position `p` is a chunk whose stored
      vector is the index's vector at `p`: the property the search needs. */
  lemma MappedHitIsIndexedVector(db: Db, projectId: string, n: Neighbour)
    requires Aligned(db, projectId) && |MappedHit(db, projectId, n)| == 1
    ensures var index := db.indexFiles[IndexPath(projectId)];
      0 <= n.position < |index| &&
      EmbeddingOf(db.embeddings, MappedHit(db, projectId, n)[0].chunkId) == Some(index[n.position])
  {
    var h := MappedHit(db, projectId, n)[0];
    var m :| m in db.mappings && m.projectId == projectId && m.faissIndex == n.position && m.chunkId == h.chunkId;
  }

  /** Every hit of the corrected search comes from one of the pairs and,
      on an aligned store, names the chunk whose vector sits at that pair's position. */
  lemma {:induction false} MappingSearchFindsIndexedChunks(db: Db, projectId: string, knn: seq<Neighbour>, h: Hit)
    requires Aligned(db, projectId) && h in ResolveViaMapping(db, projectId, knn)
    ensures exists j :: (0 <= j < |knn| && MappedHit(db, projectId, knn[j]) == [h] &&
      h.distance == knn[j].distance &&
      EmbeddingOf(db.embeddings, h.chunkId) == Some(db.indexFiles[IndexPath(projectId)][knn[j].position]))
  {
    if h in MappedHit(db, projectId, knn[0]) {
      MappedHitIsIndexedVector(db, projectId, knn[0]);
      assert MappedHit(db, projectId, knn[0]) == [h];
    } else {
      MappingSearchFindsIndexedChunks(db, projectId, knn[1..], h);
      var j :| 0 <= j < |knn[1..]| && MappedHit(db, projectId, knn[1..][j]) == [h] &&
        h.distance == knn[1..][j].distance &&
        EmbeddingOf(db.embeddings, h.chunkId) == Some(db.indexFiles[IndexPath(projectId)][knn[1..][j].position]);
      assert knn[1..][j] == knn[j + 1];
    }
  }

  /** One pair resolved by the search as written, on any store whose
      rowid order is `order`. */
  lemma RowidHit(db: Db, projectId: string, order: seq<Id>, n: Neighbour, query: EmbedOutcome, id: Id)
    requires IndexPath(projectId) in db.indexFiles && RowidOrder(db, projectId) == order
    requires query.Returned? && query.vectors != [] && QueryFits(db.indexFiles[IndexPath(projectId)], query.vectors[0])
    requires ResolvePosition(order, n.position) == Ok(Some(id)) && id in ChunkIds(db.chunks)
    ensures var hits := SearchSimilarCode(db, projectId, query, [n], 1);
      hits.Ok? && |hits.value| == 1 && hits.value[0].chunkId == id
  {
    assert [n][1..] == [];
  }

  /** One pair resolved through the mapping rows. */
  lemma MappingHit(db: Db, projectId: string, n: Neighbour, query: EmbedOutcome, id: Option<Id>)
    requires IndexPath(projectId) in db.indexFiles && MappedChunk(db.mappings, projectId, n.position) == id
    requires query.Returned? && query.vectors != [] && QueryFits(db.indexFiles[IndexPath(projectId)], query.vectors[0])
    requires id.Some? ==> id.value in ChunkIds(db.chunks)
    ensures var hits := SearchViaMapping(db, projectId, query, [n], 1);
      hits.Ok? && (id.None? ==> hits.value == []) &&
      (id.Some? ==> |hits.value| == 1 && hits.value[0].chunkId == id.value)
  {
    assert [n][1..] == [];
  }

  /** The positions of a two-vector reply whose first vector is zero. */
  lemma ZeroThenNonZero(vs: seq<Vector>)
    requires |vs| == 2 && |vs[0]| == |vs[1]| > 0 && IsZero(vs[0]) && !IsZero(vs[1])
    ensures Positions(vs, |vs[0]|, 2, Fitting) == [0, 1]
    ensures Positions(vs, |vs[0]|, 2, Indexable) == [1]
  {
    var dim := |vs[0]|;
    assert Positions(vs, dim, 0, Fitting) == [] && Positions(vs, dim, 0, Indexable) == [];
    assert Kept(vs, dim, 0, Fitting) && Kept(vs, dim, 1, Fitting);
    assert !Kept(vs, dim, 0, Indexable) && Kept(vs, dim, 1, Indexable);
    assert Positions(vs, dim, 1, Fitting) == [0];
    assert Positions(vs, dim, 1, Indexable) == [];
  }

  /** The index and mapping after a build whose first of two vectors is zero. */
  lemma ZeroBuildIndex(db: Db, projectId: string, repoPath: string, chunks: seq<Segment.Chunk>, vs: seq<Vector>, ids: seq<Id>)
    requires Valid(db) && |chunks| == 2 && |ids| == 2 && FreshIds(db, ids)
    requires |vs| == 2 && |vs[0]| == |vs[1]| > 0 && IsZero(vs[0]) && !IsZero(vs[1])
    ensures var out := CreateVectorIndexes(db, projectId, repoPath, chunks, Returned(vs), ids);
      out.result.Ok? && out.db.indexFiles[IndexPath(projectId)] == [vs[1]] &&
      MappedChunk(out.db.mappings, projectId, 0) == Some(ids[1])
  {
    var embed := Returned(vs);
    var out := CreateVectorIndexes(db, projectId, repoPath, chunks, embed, ids);
    ZeroThenNonZero(vs);
    var p := RunPass(projectId, repoPath, chunks, embed, ids);
    assert p.indexIds == [ids[1]] && p.vectors == [vs[1]];
    RunShape(db, projectId, repoPath, chunks, embed, ids);
    BuildKeepsSchema(db, projectId, repoPath, chunks, embed, ids);
    MappingRowsFollow(out.db.mappings, Cleared(db, projectId).mappings, projectId, [ids[1]]);
  }

  /** The rowid order after a build of two chunks whose vectors have the
      same length, zero or not: both get an embedding row. */
  lemma TwoFittingOrder(db: Db, projectId: string, repoPath: string, chunks: seq<Segment.Chunk>, vs: seq<Vector>, ids: seq<Id>)
    requires Valid(db) && |chunks| == 2 && |ids| == 2 && FreshIds(db, ids) && RowidOrder(db, projectId) == []
    requires |vs| == 2 && |vs[0]| == |vs[1]|
    ensures RowidOrder(CreateVectorIndexes(db, projectId, repoPath, chunks, Returned(vs), ids).db, projectId) == ids
  {
    var e := Positions(vs, |vs[0]|, 2, Fitting);
    assert Kept(vs, |vs[0]|, 0, Fitting) && Kept(vs, |vs[0]|, 1, Fitting);
    assert e == [0, 1];
    TwoPositionsPickAll(ids, e);
    BuildExtendsRowidOrder(db, projectId, repoPath, chunks, Returned(vs), ids);
  }

  /** Picking positions 0 and 1 of a two-element list gives the list. */
  lemma TwoPositionsPickAll(ids: seq<Id>, e: seq<nat>)
    requires |ids| == 2 && e == [0, 1]
    ensures Pick(ids, e) == ids
  {
  }

  /** The rows after a build whose first of two vectors is zero: both chunks
      are stored and the zero vector is stored for the first. */
  lemma ZeroBuildRows(db: Db, projectId: string, repoPath: string, chunks: seq<Segment.Chunk>, vs: seq<Vector>, ids: seq<Id>)
    requires Valid(db) && |chunks| == 2 && |ids| == 2 && FreshIds(db, ids)
    requires |vs| == 2 && |vs[0]| == |vs[1]| > 0
    ensures var out := CreateVectorIndexes(db, projectId, repoPath, chunks, Returned(vs), ids).db;
      ids[0] in ChunkIds(out.chunks) && ids[1] in ChunkIds(out.chunks) &&
      EmbeddingOf(out.embeddings, ids[0]) == Some(vs[0])
  {
    var embed := Returned(vs);
    var out := CreateVectorIndexes(db, projectId, repoPath, chunks, embed, ids).db;
    BuildEmbeddingRows(db, projectId, repoPath, chunks, embed, ids, 0);
    BuildWritesEveryChunk(db, projectId, repoPath, chunks, embed, ids);
    assert out.chunks[|db.chunks|].id == ids[0] && out.chunks[|db.chunks| + 1].id == ids[1];
  }

  /** A zero vector shifts the positions. Two chunks whose vectors are [0]
      and [1]: the index holds only [1], at position 0, and the mapping names
      the second chunk there; the search as written resolves position 0 to
      the first chunk, whose stored vector is [0]. */
  lemma ZeroVectorMisresolves(db: Db, projectId: string, repoPath: string, c0: Segment.Chunk, c1: Segment.Chunk, a: Id, b: Id, d: real)
    requires Valid(db) && FreshIds(db, [a, b]) && RowidOrder(db, projectId) == []
    ensures var out := CreateVectorIndexes(db, projectId, repoPath, [c0, c1], Returned([[0], [1]]), [a, b]).db;
      var hits := SearchSimilarCode(out, projectId, Returned([[1]]), [Neighbour(d, 0)], 1);
      var mapped := SearchViaMapping(out, projectId, Returned([[1]]), [Neighbour(d, 0)], 1);
      out.indexFiles[IndexPath(projectId)] == [[1]] &&
      hits.Ok? && |hits.value| == 1 && hits.value[0].chunkId == a &&
      EmbeddingOf(out.embeddings, a) == Some([0]) &&
      mapped.Ok? && |mapped.value| == 1 && mapped.value[0].chunkId == b
  {
    var vs: seq<Vector> := [[0], [1]];
    assert vs[1][0] != 0;
    ZeroBuildIndex(db, projectId, repoPath, [c0, c1], vs, [a, b]);
    TwoFittingOrder(db, projectId, repoPath, [c0, c1], vs, [a, b]);
    ZeroBuildRows(db, projectId, repoPath, [c0, c1], vs, [a, b]);
    var out := CreateVectorIndexes(db, projectId, repoPath, [c0, c1], Returned([[0], [1]]), [a, b]).db;
    RowidHit(out, projectId, [a, b], Neighbour(d, 0), Returned([[1]]), a);
    MappingHit(out, projectId, Neighbour(d, 0), Returned([[1]]), Some(b));
  }

  /** A build of one chunk whose vector is non-zero: it is indexed alone,
      and the mapping names it at position 0 and nowhere else. */
  lemma OneIndexedBuild(db: Db, projectId: string, repoPath: string, chunks: seq<Segment.Chunk>, vs: seq<Vector>, ids: seq<Id>)
    requires Valid(db) && |chunks| == 1 && |ids| == 1 && FreshIds(db, ids)
    requires |vs| == 1 && !IsZero(vs[0])
    ensures var out := CreateVectorIndexes(db, projectId, repoPath, chunks, Returned(vs), ids);
      out.result.Ok? && out.db.indexFiles[IndexPath(projectId)] == vs &&
      forall q: int :: MappedChunk(out.db.mappings, projectId, q) == (if q == 0 then Some(ids[0]) else None)
  {
    var embed := Returned(vs);
    var out := CreateVectorIndexes(db, projectId, repoPath, chunks, embed, ids);
    OneVectorKept(vs);
    AllIndexedMappings(db, projectId, repoPath, chunks, embed, ids);
    OneVectorIndexed(projectId, repoPath, chunks, vs, ids);
    RunShape(db, projectId, repoPath, chunks, embed, ids);
    BuildKeepsSchema(db, projectId, repoPath, chunks, embed, ids);
    MappingRowsFollow(out.db.mappings, Cleared(db, projectId).mappings, projectId, ids);
  }

  lemma OneVectorKept(vs: seq<Vector>)
    requires |vs| == 1 && !IsZero(vs[0])
    ensures forall k :: 0 <= k < 1 ==> Kept(vs, |vs[0]|, k, Indexable)
  {
    assert Kept(vs, |vs[0]|, 0, Indexable);
  }

  /** The one non-zero vector of a one-chunk build is the whole index. */
  lemma OneVectorIndexed(projectId: string, repoPath: string, chunks: seq<Segment.Chunk>, vs: seq<Vector>, ids: seq<Id>)
    requires |chunks| == 1 && |ids| == 1 && |vs| == 1 && !IsZero(vs[0])
    ensures Loop(projectId, repoPath, chunks, vs, ids, |vs[0]|, 1).vectors == vs
  {
    var x := Positions(vs, |vs[0]|, 1, Indexable);
    assert Kept(vs, |vs[0]|, 0, Indexable);
    assert x[0] == 0;
  }

  /** The chunk ids after a build of one chunk: the earlier ones and its own. */
  lemma OneChunkRows(db: Db, projectId: string, repoPath: string, chunks: seq<Segment.Chunk>, vs: seq<Vector>, ids: seq<Id>)
    requires |chunks| == 1 && |ids| == 1 && |vs| == 1
    ensures ChunkIds(CreateVectorIndexes(db, projectId, repoPath, chunks, Returned(vs), ids).db.chunks) == ChunkIds(db.chunks) + {ids[0]}
  {
    var out := CreateVectorIndexes(db, projectId, repoPath, chunks, Returned(vs), ids).db;
    var p := RunPass(projectId, repoPath, chunks, Returned(vs), ids);
    RunShape(db, projectId, repoPath, chunks, Returned(vs), ids);
    assert out.chunks == db.chunks + p.rows;
    PassShape(projectId, repoPath, chunks, vs, ids);
    assert |p.rows| == 1 && p.rows[0].id == ids[0];
    ChunkIdsAfterOne(db.chunks, out.chunks, p.rows, ids[0]);
  }

  /** Appending one row adds its id. */
  lemma ChunkIdsAppendOne(rows: seq<ChunkRow>, r: ChunkRow)
    ensures ChunkIds(rows + [r]) == ChunkIds(rows) + {r.id}
  {
    assert r in rows + [r];
  }

  /** Appending a one-row block adds the id of its row. */
  lemma ChunkIdsAfterOne(before: seq<ChunkRow>, after: seq<ChunkRow>, rows: seq<ChunkRow>, id: Id)
    requires after == before + rows && |rows| == 1 && rows[0].id == id
    ensures ChunkIds(after) == ChunkIds(before) + {id}
  {
    assert rows == [rows[0]];
    ChunkIdsAppendOne(before, rows[0]);
  }

  /** The rowid order after a build of one chunk: its id comes last. */
  lemma OneFittingOrder(db: Db, projectId: string, repoPath: string, chunks: seq<Segment.Chunk>, vs: seq<Vector>, ids: seq<Id>)
    requires Valid(db) && |chunks| == 1 && |ids| == 1 && FreshIds(db, ids) && |vs| == 1
    ensures RowidOrder(CreateVectorIndexes(db, projectId, repoPath, chunks, Returned(vs), ids).db, projectId) ==
      RowidOrder(db, projectId) + ids
  {
    var e := Positions(vs, |vs[0]|, 1, Fitting);
    assert Kept(vs, |vs[0]|, 0, Fitting);
    assert e == [0];
    assert Pick(ids, e) == ids;
    BuildExtendsRowidOrder(db, projectId, repoPath, chunks, Returned(vs), ids);
  }

  /** The second build of the scenario below, on the store the first left. */
  lemma SecondBuildMisresolves(first: Db, projectId: string, repoPath: string, c1: Segment.Chunk, vs: seq<Vector>, a: Id, b: Id, n: Neighbour)
    requires Valid(first) && FreshIds(first, [b]) && RowidOrder(first, projectId) == [a] && a in ChunkIds(first.chunks)
    requires |vs| == 1 && !IsZero(vs[0]) && n.position == 0
    ensures var second := CreateVectorIndexes(first, projectId, repoPath, [c1], Returned(vs), [b]).db;
      var hits := SearchSimilarCode(second, projectId, Returned(vs), [n], 1);
      var mapped := SearchViaMapping(second, projectId, Returned(vs), [n], 1);
      IndexPath(projectId) in second.indexFiles && second.indexFiles[IndexPath(projectId)] == vs &&
      hits.Ok? && |hits.value| == 1 && hits.value[0].chunkId == a &&
      mapped.Ok? && |mapped.value| == 1 && mapped.value[0].chunkId == b
  {
    var second := CreateVectorIndexes(first, projectId, repoPath, [c1], Returned(vs), [b]).db;
    OneIndexedBuild(first, projectId, repoPath, [c1], vs, [b]);
    OneFittingOrder(first, projectId, repoPath, [c1], vs, [b]);
    OneChunkRows(first, projectId, repoPath, [c1], vs, [b]);
    assert [a] + [b] == [a, b];
    StaleHits(second, projectId, vs, n, a, b);
  }

  /** On a store whose rowid order is `[a, b]` and whose mapping names `b`
      alone, at position 0, the two searches part ways at that position. */
  lemma StaleHits(second: Db, projectId: string, vs: seq<Vector>, n: Neighbour, a: Id, b: Id)
    requires IndexPath(projectId) in second.indexFiles && RowidOrder(second, projectId) == [a, b]
    requires a in ChunkIds(second.chunks) && b in ChunkIds(second.chunks)
    requires MappedChunk(second.mappings, projectId, 0) == Some(b)
    requires |vs| == 1 && n.position == 0 && second.indexFiles[IndexPath(projectId)] == vs
    ensures var hits := SearchSimilarCode(second, projectId, Returned(vs), [n], 1);
      var mapped := SearchViaMapping(second, projectId, Returned(vs), [n], 1);
      hits.Ok? && |hits.value| == 1 && hits.value[0].chunkId == a &&
      mapped.Ok? && |mapped.value| == 1 && mapped.value[0].chunkId == b
  {
    RowidHit(second, projectId, [a, b], n, Returned(vs), a);
    MappingHit(second, projectId, n, Returned(vs), Some(b));
  }

  /** Rows of an earlier build are never deleted. A first build indexes one
      chunk with vector [1], a second build of the same project indexes
      another with vector [2]: the mapping names the new chunk at position
      0, but the search as written resolves position 0 to the old one. */
  lemma StaleBuildMisresolves(db: Db, projectId: string, repoPath: string, c0: Segment.Chunk, c1: Segment.Chunk, a: Id, b: Id, d: real)
    requires Valid(db) && FreshIds(db, [a, b]) && RowidOrder(db, projectId) == []
    ensures var first := CreateVectorIndexes(db, projectId, repoPath, [c0], Returned([[1]]), [a]).db;
      var second := CreateVectorIndexes(first, projectId, repoPath, [c1], Returned([[2]]), [b]).db;
      var hits := SearchSimilarCode(second, projectId, Returned([[2]]), [Neighbour(d, 0)], 1);
      var mapped := SearchViaMapping(second, projectId, Returned([[2]]), [Neighbour(d, 0)], 1);
      IndexPath(projectId) in second.indexFiles && second.indexFiles[IndexPath(projectId)] == [[2]] &&
      hits.Ok? && |hits.value| == 1 && hits.value[0].chunkId == a &&
      mapped.Ok? && |mapped.value| == 1 && mapped.value[0].chunkId == b
  {
    var v1: seq<Vector> := [[1]];
    assert [a, b][0] == a && [a, b][1] == b;
    var first := CreateVectorIndexes(db, projectId, repoPath, [c0], Returned(v1), [a]).db;
    OneFittingOrder(db, projectId, repoPath, [c0], v1, [a]);
    OneChunkRows(db, projectId, repoPath, [c0], v1, [a]);
    BuildKeepsSchema(db, projectId, repoPath, [c0], Returned(v1), [a]);
    assert FreshIds(first, [b]);
    var v2: seq<Vector> := [[2]];
    assert v2[0][0] != 0;
    SecondBuildMisresolves(first, projectId, repoPath, c1, v2, a, b, Neighbour(d, 0));
  }

  /** A negative position, which the index uses to pad an answer shorter
      than `top_k`, passes the `idx_val < len` test and resolves from the
      end of the list; through the mapping it names nothing. Asked for two
      neighbours of a one-vector index, the index answers position 0 and
      the padding -1, and the rowid resolution reports the only chunk twice. */
  lemma PaddingResolvesToLastRow(db: Db, projectId: string, repoPath: string, c0: Segment.Chunk, a: Id, d0: real, d1: real)
    requires Valid(db) && FreshIds(db, [a]) && RowidOrder(db, projectId) == []
    ensures var out := CreateVectorIndexes(db, projectId, repoPath, [c0], Returned([[1]]), [a]).db;
      var knn := [Neighbour(d0, 0), Neighbour(d1, -1)];
      var hits := SearchSimilarCode(out, projectId, Returned([[1]]), knn, 2);
      var mapped := SearchViaMapping(out, projectId, Returned([[1]]), knn, 2);
      hits.Ok? && |hits.value| == 2 && hits.value[0].chunkId == a && hits.value[1].chunkId == a &&
      hits.value[1].distance == d1 &&
      mapped.Ok? && |mapped.value| == 1 && mapped.value[0].chunkId == a
  {
    var v1: seq<Vector> := [[1]];
    assert v1[0][0] != 0;
    var out := CreateVectorIndexes(db, projectId, repoPath, [c0], Returned(v1), [a]).db;
    OneIndexedBuild(db, projectId, repoPath, [c0], v1, [a]);
    OneFittingOrder(db, projectId, repoPath, [c0], v1, [a]);
    OneChunkRows(db, projectId, repoPath, [c0], v1, [a]);
    assert RowidOrder(out, projectId) == [a] && a in ChunkIds(out.chunks);
    PaddingRowidHits(out, projectId, a, d0, d1);
    PaddingMappedHits(out, projectId, a, d0, d1);
  }

  /** The rowid resolution of the padded answer, on any store whose index
      holds `[1]` and whose project rows list just `a`. */
  lemma PaddingRowidHits(db: Db, projectId: string, a: Id, d0: real, d1: real)
    requires IndexPath(projectId) in db.indexFiles && db.indexFiles[IndexPath(projectId)] == [[1]]
    requires RowidOrder(db, projectId) == [a] && a in ChunkIds(db.chunks)
    ensures var hits := SearchSimilarCode(db, projectId, Returned([[1]]), [Neighbour(d0, 0), Neighbour(d1, -1)], 2);
      hits.Ok? && |hits.value| == 2 && hits.value[0].chunkId == a && hits.value[1].chunkId == a &&
      hits.value[1].distance == d1
  {
    var order := [a];
    var n0, n1 := Neighbour(d0, 0), Neighbour(d1, -1);
    assert [n0, n1] == [n0] + [n1];
    OnePairHit(db, order, n0, a);
    OnePairHit(db, order, n1, a);
    ResolveHitsAppend(db, order, [n0], [n1]);
  }

  /** The mapping resolution of the padded answer: -1 has no mapping row. */
  lemma PaddingMappedHits(db: Db, projectId: string, a: Id, d0: real, d1: real)
    requires IndexPath(projectId) in db.indexFiles && db.indexFiles[IndexPath(projectId)] == [[1]]
    requires forall q: int :: MappedChunk(db.mappings, projectId, q) == (if q == 0 then Some(a) else None)
    requires a in ChunkIds(db.chunks)
    ensures var mapped := SearchViaMapping(db, projectId, Returned([[1]]), [Neighbour(d0, 0), Neighbour(d1, -1)], 2);
      mapped.Ok? && |mapped.value| == 1 && mapped.value[0].chunkId == a
  {
    var n0, n1 := Neighbour(d0, 0), Neighbour(d1, -1);
    var knn := [n0, n1];
    assert MappedChunk(db.mappings, projectId, 0) == Some(a) && MappedChunk(db.mappings, projectId, -1) == None;
    assert knn[1..] == [n1] && [n1][1..] == [];
    assert ResolveViaMapping(db, projectId, [n1]) == [];
    assert ResolveViaMapping(db, projectId, knn) == MappedHit(db, projectId, n0);
  }

  /** A pair whose position resolves to a stored chunk gives one record,
      for that chunk and with that pair's distance. */
  lemma OnePairHit(db: Db, order: seq<Id>, n: Neighbour, id: Id)
    requires ResolvePosition(order, n.position) == Ok(Some(id)) && id in ChunkIds(db.chunks)
    ensures var hits := ResolveHits(db, order, [n]);
      hits.Ok? && |hits.value| == 1 && hits.value[0].chunkId == id && hits.value[0].distance == n.distance
  {
    assert [n][1..] == [];
  }
}

=== FILE: detect.dfy ===
/** detect.py's `get_programming_language`: the language a file extension
    belongs to, looked up case-insensitively in an ordered table in which
    the first listing language wins. */
module Detect {
  import opened Wrappers
  import Text

  const Unknown := "Unknown"

  /** The table in its declared order: each language with its extensions. */
  const Languages: seq<(string, seq<string>)> := [
    ("python", [".py", ".pyw"]),
    ("javascript", [".js"]),
    ("java", [".java"]),
    ("cpp", [".cpp", ".cc", ".cxx", ".hpp", ".hxx", ".h", ".hh"]),
    ("c", [".c", ".h"]),
    ("csharp", [".cs"]),
    ("ruby", [".rb"]),
    ("php", [".php"]),
    ("swift", [".swift"]),
    ("go", [".go"]),
    ("rust", [".rs"]),
    ("kotlin", [".kt", ".kts"]),
    ("typescript", [".ts"]),
    ("scala", [".scala"]),
    ("html", [".html", ".htm"]),
    ("css", [".css"]),
    ("shell", [".sh", ".bash"]),
    ("perl", [".pl", ".pm"]),
    ("lua", [".lua"]),
    ("haskell", [".hs"]),
    ("r", [".r"]),
    ("matlab", [".m"]),
    ("cuda", [".cu"])
  ]

  /** The index of the first entry of `table` listing `ext`. */
  function FirstListing(ext: string, table: seq<(string, seq<string>)>): (r: Option<nat>)
    ensures r.Some? ==> r.value < |table| && ext in table[r.value].1
    ensures r.Some? ==> forall j :: 0 <= j < r.value ==> ext !in table[j].1
    ensures r.None? <==> forall j :: 0 <= j < |table| ==> ext !in table[j].1
  {
    if |table| == 0 then None
    else if ext in table[0].1 then Some(0)
    else match FirstListing(ext, table[1..])
      case Some(i) => Some(i + 1)
      case None => None
  }

  /** `get_programming_language(extension)`. */
  function ProgrammingLanguage(extension: string): (r: string)
    ensures r == Unknown || exists i :: 0 <= i < |Languages| && Languages[i].0 == r
  {
    match FirstListing(Text.Lower(extension), Languages)
    case Some(i) => Languages[i].0
    case None => Unknown
  }

  /** The language of the first entry listing the lower-cased extension. */
  lemma FirstListingWins(extension: string, i: nat)
    requires i < |Languages| && Text.Lower(extension) in Languages[i].1
    requires forall j :: 0 <= j < i ==> Text.Lower(extension) !in Languages[j].1
    ensures ProgrammingLanguage(extension) == Languages[i].0
  {
    FirstListingAt(Text.Lower(extension), Languages, i);
  }

  /** In any table, the first entry listing `ext` is the one found. */
  lemma FirstListingAt(ext: string, table: seq<(string, seq<string>)>, i: nat)
    requires i < |table| && ext in table[i].1
    requires forall j :: 0 <= j < i ==> ext !in table[j].1
    ensures FirstListing(ext, table) == Some(i)
  {
    var r := FirstListing(ext, table);
    assert r.Some?;
    if r.value < i {
    } else if r.value > i {
    }
  }

  /** "Unknown" is no language of the table. */
  lemma UnknownIsNoLanguage()
    ensures forall i :: 0 <= i < |Languages| ==> Languages[i].0 != Unknown
  {
  }

  /** The answer is "Unknown" exactly when no entry lists the lower-cased
      extension. */
  lemma UnknownIffUnlisted(extension: string)
    ensures ProgrammingLanguage(extension) == Unknown <==>
      forall i :: 0 <= i < |Languages| ==> Text.Lower(extension) !in Languages[i].1
  {
    UnknownIsNoLanguage();
  }

  /** Lower-casing twice is lower-casing once. */
  lemma LowerIdempotent(s: string)
    ensures Text.Lower(Text.Lower(s)) == Text.Lower(s)
  {
  }

  /** Case does not matter. */
  lemma CaseInsensitive(extension: string)
    ensures ProgrammingLanguage(extension) == ProgrammingLanguage(Text.Lower(extension))
  {
    LowerIdempotent(extension);
  }

  /** Every extension of the table starts with a dot and has at most six
      characters. */
  lemma ExtensionsDottedAndShort()
    ensures forall i, k :: 0 <= i < |Languages| && 0 <= k < |Languages[i].1| ==>
      0 < |Languages[i].1[k]| <= 6 && Languages[i].1[k][0] == '.'
  {
  }

  /** Matching is on the whole extension with its dot: without a leading
      dot, or longer than any listed extension, the answer is "Unknown". */
  lemma UnlistedShapes(extension: string)
    requires |extension| == 0 || extension[0] != '.' || |extension| > 6
    ensures ProgrammingLanguage(extension) == Unknown
  {
    ExtensionsDottedAndShort();
    var e := Text.Lower(extension);
    assert |e| == 0 || e[0] != '.' || |e| > 6;
    assert forall i :: 0 <= i < |Languages| ==> e !in Languages[i].1;
    UnknownIffUnlisted(extension);
  }

  /** No upper-case ASCII letter occurs in `s`. */
  predicate LowerCaseText(s: string) {
    forall m :: 0 <= m < |s| ==> !('A' <= s[m] <= 'Z')
  }

  lemma LowerOfLowerCase(s: string)
    requires LowerCaseText(s)
    ensures Text.Lower(s) == s
  {
  }

  /** Entry `k`'s first extension is listed by no earlier entry. */
  predicate FirstListedAt(k: nat)
    requires k < |Languages|
  {
    forall j :: 0 <= j < k ==> Languages[k].1[0] !in Languages[j].1
  }

  lemma FirstListedBelow6(lo: nat, hi: nat)
    requires lo == 0 && hi == 6
    ensures forall k :: lo <= k < hi ==> FirstListedAt(k)
  {
  }

  lemma FirstListedBelow12(lo: nat, hi: nat)
    requires lo == 6 && hi == 12
    ensures forall k :: lo <= k < hi ==> FirstListedAt(k)
  {
  }

  lemma FirstListedBelow15(lo: nat, hi: nat)
    requires lo == 12 && hi == 15
    ensures forall k :: lo <= k < hi ==> FirstListedAt(k)
  {
  }

  lemma FirstListedBelow18(lo: nat, hi: nat)
    requires lo == 15 && hi == 18
    ensures forall k :: lo <= k < hi ==> FirstListedAt(k)
  {
  }

  lemma FirstListedBelow21(lo: nat, hi: nat)
    requires lo == 18 && hi == 21
    ensures forall k :: lo <= k < hi ==> FirstListedAt(k)
  {
  }

  lemma FirstListedBelow23(lo: nat, hi: nat)
    requires lo == 21 && hi == 23
    ensures forall k :: lo <= k < hi ==> FirstListedAt(k)
  {
  }

  lemma FirstExtensionsLowerCase(lo: nat, hi: nat)
    requires (lo == 0 && hi == 12) || (lo == 12 && hi == 23)
    ensures forall k :: lo <= k < hi ==> LowerCaseText(Languages[k].1[0])
  {
  }

  /** Each language is what its first listed extension detects as: the
      pairs ".py" "python", ".js" "javascript", ..., ".cu" "cuda". */
  lemma {:induction false} FirstExtensionDetectsLanguage()
    ensures forall k :: 0 <= k < |Languages| ==> ProgrammingLanguage(Languages[k].1[0]) == Languages[k].0
  {
    FirstListedBelow6(0, 6);
    FirstListedBelow12(6, 12);
    FirstListedBelow15(12, 15);
    FirstListedBelow18(15, 18);
    FirstListedBelow21(18, 21);
    FirstListedBelow23(21, 23);
    FirstExtensionsLowerCase(0, 12);
    FirstExtensionsLowerCase(12, 23);
    forall k | 0 <= k < |Languages|
      ensures ProgrammingLanguage(Languages[k].1[0]) == Languages[k].0
    {
      var ext := Languages[k].1[0];
      LowerOfLowerCase(ext);
      assert FirstListedAt(k);
      FirstListingWins(ext, k);
    }
  }

  /** A header ".h" is C++: "cpp" lists it before "c" does. */
  lemma HeaderIsCpp(ext: string)
    requires ext == ".h"
    ensures ProgrammingLanguage(ext) == "cpp"
    ensures ext in Languages[4].1 && Languages[4].0 == "c"
  {
    LowerOfLowerCase(ext);
    HeaderListing(ext);
    FirstListingWins(ext, 3);
    CppAndC();
  }

  lemma CppAndC()
    ensures Languages[3].0 == "cpp" && Languages[4].0 == "c"
  {
  }

  lemma HeaderListing(ext: string)
    requires ext == ".h"
    ensures ext in Languages[3].1 && ext in Languages[4].1
    ensures forall j :: 0 <= j < 3 ==> ext !in Languages[j].1
  {
    assert Languages[3].1[5] == ext;
    assert Languages[4].1[1] == ext;
  }

  /** Upper-case extensions are recognised: ".PY" is Python. */
  lemma UpperCasePython(ext: string)
    requires ext == ".PY"
    ensures ProgrammingLanguage(ext) == "python"
  {
    assert Text.Lower(ext) == ".py";
    FirstListingWins(ext, 0);
  }

  /** "py", without its dot, and ".unknown" are not recognised. */
  lemma UnrecognisedExamples(bare: string, long: string)
    requires bare == "py" && long == ".unknown"
    ensures ProgrammingLanguage(bare) == Unknown && ProgrammingLanguage(long) == Unknown
  {
    UnlistedShapes(bare);
    UnlistedShapes(long);
  }
}

=== FILE: exceptions.dfy ===
/** The Python exceptions the prompt, dispatch and display helpers raise,
    each with the part of its message the code determines. */
module Exceptions {

  datatype Raised =
    /** `ValueError(message)`. */
    | ValueError(message: string)
    /** Looking up `owner.attribute` where the attribute does not exist. */
    | AttributeError(owner: string, attribute: string)
    /** An operation applied to a value of the wrong type. */
    | TypeError(message: string)
    /** `seq[i]` with `i` out of range. */
    | IndexError(index: int, length: nat)
    /** Reading a local variable that has not been assigned yet. */
    | UnboundLocalError(name: string)
    /** A bare `Exception(message)`. */
    | Error(message: string)
}

=== FILE: manage_repo.dfy ===
/** The pure parts of lemma/embeddings/manage_repo.py: reading owner and
    repository out of a GitHub URL, and the name of the folder a downloaded
    archive is expected to extract to. */
module ManageRepo {
  import opened Wrappers
  import Text

  /** The characters Python's `urllib.parse` accepts in a scheme. */
  predicate SchemeChar(c: char) {
    'a' <= c <= 'z' || 'A' <= c <= 'Z' || '0' <= c <= '9' || c == '+' || c == '-' || c == '.'
  }

  predicate AsciiLetter(c: char) {
    'a' <= c <= 'z' || 'A' <= c <= 'Z'
  }

  /** The text before the first `c`, or all of it. */
  function BeforeFirst(s: string, c: char): (r: string)
    ensures r <= s && c !in r
    ensures c !in s ==> r == s
    ensures |r| < |s| ==> s[|r|] == c
  {
    var k := Text.Find(s, c);
    if k < 0 then s else s[..k]
  }

  predicate AuthorityStop(c: char) {
    c == '/' || c == '?' || c == '#'
  }

  /** Where the authority that starts at offset `i` ends: the first `/`, `?` or `#`, or the end. */
  function AuthorityEnd(s: string, i: nat): (k: nat)
    requires i <= |s|
    ensures i <= k <= |s|
    ensures forall j :: i <= j < k ==> !AuthorityStop(s[j])
    ensures k == |s| || AuthorityStop(s[k])
    decreases |s| - i
  {
    if i == |s| || AuthorityStop(s[i]) then i else AuthorityEnd(s, i + 1)
  }

  /** The URL starts with a scheme: a letter, then scheme characters up to
      the first `:`. */
  predicate HasScheme(url: string) {
    var i := Text.Find(url, ':');
    i > 0 && AsciiLetter(url[0]) && forall j :: 0 <= j < i ==> SchemeChar(url[j])
  }

  /** What follows `scheme:` when the URL starts with a scheme. */
  function AfterScheme(url: string): string {
    if HasScheme(url) then url[Text.Find(url, ':') + 1..] else url
  }

  /** The scheme `urlparse` reports, lower-cased, or "" when there is none. */
  function SchemeOf(url: string): string {
    if HasScheme(url) then Text.Lower(url[..Text.Find(url, ':')]) else ""
  }

  /** `urllib.parse.uses_params`: the schemes whose paths have `;params`
      split off. */
  const UsesParams: set<string> := {"", "ftp", "hdl", "prospero", "http", "imap", "https", "shttp",
    "rtsp", "rtsps", "rtspu", "sip", "sips", "mms", "sftp", "tel"}

  /** Python's `s.rfind(c)`, or `-1`. */
  function LastIndex(s: string, c: char): (r: int)
    ensures -1 <= r < |s|
    ensures r == -1 <==> c !in s
    ensures r >= 0 ==> s[r] == c
    ensures forall j :: r < j < |s| ==> s[j] != c
    decreases |s|
  {
    if |s| == 0 then -1
    else if s[|s| - 1] == c then |s| - 1
    else LastIndex(s[..|s| - 1], c)
  }

  /** `_splitparams`: the path up to the first `;` of its last segment,
      the text after its last `/`. */
  function DropParams(path: string): (r: string)
    ensures r <= path
    ensures |r| < |path| ==> path[|r|] == ';'
  {
    var k := LastIndex(path, '/') + 1;
    var kept := BeforeFirst(path[k..], ';');
    Text.PrefixSplit(path, k);
    Text.PrefixAppend(path[..k], kept, path[k..]);
    path[..k] + kept
  }

  /** Text without `c` appended after the last `c` leaves it last. */
  lemma {:induction false} LastIndexAppend(x: string, b: string, c: char)
    requires c !in b
    ensures LastIndex(x + b, c) == LastIndex(x, c)
    decreases |b|
  {
    if |b| == 0 {
      assert x + b == x;
    } else {
      var s := x + b;
      var front := b[..|b| - 1];
      assert s[|s| - 1] == b[|b| - 1];
      assert s[..|s| - 1] == x + front;
      assert c !in front by {
        assert forall j :: 0 <= j < |front| ==> front[j] == b[j];
      }
      LastIndexAppend(x, front, c);
    }
  }

  /** A directory part: empty or ending in `/`. */
  predicate IsDirectory(dir: string) {
    |dir| == 0 || dir[|dir| - 1] == '/'
  }

  /** Where the last segment of `dir + seg` starts, for a directory `dir`
      and a segment `seg` without `/`. */
  lemma LastSegmentStart(dir: string, seg: string)
    requires IsDirectory(dir) && '/' !in seg
    ensures LastIndex(dir + seg, '/') + 1 == |dir|
    ensures (dir + seg)[..|dir|] == dir && (dir + seg)[|dir|..] == seg
  {
    if |dir| > 0 {
      assert LastIndex(dir, '/') == |dir| - 1;
    } else {
      assert LastIndex(dir, '/') == -1;
    }
    LastIndexAppend(dir, seg, '/');
  }

  /** The last segment `name;params` is cut back to `name`. */
  lemma ParamsCut(dir: string, name: string, params: string)
    requires IsDirectory(dir)
    requires '/' !in name && ';' !in name && '/' !in params
    ensures DropParams(dir + name + ";" + params) == dir + name
  {
    var seg := name + ";" + params;
    assert dir + name + ";" + params == dir + seg;
    assert '/' !in seg by {
      assert forall j :: 0 <= j < |seg| ==> seg[j] == (if j < |name| then name[j] else if j == |name| then ';' else params[j - |name| - 1]);
    }
    LastSegmentStart(dir, seg);
    CutAtFirst(name, params);
  }

  lemma CutAtFirst(name: string, params: string)
    requires ';' !in name
    ensures BeforeFirst(name + ";" + params, ';') == name
  {
    var seg := name + ";" + params;
    assert seg[..|name|] == name;
    Text.FindUnique(seg, ';', |name|);
  }

  /** A last segment without `;` is kept whole. */
  lemma ParamsKept(dir: string, name: string)
    requires IsDirectory(dir)
    requires '/' !in name && ';' !in name
    ensures DropParams(dir + name) == dir + name
  {
    LastSegmentStart(dir, name);
  }

  /** What follows the authority when the text starts with `//`. */
  function AfterAuthority(s: string): string {
    if |s| >= 2 && s[0] == '/' && s[1] == '/' then s[AuthorityEnd(s, 2)..] else s
  }

  /** `urlsplit(url).path`: what is left once the scheme, the authority after
      `//`, the fragment after `#` and the query after `?` are taken off. */
  function SplitPath(url: string): (p: string)
    ensures '#' !in p && '?' !in p
  {
    var noFragment := BeforeFirst(AfterAuthority(AfterScheme(url)), '#');
    var p := BeforeFirst(noFragment, '?');
    assert forall j :: 0 <= j < |p| ==> p[j] == noFragment[j];
    p
  }

  /** `urlparse(url).path`, the path of section 3.3 of RFC 3986: the
      `urlsplit` path, without the `;params` of its last segment for the
      schemes in `UsesParams`. */
  function UrlPath(url: string): (p: string)
    ensures '#' !in p && '?' !in p
    ensures p <= SplitPath(url)
    ensures SchemeOf(url) !in UsesParams ==> p == SplitPath(url)
  {
    var whole := SplitPath(url);
    if SchemeOf(url) in UsesParams then
      var p := DropParams(whole);
      Text.PrefixLacks(p, whole, '#');
      Text.PrefixLacks(p, whole, '?');
      p
    else whole
  }

  /** The path of `scheme://host/path` is `/path` when no `?` or `#` follows. */
  lemma {:induction false} UrlPathOf(scheme: string, host: string, path: string)
    requires |scheme| > 0 && AsciiLetter(scheme[0]) && forall j :: 0 <= j < |scheme| ==> SchemeChar(scheme[j])
    requires forall j :: 0 <= j < |host| ==> !AuthorityStop(host[j])
    requires |path| > 0 && path[0] == '/' && '#' !in path && '?' !in path
    requires ';' !in path
    ensures UrlPath(scheme + "://" + host + path) == path
  {
    SplitPathOf(scheme, host, path);
  }

  /** The `urlsplit` path of `scheme://host/path` is `/path`. */
  lemma SplitPathOf(scheme: string, host: string, path: string)
    requires |scheme| > 0 && AsciiLetter(scheme[0]) && forall j :: 0 <= j < |scheme| ==> SchemeChar(scheme[j])
    requires forall j :: 0 <= j < |host| ==> !AuthorityStop(host[j])
    requires |path| > 0 && path[0] == '/' && '#' !in path && '?' !in path
    ensures SplitPath(scheme + "://" + host + path) == path
  {
    var url := scheme + "://" + host + path;
    var a := "//" + host + path;
    assert url == scheme + (":" + a);
    SchemeRemoved(scheme, a);
    AuthorityRemoved(host, path);
  }

  /** The `;params` of the last segment are not part of the path: the path
      of `https://github.com/owner/repo;params` is `/owner/repo`. */
  lemma GitHubParamsDropped(owner: string, repo: string, params: string)
    requires '#' !in owner && '?' !in owner
    requires '#' !in repo && '?' !in repo && '/' !in repo && ';' !in repo
    requires '#' !in params && '?' !in params && '/' !in params
    ensures UrlPath("https://github.com/" + owner + "/" + repo + ";" + params) == "/" + owner + "/" + repo
  {
    var url := "https://github.com/" + owner + "/" + repo + ";" + params;
    var rest := owner + "/" + repo + ";" + params;
    var dir := "/" + owner + "/";
    var path := dir + repo + ";" + params;
    assert SplitPath(url) == path by {
      assert url == "https" + "://" + "github.com" + path;
      assert forall j :: 0 <= j < 5 ==> SchemeChar("https"[j]);
      assert forall j :: 0 <= j < 10 ==> !AuthorityStop("github.com"[j]);
      assert '#' !in path && '?' !in path by {
        assert forall j :: 0 <= j < |path| ==> path[j] in dir || path[j] in repo || path[j] == ';' || path[j] in params;
      }
      SplitPathOf("https", "github.com", path);
    }
    assert SchemeOf(url) in UsesParams by {
      var host := "https://github.com/";
      Text.AppendAssoc(host, owner, "/");
      Text.AppendAssoc(host, owner + "/", repo);
      Text.AppendAssoc(host, owner + "/" + repo, ";");
      Text.AppendAssoc(host, owner + "/" + repo + ";", params);
      GitHubScheme(rest);
    }
    assert UrlPath(url) == DropParams(path);
    ParamsCut(dir, repo, params);
  }

  /** A `https://github.com/` URL has a scheme that splits off `;params`. */
  lemma GitHubScheme(rest: string)
    ensures SchemeOf("https://github.com/" + rest) in UsesParams
  {
    var url := "https://github.com/" + rest;
    assert HasScheme(url) && Text.Find(url, ':') == 5 && url[..5] == "https" by {
      assert url == "https" + (":" + ("//github.com/" + rest));
      assert forall j :: 0 <= j < 5 ==> SchemeChar("https"[j]);
      SchemeRemoved("https", "//github.com/" + rest);
    }
    assert Text.Lower("https") == "https" by {
      assert forall i :: 0 <= i < 5 ==> "https"[i] in "htps";
      Text.LowerKeeps("https");
    }
  }

  lemma SchemeRemoved(scheme: string, a: string)
    requires |scheme| > 0 && AsciiLetter(scheme[0]) && forall j :: 0 <= j < |scheme| ==> SchemeChar(scheme[j])
    ensures HasScheme(scheme + (":" + a)) && Text.Find(scheme + (":" + a), ':') == |scheme|
    ensures AfterScheme(scheme + (":" + a)) == a
  {
    var url := scheme + (":" + a);
    var n := |scheme|;
    assert url[..n] == scheme;
    assert ':' !in scheme by {
      assert forall j :: 0 <= j < n ==> scheme[j] != ':';
    }
    Text.FindUnique(url, ':', n);
    assert url[n + 1..] == a;
  }

  lemma AuthorityRemoved(host: string, path: string)
    requires forall j :: 0 <= j < |host| ==> !AuthorityStop(host[j])
    requires |path| > 0 && path[0] == '/'
    ensures AfterAuthority("//" + host + path) == path
  {
    var a := "//" + host + path;
    AuthorityEndAt(a, 2, 2 + |host|);
    assert a[2 + |host|..] == path;
  }

  /** The path of a `https://github.com/` URL is everything after the host. */
  lemma UrlPathOfGitHub(rest: string)
    requires '#' !in rest && '?' !in rest && ';' !in rest
    ensures UrlPath("https://github.com/" + rest) == "/" + rest
  {
    assert "https://github.com/" + rest == "https" + "://" + "github.com" + ("/" + rest);
    assert forall j :: 0 <= j < 5 ==> SchemeChar("https"[j]);
    assert forall j :: 0 <= j < 10 ==> !AuthorityStop("github.com"[j]);
    UrlPathOf("https", "github.com", "/" + rest);
  }

  /** The authority ends at the first stop character. */
  lemma {:induction false} AuthorityEndAt(s: string, i: nat, k: nat)
    requires i <= k < |s| && AuthorityStop(s[k])
    requires forall j :: i <= j < k ==> !AuthorityStop(s[j])
    ensures AuthorityEnd(s, i) == k
    decreases k - i
  {
    if i < k {
      AuthorityEndAt(s, i + 1, k);
    }
  }

  datatype RepoInfo = RepoInfo(owner: string, repo: string, repoName: string)

  const InvalidUrl: string := "Invalid GitHub repository URL."

  /** The `(owner, repo, repo_name)` of `parse_repo_info_from_github`, from
      the URL's path: the path without its leading and trailing `/`s, split
      on `/`, needs two pieces. */
  function RepoInfoFromPath(path: string): (r: Result<RepoInfo, string>)
    ensures r.Err? <==> '/' !in Text.Strip(path, '/')
    ensures r.Err? ==> r.error == InvalidUrl
    ensures r.Ok? ==>
      |r.value.owner| > 0 && '/' !in r.value.owner && '/' !in r.value.repo &&
      r.value.owner + "/" + r.value.repo <= Text.Strip(path, '/') &&
      r.value.repoName == r.value.owner + "/" + Text.ReplaceAll(r.value.repo, ".git", "")
  {
    var stripped := Text.Strip(path, '/');
    var parts := Text.Split(stripped, '/');
    PiecesCount(stripped);
    if |parts| < 2 then Err(InvalidUrl)
    else
      FirstPiecesPrefix(stripped);
      Ok(RepoInfo(parts[0], parts[1], parts[0] + "/" + Text.ReplaceAll(parts[1], ".git", "")))
  }

  /** `parse_repo_info_from_github`. */
  function ParseRepoInfoFromGitHub(url: string): (r: Result<RepoInfo, string>)
    ensures r.Err? ==> r.error == InvalidUrl
    ensures r.Ok? ==> |r.value.owner| > 0 && '/' !in r.value.owner && '/' !in r.value.repo
  {
    RepoInfoFromPath(UrlPath(url))
  }

  /** A text splits into two or more pieces exactly when it holds the separator. */
  lemma PiecesCount(s: string)
    ensures |Text.Split(s, '/')| >= 2 <==> '/' in s
  {
    Text.SplitAtFirst(s, '/');
  }

  /** The first two pieces, joined by the separator, start the text; a text
      that does not start with the separator has a non-empty first piece. */
  lemma FirstPiecesPrefix(s: string)
    requires '/' in s && (|s| == 0 || s[0] != '/')
    ensures var parts := Text.Split(s, '/');
      |parts| >= 2 && |parts[0]| > 0 && '/' !in parts[0] && '/' !in parts[1] &&
      parts[0] + "/" + parts[1] <= s
  {
    Text.SplitAtFirst(s, '/');
    var k := Text.Find(s, '/');
    var after := s[k + 1..];
    Text.SplitAtFirst(after, '/');
    Text.SplitPiecesFree(s, '/');
    var parts := Text.Split(s, '/');
    assert parts[0] == s[..k] && parts[1] == Text.Split(after, '/')[0];
    assert parts[1] <= after;
    Text.SplitAround(s, k);
    Text.PrefixAppend(s[..k] + "/", parts[1], after);
  }

  /** Only the first two pieces count: whatever follows `owner/repo` is ignored. */
  lemma LaterSegmentsIgnored(path: string, owner: string, repo: string, rest: string)
    requires Text.Strip(path, '/') == owner + "/" + repo + rest
    requires |owner| > 0 && '/' !in owner && '/' !in repo && (rest == "" || rest[0] == '/')
    ensures RepoInfoFromPath(path).Ok?
    ensures RepoInfoFromPath(path).value.owner == owner && RepoInfoFromPath(path).value.repo == repo
  {
    FirstTwoPieces(owner, repo, rest);
  }

  /** The pieces of `owner/repo...` start with `owner` and `repo`. */
  lemma FirstTwoPieces(owner: string, repo: string, rest: string)
    requires '/' !in owner && '/' !in repo && (rest == "" || rest[0] == '/')
    ensures var parts := Text.Split(owner + "/" + repo + rest, '/');
      |parts| >= 2 && parts[0] == owner && parts[1] == repo
  {
    var s := owner + "/" + repo + rest;
    var after := repo + rest;
    assert s[..|owner|] == owner;
    Text.FindUnique(s, '/', |owner|);
    Text.SplitAtFirst(s, '/');
    assert s[|owner| + 1..] == after;
    SecondPiece(repo, rest);
  }

  lemma SecondPiece(repo: string, rest: string)
    requires '/' !in repo && (rest == "" || rest[0] == '/')
    ensures Text.Split(repo + rest, '/')[0] == repo
  {
    var after := repo + rest;
    Text.SplitAtFirst(after, '/');
    if rest == "" {
      assert after == repo;
    } else {
      assert after[..|repo|] == repo;
      Text.FindUnique(after, '/', |repo|);
    }
  }

  /** An empty segment is not rejected: `/owner//x` gives the repository "". */
  lemma EmptyRepoSegment(owner: string, x: string)
    requires |owner| > 0 && '/' !in owner && |x| > 0 && x[|x| - 1] != '/'
    ensures RepoInfoFromPath("/" + owner + "//" + x).Ok?
    ensures RepoInfoFromPath("/" + owner + "//" + x).value.repo == ""
  {
    var path := "/" + owner + "//" + x;
    var inner := owner + "//" + x;
    StripOnce(path, inner);
    assert inner == owner + "/" + "" + ("/" + x);
    LaterSegmentsIgnored(path, owner, "", "/" + x);
  }

  /** A text with one leading `/`, whose core neither starts nor ends with `/`, strips to its core. */
  lemma StripOnce(path: string, core: string)
    requires path == "/" + core && |core| > 0 && core[0] != '/' && core[|core| - 1] != '/'
    ensures Text.Strip(path, '/') == core
  {
    assert path[1..] == core;
    assert Text.StripLeft(core, '/') == core;
    assert Text.StripLeft(path, '/') == core;
  }

  /** Python's single-pass `replace` leaves text without `.git` unchanged. */
  lemma {:induction false} NoGitUnchanged(s: string)
    requires !Text.Contains(s, ".git")
    ensures Text.ReplaceAll(s, ".git", "") == s
    decreases |s|
  {
    if |s| >= 4 {
      assert !(".git" <= s);
      NoGitUnchanged(s[1..]);
      assert s == [s[0]] + s[1..];
    }
  }

  /** A trailing `.git` is removed from `repo_name` when the name holds no other `.git`. */
  lemma {:induction false} GitSuffixDropped(s: string)
    requires !Text.Contains(s, ".git")
    ensures Text.ReplaceAll(s + ".git", ".git", "") == s
    decreases |s|
  {
    var t := s + ".git";
    if |s| == 0 {
      assert t == ".git";
      assert t[4..] == "";
    } else {
      assert !(".git" <= s);
      assert !(".git" <= t) by {
        NoGitAcrossEnd(s);
      }
      assert t[1..] == s[1..] + ".git";
      GitSuffixDropped(s[1..]);
      assert s == [s[0]] + s[1..];
    }
  }

  /** `.git` has no border, so an occurrence in `s + ".git"` at offset 0 lies in `s`. */
  lemma NoGitAcrossEnd(s: string)
    requires |s| > 0 && !(".git" <= s)
    ensures !(".git" <= s + ".git")
  {
    var t := s + ".git";
    if |s| < 4 {
      assert t[|s|] == '.';
      assert ".git"[|s|] != '.';
    } else {
      assert t[..4] == s[..4];
    }
  }

  /** The repository URL of a clone: owner and repository are read back,
      and the name drops a `.git` ending while the returned repository keeps it. */
  lemma CloneUrlParsed(owner: string, repo: string)
    requires |owner| > 0 && |repo| > 0
    requires '/' !in owner && '/' !in repo
    requires '#' !in owner && '#' !in repo && '?' !in owner && '?' !in repo
    requires ';' !in owner && ';' !in repo
    requires !Text.Contains(repo, ".git")
    ensures ParseRepoInfoFromGitHub("https://github.com/" + owner + "/" + repo + ".git")
         == Ok(RepoInfo(owner, repo + ".git", owner + "/" + repo))
  {
    var url := "https://github.com/" + owner + "/" + repo + ".git";
    CloneUrlPath(owner, repo);
    ClonePathInfo(owner, repo);
    assert ParseRepoInfoFromGitHub(url) == RepoInfoFromPath("/" + (owner + "/" + (repo + ".git")));
  }

  lemma ClonePathInfo(owner: string, repo: string)
    requires |owner| > 0 && |repo| > 0
    requires '/' !in owner && '/' !in repo
    requires !Text.Contains(repo, ".git")
    ensures RepoInfoFromPath("/" + (owner + "/" + (repo + ".git"))) == Ok(RepoInfo(owner, repo + ".git", owner + "/" + repo))
  {
    var full := repo + ".git";
    GitChars();
    ClonePathParsed(owner, full);
    GitSuffixDropped(repo);
  }

  lemma GitChars()
    ensures '/' !in ".git" && '#' !in ".git" && '?' !in ".git" && ';' !in ".git"
  {
    assert forall j :: 0 <= j < 4 ==> ".git"[j] in {'.', 'g', 'i', 't'};
  }

  lemma CloneUrlPath(owner: string, repo: string)
    requires '#' !in owner && '#' !in repo && '?' !in owner && '?' !in repo
    requires ';' !in owner && ';' !in repo
    ensures UrlPath("https://github.com/" + owner + "/" + repo + ".git") == "/" + (owner + "/" + (repo + ".git"))
  {
    var rest := owner + "/" + (repo + ".git");
    assert "https://github.com/" + owner + "/" + repo + ".git" == "https://github.com/" + rest;
    GitChars();
    UrlPathOfGitHub(rest);
  }

  lemma ClonePathParsed(owner: string, full: string)
    requires |owner| > 0 && |full| > 0 && '/' !in owner && '/' !in full
    ensures RepoInfoFromPath("/" + (owner + "/" + full)).Ok?
    ensures RepoInfoFromPath("/" + (owner + "/" + full)).value.owner == owner
    ensures RepoInfoFromPath("/" + (owner + "/" + full)).value.repo == full
  {
    var rest := owner + "/" + full;
    assert rest[0] == owner[0] && rest[|rest| - 1] == full[|full| - 1];
    assert full[|full| - 1] in full;
    StripOnce("/" + rest, rest);
    assert rest == owner + "/" + full + "";
    LaterSegmentsIgnored("/" + rest, owner, full, "");
  }

  /** The folder a downloaded archive extracts to: `{owner}-{repo}-{sha}`,
      with the whole commit hash for a private repository and its first seven
      characters otherwise. */
  function ExtractedFolder(owner: string, repo: string, sha: string, isPrivate: bool): (r: string)
    ensures owner + "-" + repo + "-" <= r
    ensures r[|owner| + |repo| + 2..] <= sha
    ensures |r| == |owner| + |repo| + 2 + (if isPrivate || |sha| <= 7 then |sha| else 7)
  {
    var h := if isPrivate then sha else Text.Take(sha, 7);
    var r := owner + "-" + repo + "-" + h;
    assert r[|owner| + |repo| + 2..] == h;
    r
  }
}

=== FILE: processing.dfy ===
/** The review pipeline of views/processing.py: the patch list of
    `get_patches`, the accumulation of a streamed answer in
    `process_stream_response`, the text `generate_analysis` sends to the
    model, and the code `save_review` stores. Session state, rendering and
    the model call itself are left to the caller. */
module Processing {
  import opened Wrappers
  import Text
  import Exceptions
  import opened Providers
  import Config
  import Prompts
  import Cli

  /** `DiffData`: one patch, file name and whole-file content per changed file. */
  datatype DiffData = DiffData(patches: seq<string>, fileNames: seq<string>, repoName: string, contents: seq<string>, urlType: string)

  const CombinedName := "Combined Files"

  /** `get_patches(diffs, is_per_file)`. */
  function GetPatches(diffs: DiffData, perFile: bool): (r: (seq<string>, seq<string>))
    ensures perFile ==> r == (diffs.patches, diffs.fileNames)
    ensures !perFile ==> |r.0| == 1 && r.1 == [CombinedName]
  {
    if perFile then (diffs.patches, diffs.fileNames)
    else ([Text.Join("\n", diffs.patches)], [CombinedName])
  }

  /** In combined mode the single patch splits back into the per-file
      patches whenever none of them spans lines; with no patches at all it
      is the empty text. */
  lemma CombinedPatchSplits(diffs: DiffData)
    ensures |diffs.patches| == 0 ==> GetPatches(diffs, false).0 == [""]
    ensures |diffs.patches| > 0 && (forall i :: 0 <= i < |diffs.patches| ==> '\n' !in diffs.patches[i]) ==>
      Text.Split(GetPatches(diffs, false).0[0], '\n') == diffs.patches
  {
    if |diffs.patches| > 0 && (forall i :: 0 <= i < |diffs.patches| ==> '\n' !in diffs.patches[i]) {
      Text.JoinSplit(diffs.patches, '\n');
    }
  }

  /** The web form and the command line send the same patch text when whole
      files are not requested. */
  lemma AgreesWithCli(diffs: DiffData, perFile: bool)
    ensures Cli.CliPatches(perFile, false, diffs.patches, diffs.contents) == Ok(GetPatches(diffs, perFile).0)
  {
    var r := Cli.CliPatches(perFile, false, diffs.patches, diffs.contents);
    if perFile {
      assert r.value == diffs.patches;
    }
  }

  /** `process_stream_response`: the session text after the stream, and what
      was raised. The OpenAI content is `delta.content or ""`; the test for
      `LLMType.CLAUDE` raises where the enumeration has no such member; and
      appending a `None` content to the text raises `TypeError`. */
  function AccumulateStream(stream: seq<Cli.Chunk>, client: Cli.StreamClient, claudeDefined: bool): (o: Cli.Outcome)
    requires client.Claude? ==> claudeDefined
    ensures |stream| == 0 ==> o == Cli.Outcome("", None)
    decreases |stream|
  {
    if |stream| == 0 then Cli.Outcome("", None)
    else
      match ChunkText(client, claudeDefined, stream[0])
      case Err(e) => Cli.Outcome("", Some(e))
      case Ok(c) =>
        var rest := AccumulateStream(stream[1..], client, claudeDefined);
        Cli.Outcome(c + rest.written, rest.raised)
  }

  const NoneConcat := Exceptions.TypeError("can only concatenate str (not \"NoneType\") to str")

  /** The text one chunk adds to the session state. */
  function ChunkText(client: Cli.StreamClient, claudeDefined: bool, chunk: Cli.Chunk): Result<string, Exceptions.Raised> {
    if client == Cli.Listed(OpenAI) then
      if chunk.OpenAIChunk? then Ok(chunk.deltaContent.GetOr("")) else Err(Cli.ShapeMismatch)
    else if !claudeDefined then Err(Exceptions.AttributeError("LLMType", "CLAUDE"))
    else if client.Claude? then
      if !chunk.ClaudeText? then Err(Cli.ShapeMismatch)
      else if chunk.text.None? then Err(NoneConcat) else Ok(chunk.text.value)
    else if !chunk.OllamaChunk? then Err(Cli.ShapeMismatch)
    else if chunk.messageContent.None? then Err(NoneConcat) else Ok(chunk.messageContent.value)
  }

  /** An OpenAI stream accumulates exactly what the command line writes. */
  lemma {:induction false} OpenAIAgreesWithCli(stream: seq<Cli.Chunk>, claudeDefined: bool)
    requires Cli.ShapedFor(OpenAI, stream)
    ensures AccumulateStream(stream, Cli.Listed(OpenAI), claudeDefined)
      == Cli.ProcessStream(stream, Cli.Listed(OpenAI), claudeDefined)
    decreases |stream|
  {
    if |stream| > 0 {
      var tail := stream[1..];
      assert Cli.ShapedFor(OpenAI, tail) by {
        forall i | 0 <= i < |tail| ensures tail[i].OpenAIChunk? {
          assert tail[i] == stream[i + 1];
        }
      }
      OpenAIAgreesWithCli(tail, claudeDefined);
      Cli.ListedIgnoresCarried(tail, OpenAI, claudeDefined, None, Some(Cli.ListedContent(stream[0])));
    }
  }

  /** As written: with llm_client.py's two-member `LLMType`, streaming an
      Ollama answer raises `AttributeError` at the first chunk, since
      `client_type == LLMType.CLAUDE` is evaluated before the Ollama branch. */
  lemma OllamaStreamingRaises(stream: seq<Cli.Chunk>)
    requires |stream| > 0
    ensures AccumulateStream(stream, Cli.Listed(Ollama), false)
      == Cli.Outcome("", Some(Exceptions.AttributeError("LLMType", "CLAUDE")))
  {
  }

  /** Corrected: once the test no longer trips over the missing member, an
      Ollama stream whose chunks all carry content accumulates their
      concatenation, as the command line writes it. */
  lemma {:induction false} OllamaStreamAccumulates(stream: seq<Cli.Chunk>)
    requires Cli.ShapedFor(Ollama, stream)
    requires forall i :: 0 <= i < |stream| ==> stream[i].messageContent.Some?
    ensures AccumulateStream(stream, Cli.Listed(Ollama), true)
      == Cli.ProcessStream(stream, Cli.Listed(Ollama), true)
    ensures AccumulateStream(stream, Cli.Listed(Ollama), true).raised.None?
    decreases |stream|
  {
    if |stream| > 0 {
      var tail := stream[1..];
      assert Cli.ShapedFor(Ollama, tail) && forall i :: 0 <= i < |tail| ==> tail[i].messageContent.Some? by {
        forall i | 0 <= i < |tail| ensures tail[i].OllamaChunk? && tail[i].messageContent.Some? {
          assert tail[i] == stream[i + 1];
        }
      }
      OllamaStreamAccumulates(tail);
      Cli.ListedIgnoresCarried(tail, Ollama, true, None, Some(Cli.ListedContent(stream[0])));
    }
  }

  /** The text `generate_analysis` sends for file `idx`: the whole file's
      content when `analyze_whole_file` is set, else the patch it was given. */
  function AnalysedContent(diffs: DiffData, config: Config.ReviewConfig, idx: nat, patch: string)
    : (r: Result<string, Exceptions.Raised>)
    ensures r.Err? <==> config.analyzeWholeFile && idx >= |diffs.contents|
    ensures r.Ok? ==> r.value == if config.analyzeWholeFile then diffs.contents[idx] else patch
  {
    if !config.analyzeWholeFile then Ok(patch)
    else if idx < |diffs.contents| then Ok(diffs.contents[idx])
    else Err(Exceptions.IndexError(idx, |diffs.contents|))
  }

  /** The prompt `generate_analysis` builds from the form's settings. */
  function AnalysisPrompt(diffs: DiffData, config: Config.ReviewConfig, idx: nat, patch: string)
    : (r: Result<Prompts.ChatPrompt, Exceptions.Raised>)
    ensures r.Ok? ==> (AnalysedContent(diffs, config, idx, patch).Ok?
      && Prompts.Unfence(r.value.userMessage) == Some(AnalysedContent(diffs, config, idx, patch).value))
  {
    match AnalysedContent(diffs, config, idx, patch)
    case Err(e) => Err(e)
    case Ok(content) => Prompts.StrictPreparePrompts(Some(config.promptInput), config.promptTemplateSelected, content)
  }

  /** A form left at its defaults reviews with the "code-review" template. */
  lemma DefaultFormUsesCodeReview(diffs: DiffData, idx: nat, patch: string)
    ensures AnalysisPrompt(diffs, Config.DefaultReviewConfig, idx, patch)
      == Ok(Prompts.ChatPrompt(Prompts.Prose("CODE_REVIEW_PROMPT"), Prompts.Fence(patch), map["temperature" := 2]))
  {
    Prompts.CodeReviewTemplate(patch);
    Prompts.StrictAgrees(Some(""), Some("code-review"), patch);
    Cli.CodeReviewKnown();
  }

  /** In combined mode with whole files requested, the one analysis sees
      only the first file's content, not the combined patch. */
  lemma CombinedWholeFileSeesFirstFile(diffs: DiffData, config: Config.ReviewConfig)
    requires config.analyzeWholeFile && |diffs.contents| > 0
    ensures AnalysedContent(diffs, config, 0, GetPatches(diffs, false).0[0]) == Ok(diffs.contents[0])
  {
  }

  /** The code `save_review` stores with file `idx`: its content in per-file
      mode, otherwise a single space. */
  function SavedCode(diffs: DiffData, config: Config.ReviewConfig, idx: nat): (r: Result<string, Exceptions.Raised>)
    ensures !config.perFileAnalysis ==> r == Ok(" ")
    ensures config.perFileAnalysis ==> (r.Ok? <==> idx < |diffs.contents|)
    ensures config.perFileAnalysis && r.Ok? ==> r.value == diffs.contents[idx]
  {
    if !config.perFileAnalysis then Ok(" ")
    else if idx < |diffs.contents| then Ok(diffs.contents[idx])
    else Err(Exceptions.IndexError(idx, |diffs.contents|))
  }

  /** Per file, every patch `get_patches` lists has its content saved and,
      with whole files requested, analysed, whenever there are as many
      contents as patches. */
  lemma PerFileIndicesInRange(diffs: DiffData, config: Config.ReviewConfig, idx: nat)
    requires config.perFileAnalysis && |diffs.contents| >= |diffs.patches|
    requires idx < |GetPatches(diffs, true).0|
    ensures SavedCode(diffs, config, idx) == Ok(diffs.contents[idx])
    ensures AnalysedContent(diffs, config, idx, GetPatches(diffs, true).0[idx]).Ok?
  {
  }
}

=== FILE: prompts.dfy ===
/** Prompt assembly (`ChatClient.prepare_prompts`) over the `CODE_PROMPTS`
    table of lemma/code_prompts.py. lemma/chat_client.py falls back to the
    "default" entry for an unknown template; the older chat_client.py
    rejects it. The long instruction texts of the table are kept abstract:
    an entry's system prompt is either literal text or the name of the
    constant holding the prose. */
module Prompts {
  import opened Wrappers
  import Text
  import Exceptions

  /** A prompt options dict: option name to value. The only option in the
      table is "temperature", held in tenths (0.8 is 8). */
  type Options = map<string, int>

  /** `DEFAULT_PROMPT_OPTIONS`. */
  const DefaultOptions: Options := map["temperature" := 8]

  /** A system prompt: text, or the code_prompts.py constant whose text it is. */
  datatype SystemText = Literal(text: string) | Prose(constant: string)

  /** A `CODE_PROMPTS` entry: its optional "type", its system prompt and options. */
  datatype Entry = Entry(kind: Option<string>, systemPrompt: SystemText, options: Options)

  /** `CODE_PROMPTS`, in its declared key order. */
  const CodePrompts: seq<(string, Entry)> := [
    ("default", Entry(None, Literal("You are a helpful coding assistant."), DefaultOptions)),
    ("code-refactor", Entry(Some("refactor"), Prose("CODE_REFACTOR_PROMPT"), map["temperature" := 6])),
    ("code-review", Entry(Some("review"), Prose("CODE_REVIEW_PROMPT"), map["temperature" := 2])),
    ("dependency-order", Entry(Some("refactor"), Prose("DEPENDENCY_ORDER_PROMPT"), DefaultOptions)),
    ("review-by-context", Entry(Some("refactor"), Prose("REVIEW_BY_CONTEXT_PROMPT"), DefaultOptions)),
    ("code-smells", Entry(Some("review"), Prose("CODE_SMELLS_PROMPT"), map["temperature" := 4])),
    ("code-summary", Entry(Some("summary"), Prose("CODE_SUMMARY_PROMPT"), map["temperature" := 7])),
    ("doc-strings", Entry(Some("review"), Prose("DOC_STRINGS_PROMPT"), map["temperature" := 2])),
    ("doc-markdown", Entry(Some("review"), Prose("DOC_MARKDOWN_PROMPT"), map["temperature" := 2])),
    ("code-debate", Entry(Some("review"), Prose("CODE_DEBATE_PROMPT"), map["temperature" := 8])),
    ("explain-lines", Entry(Some("review"), Prose("EXPLAIN_LINES_PROMPT"), DefaultOptions)),
    ("unit-test", Entry(Some("review"), Prose("UNIT_TEST_PROMPT"), map["temperature" := 2]))
  ]

  /** `table.get(key)`: the entry of the first pair with that key. */
  function Lookup(key: string, table: seq<(string, Entry)>): (r: Option<Entry>)
    ensures r.Some? <==> exists i :: 0 <= i < |table| && table[i].0 == key
    ensures r.Some? ==> exists i :: 0 <= i < |table| && table[i] == (key, r.value)
  {
    if |table| == 0 then None
    else if table[0].0 == key then Some(table[0].1)
    else
      var r := Lookup(key, table[1..]);
      assert forall i :: 0 <= i < |table[1..]| ==> table[1..][i] == table[i + 1];
      assert forall i :: 0 < i < |table| ==> table[i] == table[1..][i - 1];
      r
  }

  /** The dict lemma/chat_client.py falls back to when "default" is missing. */
  const FallbackEntry := Entry(None, Literal("You are a helpful coding assistant."), DefaultOptions)

  /** "default" is the table's first key, and its entry is the fallback dict. */
  lemma DefaultIsFirst()
    ensures CodePrompts[0].0 == "default"
    ensures Lookup("default", CodePrompts) == Some(FallbackEntry)
  {
  }

  /** `SYSTEM_PROMPT_CODE_ENDING` and `SYSTEM_PROMPT_DIFF_ENDING`. */
  const CodeEnding := "\nThe code will be provided in the next message, enclosed in triple backticks (```)."
  const DiffEnding := "\nThe git diff will be provided in the next message, enclosed in triple backticks (```)."

  /** `patch[:4] == "diff"`. */
  predicate IsDiff(patch: string) {
    Text.Take(patch, 4) == "diff"
  }

  /** The diff test is exactly "the patch starts with `diff`". */
  lemma DiffTestIsPrefix(patch: string)
    ensures IsDiff(patch) <==> "diff" <= patch
  {
  }

  /** The sentence appended to a free-form prompt. */
  function Ending(patch: string): string {
    if IsDiff(patch) then DiffEnding else CodeEnding
  }

  /** `f"```{patch}```"`. */
  function Fence(patch: string): string {
    "```" + patch + "```"
  }

  /** Reads a fenced message back. */
  function Unfence(message: string): (r: Option<string>)
    ensures r.Some? ==> |r.value| + 6 == |message|
  {
    if |message| >= 6 && "```" <= message && Text.EndsWith(message, "```")
    then Some(message[3..|message| - 3])
    else None
  }

  /** The user message gives the patch back, whatever it contains. */
  lemma FenceRoundTrip(patch: string)
    ensures Unfence(Fence(patch)) == Some(patch)
  {
    Text.FrameParts("```", patch, "```");
  }

  /** What was unfenced is fenced again to the same message. */
  lemma UnfenceSound(message: string)
    requires Unfence(message).Some?
    ensures Fence(Unfence(message).value) == message
  {
    Text.Framed(message, "```", "```");
  }

  /** `ChatPrompt`. */
  datatype ChatPrompt = ChatPrompt(systemPrompt: SystemText, userMessage: string, options: Options)

  const NoPromptError := Exceptions.Error("Error: No prompt or prompt_template")
  const InvalidTemplateError := Exceptions.Error("Error: Invalid prompt_template")

  /** `options or DEFAULT_PROMPT_OPTIONS`: an empty dict is falsy. */
  function OptionsOr(options: Options): (r: Options)
    ensures |r| > 0
  {
    if |options| == 0 then DefaultOptions else options
  }

  /** Every entry of the table carries options, so the `or` never replaces them. */
  lemma TableOptionsNonEmpty()
    ensures forall i :: 0 <= i < |CodePrompts| ==> OptionsOr(CodePrompts[i].1.options) == CodePrompts[i].1.options
  {
  }

  /** The prompt both clients build once the template's entry is known:
      a truthy prompt wins over the entry. */
  function Assemble(prompt: Option<string>, entry: Option<Entry>, patch: string): (r: ChatPrompt)
    requires Truthy(prompt) || entry.Some?
  {
    if Truthy(prompt) then ChatPrompt(Literal(prompt.value + "\n" + Ending(patch)), Fence(patch), DefaultOptions)
    else ChatPrompt(entry.value.systemPrompt, Fence(patch), OptionsOr(entry.value.options))
  }

  /** `ChatClient.prepare_prompts` of lemma/chat_client.py. */
  function PreparePrompts(prompt: Option<string>, template: Option<string>, patch: string)
    : (r: Result<ChatPrompt, Exceptions.Raised>)
    ensures r.Err? <==> !Truthy(prompt) && !Truthy(template)
    ensures r.Err? ==> r.error == NoPromptError
    ensures r.Ok? ==> Unfence(r.value.userMessage) == Some(patch)
    ensures Truthy(prompt) ==>
      (r.Ok? && r.value.options == DefaultOptions
       && r.value.systemPrompt.Literal? && prompt.value + "\n" <= r.value.systemPrompt.text)
    ensures r.Ok? && !Truthy(prompt) ==>
      var e := Lookup(template.value, CodePrompts).GetOr(FallbackEntry);
      r.value.systemPrompt == e.systemPrompt && r.value.options == OptionsOr(e.options)
  {
    FenceRoundTrip(patch);
    var codePrompt :=
      if Truthy(template) && !Truthy(prompt) then
        match Lookup(template.value, CodePrompts)
        case Some(e) => Some(e)
        case None => Some(Lookup("default", CodePrompts).GetOr(FallbackEntry))
      else None;
    if !Truthy(prompt) && !Truthy(template) then Err(NoPromptError)
    else
      DefaultIsFirst();
      Ok(Assemble(prompt, codePrompt, patch))
  }

  /** `ChatClient.prepare_prompts` of chat_client.py: an unknown template
      raises instead of falling back. */
  function StrictPreparePrompts(prompt: Option<string>, template: Option<string>, patch: string)
    : (r: Result<ChatPrompt, Exceptions.Raised>)
    ensures r.Err? <==> !Truthy(prompt) && (!Truthy(template) || Lookup(template.value, CodePrompts).None?)
  {
    var codePrompt := if Truthy(template) && !Truthy(prompt) then Lookup(template.value, CodePrompts) else None;
    if Truthy(template) && !Truthy(prompt) && codePrompt.None? then Err(InvalidTemplateError)
    else if !Truthy(prompt) && !Truthy(template) then Err(NoPromptError)
    else Ok(Assemble(prompt, codePrompt, patch))
  }

  /** A truthy prompt decides alone: the template, known or not, is ignored,
      and the ending follows the patch's "diff" prefix. */
  lemma PromptOverridesTemplate(prompt: string, t1: Option<string>, t2: Option<string>, patch: string)
    requires prompt != ""
    ensures PreparePrompts(Some(prompt), t1, patch) == PreparePrompts(Some(prompt), t2, patch)
    ensures StrictPreparePrompts(Some(prompt), t1, patch) == PreparePrompts(Some(prompt), t2, patch)
    ensures PreparePrompts(Some(prompt), t1, patch).value.systemPrompt
      == Literal(prompt + "\n" + (if "diff" <= patch then DiffEnding else CodeEnding))
  {
    DiffTestIsPrefix(patch);
  }

  /** An unknown template is served exactly as "default" would be. */
  lemma UnknownTemplateFallsBack(prompt: Option<string>, template: string, patch: string)
    requires !Truthy(prompt) && template != "" && Lookup(template, CodePrompts).None?
    ensures PreparePrompts(prompt, Some(template), patch) == PreparePrompts(prompt, Some("default"), patch)
    ensures PreparePrompts(prompt, Some(template), patch)
      == Ok(ChatPrompt(Literal("You are a helpful coding assistant."), Fence(patch), DefaultOptions))
  {
    DefaultIsFirst();
  }

  /** The two clients agree everywhere except on an unknown template, where
      only the strict one raises. */
  lemma {:induction false} StrictAgrees(prompt: Option<string>, template: Option<string>, patch: string)
    ensures var unknown := !Truthy(prompt) && Truthy(template) && Lookup(template.value, CodePrompts).None?;
      StrictPreparePrompts(prompt, template, patch)
        == if unknown then Err(InvalidTemplateError) else PreparePrompts(prompt, template, patch)
  {
    DefaultIsFirst();
  }

  /** A known template gives its entry's system prompt and options. */
  lemma KnownTemplate(prompt: Option<string>, i: nat, patch: string)
    requires !Truthy(prompt) && i < |CodePrompts| && CodePrompts[i].0 != ""
    requires forall j :: 0 <= j < i ==> CodePrompts[j].0 != CodePrompts[i].0
    ensures PreparePrompts(prompt, Some(CodePrompts[i].0), patch)
      == Ok(ChatPrompt(CodePrompts[i].1.systemPrompt, Fence(patch), CodePrompts[i].1.options))
  {
    LookupAt(CodePrompts[i].0, CodePrompts, i);
    TableOptionsNonEmpty();
  }

  /** The first pair with a key is the one `Lookup` returns. */
  lemma {:induction false} LookupAt(key: string, table: seq<(string, Entry)>, i: nat)
    requires i < |table| && table[i].0 == key
    requires forall j :: 0 <= j < i ==> table[j].0 != key
    ensures Lookup(key, table) == Some(table[i].1)
  {
    if i > 0 {
      assert table[0].0 != key;
      LookupAt(key, table[1..], i - 1);
    }
  }

  /** The "code-review" template, the default of the review form and of the
      command line, uses its own prose and a temperature of 0.2. */
  lemma CodeReviewTemplate(patch: string)
    ensures PreparePrompts(None, Some("code-review"), patch)
      == Ok(ChatPrompt(Prose("CODE_REVIEW_PROMPT"), Fence(patch), map["temperature" := 2]))
  {
    assert CodePrompts[0].0 != "code-review" by { assert |CodePrompts[0].0| != |"code-review"|; }
    assert CodePrompts[1].0 != "code-review" by { assert |CodePrompts[1].0| != |"code-review"|; }
    KnownTemplate(None, 2, patch);
  }
}

=== FILE: providers.dfy ===
/** The provider side of llm_client.py: the `LLMType` enumeration with its
    name lookup `string_to_enum`, the default model of each provider, and the
    Llama 3 chat template the Ollama client wraps a prompt in. The client
    classes themselves talk to the network and are not modelled. */
module Providers {
  import opened Wrappers
  import Text
  import Exceptions

  /** `LLMType`: llm_client.py defines exactly these two members. */
  datatype LlmType = Ollama | OpenAI

  /** The member's name, the key `LLMType[...]` looks up. */
  function MemberName(t: LlmType): string {
    match t
    case Ollama => "OLLAMA"
    case OpenAI => "OPENAI"
  }

  /** The member's value. */
  function MemberValue(t: LlmType): string {
    match t
    case Ollama => "ollama"
    case OpenAI => "openai"
  }

  /** `string_to_enum(LLMType, s)`: the member named `s.upper()`, or
      `ValueError("No enum member with name '<s>'")`. */
  function StringToEnum(s: string): (r: Result<LlmType, Exceptions.Raised>)
    ensures r.Ok? <==> Text.Upper(s) == MemberName(Ollama) || Text.Upper(s) == MemberName(OpenAI)
    ensures r.Ok? ==> MemberName(r.value) == Text.Upper(s)
    ensures r.Err? ==> r.error == Exceptions.ValueError("No enum member with name '" + s + "'")
  {
    var u := Text.Upper(s);
    if u == "OLLAMA" then Ok(Ollama)
    else if u == "OPENAI" then Ok(OpenAI)
    else Err(Exceptions.ValueError("No enum member with name '" + s + "'"))
  }

  /** `Upper(s) == u`, checked character by character. */
  lemma UpperIs(s: string, u: string)
    requires |s| == |u| && forall i :: 0 <= i < |s| ==> Text.UpperChar(s[i]) == u[i]
    ensures Text.Upper(s) == u
  {
  }

  /** Every member is found again from its value and from its name. */
  lemma ValueRoundTrip(t: LlmType)
    ensures StringToEnum(MemberValue(t)) == Ok(t)
    ensures StringToEnum(MemberName(t)) == Ok(t)
  {
    UpperIs(MemberValue(t), MemberName(t));
    UpperIs(MemberName(t), MemberName(t));
  }

  lemma UpperOfLower(c: char)
    ensures Text.UpperChar(Text.LowerChar(c)) == Text.UpperChar(c)
  {
  }

  /** The lookup ignores case: a name and its lower-cased form give the same
      member or the same failure apart from the echoed text. */
  lemma {:induction false} CaseInsensitive(s: string)
    ensures StringToEnum(Text.Lower(s)).Ok? == StringToEnum(s).Ok?
    ensures StringToEnum(s).Ok? ==> StringToEnum(Text.Lower(s)) == StringToEnum(s)
  {
    var l := Text.Lower(s);
    forall i | 0 <= i < |s|
      ensures Text.Upper(l)[i] == Text.Upper(s)[i]
    {
      UpperOfLower(s[i]);
    }
    assert Text.Upper(l) == Text.Upper(s);
  }

  /** No `CLAUDE` member exists, so "claude" is rejected. */
  lemma ClaudeIsNoMember(s: string)
    requires s == "claude"
    ensures StringToEnum(s) == Err(Exceptions.ValueError("No enum member with name '" + s + "'"))
  {
    UpperIs(s, "CLAUDE");
  }

  /** `get_default_llm_model_name`: the model used when none is given.
      Any value other than the two members raises, which a typed argument
      rules out. */
  function DefaultModelName(t: LlmType): (r: string)
    ensures r == "gpt-3.5-turbo" <==> t == OpenAI
    ensures r == "llama3" <==> t == Ollama
  {
    match t
    case OpenAI => "gpt-3.5-turbo"
    case Ollama => "llama3"
  }

  const TemplateHead := "<|begin_of_text|><|start_header_id|>system<|end_header_id|>"
  /** The end-of-turn token that closes the system and the user turns. */
  const EndOfTurn := "<|eot_id|>"
  const TemplateMiddle := EndOfTurn + "<|start_header_id|>user<|end_header_id|>"
  const TemplateTail := EndOfTurn + "<|start_header_id|>assistant<|end_header_id|>"

  /** `LLAMA_3_TEMPLATE(system, message)`. */
  function Llama3Template(system: string, message: string): (r: string)
    ensures |r| == |TemplateHead| + |system| + |TemplateMiddle| + |message| + |TemplateTail|
    ensures TemplateHead <= r && Text.EndsWith(r, TemplateTail)
  {
    TemplateHead + system + TemplateMiddle + message + TemplateTail
  }

  /** Reads a rendered template back: the system text runs up to the first
      `<` after the head, the message sits between the middle and the tail. */
  function ParseLlama3(r: string): (p: Option<(string, string)>)
    ensures p.Some? ==> '<' !in p.value.0
  {
    if !(TemplateHead <= r) then None
    else
      var rest := r[|TemplateHead|..];
      var k := Text.Find(rest, '<');
      if k < 0 then None
      else
        var after := rest[k..];
        if |after| >= |TemplateMiddle| + |TemplateTail| && TemplateMiddle <= after && Text.EndsWith(after, TemplateTail)
        then Some((rest[..k], after[|TemplateMiddle|..|after| - |TemplateTail|]))
        else None
  }

  lemma MarkerChar()
    ensures |TemplateMiddle| > 0 && TemplateMiddle[0] == '<'
  {
  }

  /** A system text without `<` and any message are recovered from the
      rendered template. */
  lemma {:induction false} ParseRendered(system: string, message: string)
    requires '<' !in system
    ensures ParseLlama3(Llama3Template(system, message)) == Some((system, message))
  {
    var r := Llama3Template(system, message);
    var after := TemplateMiddle + message + TemplateTail;
    RenderedAround(TemplateHead, system, TemplateMiddle, message, TemplateTail);
    var rest := r[|TemplateHead|..];
    MarkerChar();
    assert rest[|system|] == '<';
    Text.FindUnique(rest, '<', |system|);
    Text.FrameParts(TemplateMiddle, message, TemplateTail);
    assert |after| >= |TemplateMiddle| + |TemplateTail| && TemplateMiddle <= after && Text.EndsWith(after, TemplateTail);
  }

  /** `head + system + middle + message + tail` read back around its parts. */
  lemma RenderedAround(head: string, system: string, middle: string, message: string, tail: string)
    ensures var after := middle + message + tail;
      var r := head + system + middle + message + tail;
      head <= r && r[|head|..] == system + after
      && (system + after)[..|system|] == system && (system + after)[|system|..] == after
  {
  }

  /** Whatever parses is exactly the rendering of what it parses to. */
  lemma {:induction false} ParseSound(r: string)
    requires ParseLlama3(r).Some?
    ensures Llama3Template(ParseLlama3(r).value.0, ParseLlama3(r).value.1) == r
  {
    var rest := r[|TemplateHead|..];
    var k := Text.Find(rest, '<');
    var after := rest[k..];
    Text.Framed(after, TemplateMiddle, TemplateTail);
    var message := after[|TemplateMiddle|..|after| - |TemplateTail|];
    Reassemble(r, TemplateHead, rest, k, TemplateMiddle, message, TemplateTail);
  }

  lemma Reassemble(r: string, head: string, rest: string, k: nat, middle: string, message: string, tail: string)
    requires head <= r && rest == r[|head|..] && k <= |rest|
    requires rest[k..] == middle + message + tail
    ensures head + rest[..k] + middle + message + tail == r
  {
    assert rest == rest[..k] + rest[k..];
    assert r == head + rest;
  }
}

=== FILE: reviews.dfy ===
/** The review and project tables of the SQLite database (lemma/db.py; the
    older db.py has the same `reviews` and `files` tables without
    `projects` and without `reviews.project_id`). Each table is a sequence of
    rows in rowid order, and the primary and foreign keys of the schema are
    the invariant `Valid`. `uuid4` ids and the text of `CURRENT_TIMESTAMP` are
    parameters. */
module Reviews {
  import opened Wrappers
  import Text

  type Id = string

  /** The text SQLite's `CURRENT_TIMESTAMP` default stores, as
      "YYYY-MM-DD HH:MM:SS". */
  type Timestamp = string

  /** A row of `projects`; `repo_validated` is the stored integer. */
  datatype Project = Project(id: Id, name: string, githubRepoUrl: string, repoValidated: int)

  /** A row of `reviews`. `created_at` is the timestamp of the insert;
      nothing updates a review, so `updated_at` always equals it. */
  datatype Review = Review(
    id: Id,
    name: string,
    githubUrl: string,
    githubUrlType: Option<string>,
    promptTemplate: Option<string>,
    prompt: Option<string>,
    llmModel: Option<string>,
    createdAt: Timestamp,
    projectId: Option<Id>)

  /** A row of `files`; as for reviews, `updated_at` equals `created_at`. */
  datatype FileRow = FileRow(id: Id, reviewId: Id, fileName: string, diff: Option<string>, code: Option<string>,
                             response: Option<string>, createdAt: Timestamp)

  datatype ReviewDb = ReviewDb(projects: seq<Project>, reviews: seq<Review>, files: seq<FileRow>)

  /** A Python argument whose truthiness decides a stored flag. */
  datatype PyValue = PyNone | PyBool(b: bool) | PyInt(i: int) | PyStr(s: string)

  predicate PyTruthy(v: PyValue) {
    match v
    case PyNone => false
    case PyBool(b) => b
    case PyInt(i) => i != 0
    case PyStr(s) => s != ""
  }

  /** What an operation raises. Every cause but `ReviewMissing` and
      `NotIterable` reaches the caller as `sqlite3.Error("Database error: ...")`. */
  datatype Failure =
    | NameIsNone
    | NotNull(column: string)
    | UniqueFailed(column: string)
    | ForeignKeyFailed
    | ReviewMissing(reviewId: Id)
    | NotIterable
    | NoSuchColumn(column: string)

  datatype ErrorKind = SqliteError | ValueError | TypeError

  /** The exception class the caller sees. */
  function KindOf(f: Failure): (k: ErrorKind)
    ensures k == ValueError <==> f.ReviewMissing?
    ensures k == TypeError <==> f.NotIterable?
  {
    match f
    case ReviewMissing(_) => ValueError
    case NotIterable => TypeError
    case _ => SqliteError
  }

  /** The exception's message. */
  function MessageOf(f: Failure): (m: string)
    ensures KindOf(f) == SqliteError ==> DatabaseError <= m
  {
    match f
    case NameIsNone => DatabaseError + "Name cannot be None"
    case NotNull(c) => DatabaseError + "NOT NULL constraint failed: " + c
    case UniqueFailed(c) => DatabaseError + "UNIQUE constraint failed: " + c
    case ForeignKeyFailed => DatabaseError + "FOREIGN KEY constraint failed"
    case ReviewMissing(id) => "Review with id " + id + " does not exist"
    case NotIterable => "'NoneType' object is not iterable"
    case NoSuchColumn(c) => DatabaseError + "no such column: " + c
  }

  /** The prefix every re-raised `sqlite3.Error` carries. */
  const DatabaseError: string := "Database error: "

  function ProjectIds(db: ReviewDb): set<Id> {
    set p | p in db.projects :: p.id
  }

  function ReviewIds(db: ReviewDb): set<Id> {
    set r | r in db.reviews :: r.id
  }

  function FileIds(db: ReviewDb): set<Id> {
    set f | f in db.files :: f.id
  }

  predicate ProjectsKeyed(ps: seq<Project>) {
    forall i, j :: 0 <= i < j < |ps| ==> ps[i].id != ps[j].id
  }

  predicate ReviewsKeyed(rs: seq<Review>) {
    forall i, j :: 0 <= i < j < |rs| ==> rs[i].id != rs[j].id
  }

  predicate FilesKeyed(fs: seq<FileRow>) {
    forall i, j :: 0 <= i < j < |fs| ==> fs[i].id != fs[j].id
  }

  /** The schema's keys: each `id` is a primary key, `files.review_id`
      references `reviews (id)`, `reviews.project_id` references
      `projects (id)` when not NULL, and `repo_validated` is 0 or 1. */
  predicate Valid(db: ReviewDb) {
    ProjectsKeyed(db.projects) && ReviewsKeyed(db.reviews) && FilesKeyed(db.files) &&
    (forall f :: f in db.files ==> f.reviewId in ReviewIds(db)) &&
    (forall r :: r in db.reviews && r.projectId.Some? ==> r.projectId.value in ProjectIds(db)) &&
    (forall p :: p in db.projects ==> p.repoValidated == 0 || p.repoValidated == 1)
  }

  /** The review row with this id, if any. */
  function FindReview(reviews: seq<Review>, id: Id): (r: Option<Review>)
    ensures r.Some? ==> r.value in reviews && r.value.id == id
    ensures r.None? <==> forall x :: x in reviews ==> x.id != id
  {
    if |reviews| == 0 then None
    else if reviews[0].id == id then Some(reviews[0])
    else FindReview(reviews[1..], id)
  }

  /** The result of an insert: the new tables and the new row's id. */
  datatype Inserted = Inserted(db: ReviewDb, id: Id)

  /** `insert_review(conn, name, github_url, github_url_type, prompt_template,
      prompt, llm_model, project_id)` with `newId` the uuid4 drawn and `now`
      the clock. A `None` name is refused before any statement runs; the
      INSERT then fails on a NULL `github_url`, a repeated id, or a
      `project_id` with no project row. */
  function InsertReview(db: ReviewDb, name: Option<string>, githubUrl: Option<string>, githubUrlType: Option<string>,
                        promptTemplate: Option<string>, prompt: Option<string>, llmModel: Option<string>,
                        projectId: Option<Id>, newId: Id, now: Timestamp): (r: Result<Inserted, Failure>)
    ensures name.None? ==> r == Err(NameIsNone)
    ensures r.Ok? <==> name.Some? && githubUrl.Some? && newId !in ReviewIds(db) &&
                       (projectId.None? || projectId.value in ProjectIds(db))
    ensures r.Ok? ==> r.value.id == newId && |r.value.db.reviews| == |db.reviews| + 1 && r.value.db.reviews[..|db.reviews|] == db.reviews
  {
    if name.None? then Err(NameIsNone)
    else if githubUrl.None? then Err(NotNull("reviews.github_url"))
    else if newId in ReviewIds(db) then Err(UniqueFailed("reviews.id"))
    else if projectId.Some? && projectId.value !in ProjectIds(db) then Err(ForeignKeyFailed)
    else
      var row := Review(newId, name.value, githubUrl.value, githubUrlType, promptTemplate, prompt, llmModel, now, projectId);
      Ok(Inserted(db.(reviews := db.reviews + [row]), newId))
  }

  /** `insert_file(conn, review_id, file_name, diff, code, response)`: the
      review must exist, checked by a SELECT first; its ValueError is not
      re-wrapped. */
  function InsertFile(db: ReviewDb, reviewId: Id, fileName: Option<string>, diff: Option<string>, code: Option<string>,
                      response: Option<string>, newId: Id, now: Timestamp): (r: Result<Inserted, Failure>)
    ensures reviewId !in ReviewIds(db) ==> r == Err(ReviewMissing(reviewId)) && KindOf(r.error) == ValueError
    ensures r.Ok? <==> reviewId in ReviewIds(db) && fileName.Some? && newId !in FileIds(db)
    ensures r.Ok? ==> r.value.id == newId && |r.value.db.files| == |db.files| + 1 && r.value.db.files[..|db.files|] == db.files
  {
    if FindReview(db.reviews, reviewId).None? then Err(ReviewMissing(reviewId))
    else if fileName.None? then Err(NotNull("files.file_name"))
    else if newId in FileIds(db) then Err(UniqueFailed("files.id"))
    else
      var row := FileRow(newId, reviewId, fileName.value, diff, code, response, now);
      Ok(Inserted(db.(files := db.files + [row]), newId))
  }

  /** `insert_project(conn, name, github_repo_url, repo_validated)`. */
  function InsertProject(db: ReviewDb, name: Option<string>, githubRepoUrl: Option<string>, repoValidated: PyValue, newId: Id): (r: Result<Inserted, Failure>)
    ensures name.None? ==> r == Err(NotNull("projects.name"))
    ensures name.Some? && githubRepoUrl.None? ==> r == Err(NotNull("projects.github_repo_url"))
    ensures r.Ok? <==> name.Some? && githubRepoUrl.Some? && newId !in ProjectIds(db)
    ensures r.Ok? ==> r.value.id == newId && |r.value.db.projects| == |db.projects| + 1 && r.value.db.projects[..|db.projects|] == db.projects
    ensures r.Ok? ==> r.value.db == db.(projects := r.value.db.projects)
    ensures r.Ok? ==> var p := r.value.db.projects[|db.projects|];
      p.name == name.value && p.githubRepoUrl == githubRepoUrl.value && (p.repoValidated == 1 <==> PyTruthy(repoValidated)) && p.repoValidated in {0, 1}
  {
    if name.None? then Err(NotNull("projects.name"))
    else if githubRepoUrl.None? then Err(NotNull("projects.github_repo_url"))
    else if newId in ProjectIds(db) then Err(UniqueFailed("projects.id"))
    else
      var flag := if PyTruthy(repoValidated) then 1 else 0;
      Ok(Inserted(db.(projects := db.projects + [Project(newId, name.value, githubRepoUrl.value, flag)]), newId))
  }

  /** `DELETE FROM files WHERE review_id = ?`. */
  function DeleteFilesOf(files: seq<FileRow>, reviewId: Id): (r: seq<FileRow>)
    ensures forall f :: f in r <==> f in files && f.reviewId != reviewId
    ensures |r| <= |files|
  {
    if |files| == 0 then []
    else
      var rest := DeleteFilesOf(files[1..], reviewId);
      assert forall f :: f in files <==> f == files[0] || f in files[1..];
      if files[0].reviewId == reviewId then rest else [files[0]] + rest
  }

  /** `DELETE FROM reviews WHERE id = ?`. */
  function DeleteReviewRow(reviews: seq<Review>, id: Id): (r: seq<Review>)
    ensures forall x :: x in r <==> x in reviews && x.id != id
    ensures |r| <= |reviews|
  {
    if |reviews| == 0 then []
    else
      var rest := DeleteReviewRow(reviews[1..], id);
      assert forall x :: x in reviews <==> x == reviews[0] || x in reviews[1..];
      if reviews[0].id == id then rest else [reviews[0]] + rest
  }

  /** `delete_review(conn, review_id)`: the files first, then the review, so
      no file is ever left without its review. */
  function DeleteReview(db: ReviewDb, reviewId: Id): (r: ReviewDb)
    ensures r.projects == db.projects
    ensures forall x :: x in r.reviews <==> x in db.reviews && x.id != reviewId
    ensures forall f :: f in r.files <==> f in db.files && f.reviewId != reviewId
  {
    db.(files := DeleteFilesOf(db.files, reviewId), reviews := DeleteReviewRow(db.reviews, reviewId))
  }

  /** SQLite's BINARY collation on two texts: `a` sorts no later than `b`
      when it is a prefix of `b` or has the smaller character at the first
      difference. On "YYYY-MM-DD HH:MM:SS" texts this is time order. */
  predicate NotAfter(a: Timestamp, b: Timestamp)
    decreases |a|
  {
    |a| == 0 || (|b| > 0 && (a[0] < b[0] || (a[0] == b[0] && NotAfter(a[1..], b[1..]))))
  }

  /** Any two texts compare one way or the other. */
  lemma {:induction false} NotAfterTotal(a: Timestamp, b: Timestamp)
    ensures NotAfter(a, b) || NotAfter(b, a)
    decreases |a|
  {
    if |a| > 0 && |b| > 0 && a[0] == b[0] {
      NotAfterTotal(a[1..], b[1..]);
    }
  }

  lemma {:induction false} NotAfterTrans(a: Timestamp, b: Timestamp, c: Timestamp)
    requires NotAfter(a, b) && NotAfter(b, c)
    ensures NotAfter(a, c)
    decreases |a|
  {
    if |a| > 0 && a[0] == b[0] && b[0] == c[0] {
      NotAfterTrans(a[1..], b[1..], c[1..]);
    }
  }

  /** Two texts that each sort no later than the other are equal, so the
      collation orders distinct timestamps strictly. */
  lemma {:induction false} NotAfterAntisymmetric(a: Timestamp, b: Timestamp)
    requires NotAfter(a, b) && NotAfter(b, a)
    ensures a == b
    decreases |a|
  {
    if |a| > 0 {
      NotAfterAntisymmetric(a[1..], b[1..]);
      assert a == [a[0]] + a[1..] && b == [b[0]] + b[1..];
    }
  }

  /** Newest first: `ORDER BY created_at DESC`. */
  predicate NewestFirst(rs: seq<Review>) {
    forall i, j :: 0 <= i < j < |rs| ==> NotAfter(rs[j].createdAt, rs[i].createdAt)
  }

  /** Put `x` in front of the first row that is not newer than it. */
  function InsertByAge(x: Review, rs: seq<Review>): (r: seq<Review>)
    requires NewestFirst(rs)
    ensures NewestFirst(r)
    ensures multiset(r) == multiset(rs) + multiset{x}
  {
    if |rs| == 0 then [x]
    else if NotAfter(rs[0].createdAt, x.createdAt) then
      NewestFirstCons(x, rs);
      [x] + rs
    else
      NotAfterTotal(rs[0].createdAt, x.createdAt);
      var rest := InsertByAge(x, rs[1..]);
      InsertBehindHead(x, rs, rest);
      [rs[0]] + rest
  }

  /** A row no older than every row of a newest-first list can go in front. */
  lemma NewestFirstCons(h: Review, rs: seq<Review>)
    requires NewestFirst(rs)
    requires |rs| > 0 ==> NotAfter(rs[0].createdAt, h.createdAt)
    ensures NewestFirst([h] + rs)
  {
    var r := [h] + rs;
    forall i, j | 0 <= i < j < |r| ensures NotAfter(r[j].createdAt, r[i].createdAt) {
      if i == 0 {
        assert r[j] == rs[j - 1];
        if j > 1 {
          NotAfterTrans(rs[j - 1].createdAt, rs[0].createdAt, h.createdAt);
        }
      } else {
        assert r[i] == rs[i - 1] && r[j] == rs[j - 1];
      }
    }
  }

  /** The step of `InsertByAge` that keeps the head in front. */
  lemma InsertBehindHead(x: Review, rs: seq<Review>, rest: seq<Review>)
    requires NewestFirst(rs) && |rs| > 0 && NotAfter(x.createdAt, rs[0].createdAt)
    requires NewestFirst(rest) && multiset(rest) == multiset(rs[1..]) + multiset{x}
    ensures NewestFirst([rs[0]] + rest)
    ensures multiset([rs[0]] + rest) == multiset(rs) + multiset{x}
  {
    assert rs == [rs[0]] + rs[1..];
    if |rest| > 0 {
      assert rest[0] in multiset(rest);
      if rest[0] != x {
        assert rest[0] in rs[1..];
        var k :| 0 <= k < |rs[1..]| && rs[1..][k] == rest[0];
        assert rs[k + 1] == rest[0];
      }
    }
    NewestFirstCons(rs[0], rest);
  }

  /** The rows in `ORDER BY created_at DESC` order. SQL leaves the order of
      rows with the same `created_at` open; this ordering keeps them in
      rowid order. */
  function SortNewestFirst(rs: seq<Review>): (r: seq<Review>)
    ensures NewestFirst(r)
    ensures multiset(r) == multiset(rs)
  {
    if |rs| == 0 then []
    else
      assert rs == [rs[0]] + rs[1..];
      InsertByAge(rs[0], SortNewestFirst(rs[1..]))
  }

  /** Lists with the same multiset hold the same rows. */
  lemma SameRows(a: seq<Review>, b: seq<Review>)
    requires multiset(a) == multiset(b)
    ensures forall x :: x in a <==> x in b
  {
    forall x ensures x in a <==> x in b {
      assert x in a <==> x in multiset(a);
      assert x in b <==> x in multiset(b);
    }
  }

  /** `get_all_reviews(conn)` of db.py: every review row, newest first. */
  function AllReviews(db: ReviewDb): (r: seq<Review>)
    ensures NewestFirst(r) && multiset(r) == multiset(db.reviews)
  {
    SortNewestFirst(db.reviews)
  }

  /** The review rows of one project, in rowid order. */
  function ReviewsOf(reviews: seq<Review>, projectId: Id): (r: seq<Review>)
    ensures forall x :: x in r <==> x in reviews && x.projectId == Some(projectId)
  {
    if |reviews| == 0 then []
    else
      var rest := ReviewsOf(reviews[1..], projectId);
      assert forall x :: x in reviews <==> x == reviews[0] || x in reviews[1..];
      if reviews[0].projectId == Some(projectId) then [reviews[0]] + rest else rest
  }

  /** `get_all_project_reviews(conn, project_id)`: the reviews whose
      `project_id` equals the argument, newest first; `project_id = NULL`
      holds for no row, so `None` gives no rows. */
  function AllProjectReviews(db: ReviewDb, projectId: Option<Id>): (r: seq<Review>)
    ensures NewestFirst(r)
    ensures forall x :: x in r <==> x in db.reviews && projectId.Some? && x.projectId == projectId
  {
    if projectId.None? then []
    else
      var rows := ReviewsOf(db.reviews, projectId.value);
      SameRows(SortNewestFirst(rows), rows);
      SortNewestFirst(rows)
  }

  /** A column value as sqlite3 returns it. */
  datatype Value = Null | Int(i: int) | Text(s: string)

  type Row = seq<Value>

  /** What `cur.fetchone()` or `cur.fetchall()` returned. */
  datatype Fetched = One(row: Option<Row>) | All(rows: seq<Row>)

  /** A dict built from `zip(columns, row)`, or a list of them. */
  datatype DictResult = OneDict(d: map<string, Value>) | DictList(ds: seq<map<string, Value>>)

  /** `dict(zip(columns, row))`: pairs up to the shorter length; a later
      pair with the same column name overwrites an earlier one. */
  function ZipDict(columns: seq<string>, row: Row): (d: map<string, Value>)
    ensures forall c :: c in d ==> c in columns
  {
    var n := if |columns| < |row| then |columns| else |row|;
    if n == 0 then map[]
    else
      var d := ZipDict(columns[..n - 1], row[..n - 1]);
      d[columns[n - 1] := row[n - 1]]
  }

  /** `get_dict_results(cur, rows)`: a list becomes a list of dicts, any
      other value becomes one dict; `zip` over a `None` row raises TypeError. */
  function GetDictResults(columns: seq<string>, fetched: Fetched): (r: Result<DictResult, Failure>)
    ensures r.Err? <==> fetched == One(None)
    ensures r.Err? ==> r.error == NotIterable
    ensures fetched.All? ==> r.Ok? && r.value.DictList? && |r.value.ds| == |fetched.rows|
    ensures fetched.All? ==> forall i :: 0 <= i < |fetched.rows| ==> r.value.ds[i] == ZipDict(columns, fetched.rows[i])
    ensures fetched.One? && fetched.row.Some? ==> r == Ok(OneDict(ZipDict(columns, fetched.row.value)))
  {
    match fetched
    case One(None) => Err(NotIterable)
    case One(Some(row)) => Ok(OneDict(ZipDict(columns, row)))
    case All(rows) => Ok(DictList(seq(|rows|, i requires 0 <= i < |rows| => ZipDict(columns, rows[i]))))
  }

  function OptText(s: Option<string>): Value {
    if s.Some? then Text(s.value) else Null
  }

  /** The columns of `reviews` in lemma/db.py, in table order. */
  const ReviewColumns: seq<string> := ["id", "name", "github_url", "github_url_type", "prompt_template", "prompt",
                                       "llm_model", "created_at", "updated_at", "project_id"]

  /** The columns of `files`. */
  const FileColumns: seq<string> := ["id", "review_id", "file_name", "diff", "code", "response", "created_at", "updated_at"]

  /** A review as `SELECT *` returns it. */
  function ReviewRow(r: Review): (row: Row)
    ensures |row| == |ReviewColumns|
  {
    [Text(r.id), Text(r.name), Text(r.githubUrl), OptText(r.githubUrlType), OptText(r.promptTemplate), OptText(r.prompt),
     OptText(r.llmModel), Text(r.createdAt), Text(r.createdAt), OptText(r.projectId)]
  }

  /** A file as `SELECT *` returns it. */
  function FileRowValues(f: FileRow): (row: Row)
    ensures |row| == |FileColumns|
  {
    [Text(f.id), Text(f.reviewId), Text(f.fileName), OptText(f.diff), OptText(f.code), OptText(f.response),
     Text(f.createdAt), Text(f.createdAt)]
  }

  /** The files of one review, in rowid order. */
  function FilesOf(files: seq<FileRow>, reviewId: Id): (r: seq<FileRow>)
    ensures forall f :: f in r <==> f in files && f.reviewId == reviewId
  {
    if |files| == 0 then []
    else
      var rest := FilesOf(files[1..], reviewId);
      assert forall f :: f in files <==> f == files[0] || f in files[1..];
      if files[0].reviewId == reviewId then [files[0]] + rest else rest
  }

  /** `get_review_with_files(conn, review_id)` of db.py: `(None, None)` for
      an unknown id, otherwise the review and its files. */
  function ReviewWithFiles(db: ReviewDb, reviewId: Id): (r: Option<(Review, seq<FileRow>)>)
    ensures r.None? <==> FindReview(db.reviews, reviewId).None?
    ensures r.Some? ==> r.value.0.id == reviewId && r.value.0 in db.reviews
    ensures r.Some? ==> forall f :: f in r.value.1 <==> f in db.files && f.reviewId == reviewId
  {
    match FindReview(db.reviews, reviewId)
    case None => None
    case Some(review) => Some((review, FilesOf(db.files, reviewId)))
  }

  /** `get_review_with_files(conn, review_id)` of lemma/db.py: the review row
      goes through `get_dict_results` before the `if review:` test, so an
      unknown id raises TypeError, which `except Error` does not catch. */
  function ReviewWithFilesDicts(db: ReviewDb, reviewId: Id): (r: Result<(map<string, Value>, seq<map<string, Value>>), Failure>)
    ensures r.Err? <==> FindReview(db.reviews, reviewId).None?
    ensures r.Err? ==> r.error == NotIterable && KindOf(r.error) == TypeError
  {
    var review := FindReview(db.reviews, reviewId);
    var fetched := if review.Some? then One(Some(ReviewRow(review.value))) else One(None);
    match GetDictResults(ReviewColumns, fetched)
    case Err(e) => Err(e)
    case Ok(reviewResults) =>
      var files := FilesOf(db.files, reviewId);
      var rows := seq(|files|, i requires 0 <= i < |files| => FileRowValues(files[i]));
      var fileResults := GetDictResults(FileColumns, All(rows));
      Ok((reviewResults.d, fileResults.value.ds))
  }

  /** `get_project(conn, project_id)`: the query names `project.id` while
      the table is `projects`, so every call fails to prepare. */
  function GetProject(db: ReviewDb, projectId: Id): (r: Result<Option<Project>, Failure>)
    ensures r.Err? && KindOf(r.error) == SqliteError
  {
    Err(NoSuchColumn("project.id"))
  }

  /** The row `FindReview` sees after an append. */
  lemma {:induction false} FindAfterAppend(reviews: seq<Review>, row: Review, id: Id)
    ensures FindReview(reviews + [row], id) ==
      (if FindReview(reviews, id).Some? then FindReview(reviews, id) else if row.id == id then Some(row) else None)
  {
    if |reviews| > 0 {
      assert (reviews + [row])[1..] == reviews[1..] + [row];
      FindAfterAppend(reviews[1..], row, id);
    } else {
      assert [] + [row] == [row];
    }
  }

  /** A review inserted with `insert_review` is the row a later lookup of
      its id finds, with every field as passed and `project_id` as given. */
  lemma InsertReviewThenFind(db: ReviewDb, name: Option<string>, githubUrl: Option<string>, githubUrlType: Option<string>,
                             promptTemplate: Option<string>, prompt: Option<string>, llmModel: Option<string>,
                             projectId: Option<Id>, newId: Id, now: Timestamp)
    requires InsertReview(db, name, githubUrl, githubUrlType, promptTemplate, prompt, llmModel, projectId, newId, now).Ok?
    ensures var out := InsertReview(db, name, githubUrl, githubUrlType, promptTemplate, prompt, llmModel, projectId, newId, now).value.db;
      FindReview(out.reviews, newId) == Some(Review(newId, name.value, githubUrl.value, githubUrlType, promptTemplate, prompt, llmModel, now, projectId)) &&
      out.projects == db.projects && out.files == db.files
  {
    var row := Review(newId, name.value, githubUrl.value, githubUrlType, promptTemplate, prompt, llmModel, now, projectId);
    FindAfterAppend(db.reviews, row, newId);
  }

  /** Appending a row whose id is new keeps a table keyed. */
  lemma AppendReviewKeyed(rows: seq<Review>, row: Review)
    requires ReviewsKeyed(rows) && forall x :: x in rows ==> x.id != row.id
    ensures ReviewsKeyed(rows + [row])
  {
    var all := rows + [row];
    forall i, j | 0 <= i < j < |all| ensures all[i].id != all[j].id {
      if j == |rows| {
        assert all[i] in rows;
      } else {
        assert all[i] == rows[i] && all[j] == rows[j];
      }
    }
  }

  lemma AppendFileKeyed(rows: seq<FileRow>, row: FileRow)
    requires FilesKeyed(rows) && forall x :: x in rows ==> x.id != row.id
    ensures FilesKeyed(rows + [row])
  {
    var all := rows + [row];
    forall i, j | 0 <= i < j < |all| ensures all[i].id != all[j].id {
      if j == |rows| {
        assert all[i] in rows;
      } else {
        assert all[i] == rows[i] && all[j] == rows[j];
      }
    }
  }

  lemma AppendProjectKeyed(rows: seq<Project>, row: Project)
    requires ProjectsKeyed(rows) && forall x :: x in rows ==> x.id != row.id
    ensures ProjectsKeyed(rows + [row])
  {
    var all := rows + [row];
    forall i, j | 0 <= i < j < |all| ensures all[i].id != all[j].id {
      if j == |rows| {
        assert all[i] in rows;
      } else {
        assert all[i] == rows[i] && all[j] == rows[j];
      }
    }
  }

  /** `insert_review` keeps the keys: the new id is unused and the project exists. */
  lemma InsertReviewKeepsKeys(db: ReviewDb, name: Option<string>, githubUrl: Option<string>, githubUrlType: Option<string>,
                              promptTemplate: Option<string>, prompt: Option<string>, llmModel: Option<string>,
                              projectId: Option<Id>, newId: Id, now: Timestamp)
    requires Valid(db)
    requires InsertReview(db, name, githubUrl, githubUrlType, promptTemplate, prompt, llmModel, projectId, newId, now).Ok?
    ensures Valid(InsertReview(db, name, githubUrl, githubUrlType, promptTemplate, prompt, llmModel, projectId, newId, now).value.db)
  {
    var row := Review(newId, name.value, githubUrl.value, githubUrlType, promptTemplate, prompt, llmModel, now, projectId);
    var out := db.(reviews := db.reviews + [row]);
    AppendReviewKeyed(db.reviews, row);
    assert ReviewIds(db) <= ReviewIds(out);
  }

  /** `insert_file` keeps the keys: the new id is unused and the review exists. */
  lemma InsertFileKeepsKeys(db: ReviewDb, reviewId: Id, fileName: Option<string>, diff: Option<string>, code: Option<string>,
                            response: Option<string>, newId: Id, now: Timestamp)
    requires Valid(db)
    requires InsertFile(db, reviewId, fileName, diff, code, response, newId, now).Ok?
    ensures Valid(InsertFile(db, reviewId, fileName, diff, code, response, newId, now).value.db)
  {
    var row := FileRow(newId, reviewId, fileName.value, diff, code, response, now);
    AppendFileKeyed(db.files, row);
  }

  /** `insert_project` keeps the keys, and the stored flag is 1 exactly when
      the argument is truthy. */
  lemma InsertProjectKeepsKeys(db: ReviewDb, name: Option<string>, githubRepoUrl: Option<string>, repoValidated: PyValue, newId: Id)
    requires Valid(db)
    requires InsertProject(db, name, githubRepoUrl, repoValidated, newId).Ok?
    ensures var out := InsertProject(db, name, githubRepoUrl, repoValidated, newId).value.db;
      Valid(out) && (out.projects[|db.projects|].repoValidated == 1 <==> PyTruthy(repoValidated))
  {
    var flag := if PyTruthy(repoValidated) then 1 else 0;
    var row := Project(newId, name.value, githubRepoUrl.value, flag);
    var out := db.(projects := db.projects + [row]);
    AppendProjectKeyed(db.projects, row);
    assert ProjectIds(db) <= ProjectIds(out);
  }

  /** Deleting rows that do not match keeps a table unchanged. */
  lemma {:induction false} DeleteFilesNoMatch(files: seq<FileRow>, reviewId: Id)
    requires forall f :: f in files ==> f.reviewId != reviewId
    ensures DeleteFilesOf(files, reviewId) == files
  {
    if |files| > 0 {
      DeleteFilesNoMatch(files[1..], reviewId);
      assert files == [files[0]] + files[1..];
    }
  }

  lemma {:induction false} DeleteReviewRowNoMatch(reviews: seq<Review>, id: Id)
    requires forall x :: x in reviews ==> x.id != id
    ensures DeleteReviewRow(reviews, id) == reviews
  {
    if |reviews| > 0 {
      DeleteReviewRowNoMatch(reviews[1..], id);
      assert reviews == [reviews[0]] + reviews[1..];
    }
  }

  /** Deleting from a table with one more row. */
  lemma {:induction false} DeleteReviewRowAppend(reviews: seq<Review>, x: Review, id: Id)
    ensures DeleteReviewRow(reviews + [x], id) == DeleteReviewRow(reviews, id) + (if x.id == id then [] else [x])
  {
    if |reviews| > 0 {
      var all := reviews + [x];
      assert all[0] == reviews[0] && all[1..] == reviews[1..] + [x];
      DeleteReviewRowAppend(reviews[1..], x, id);
      var tail := DeleteReviewRow(reviews[1..], id);
      var last := if x.id == id then [] else [x];
      Text.AppendAssoc([reviews[0]], tail, last);
    } else {
      assert [] + [x] == [x];
    }
  }

  /** Deleting the last row when it alone matches. */
  lemma DeleteReviewRowLast(reviews: seq<Review>, row: Review)
    requires forall x :: x in reviews ==> x.id != row.id
    ensures DeleteReviewRow(reviews + [row], row.id) == reviews
  {
    DeleteReviewRowAppend(reviews, row, row.id);
    DeleteReviewRowNoMatch(reviews, row.id);
  }

  /** `delete_review` with an id no review has changes nothing. */
  lemma DeleteUnknownReview(db: ReviewDb, reviewId: Id)
    requires Valid(db) && reviewId !in ReviewIds(db)
    ensures DeleteReview(db, reviewId) == db
  {
    DeleteFilesNoMatch(db.files, reviewId);
    DeleteReviewRowNoMatch(db.reviews, reviewId);
  }

  /** Round trip: deleting a review just inserted gives back the tables as they were. */
  lemma InsertThenDeleteReview(db: ReviewDb, name: Option<string>, githubUrl: Option<string>, githubUrlType: Option<string>,
                               promptTemplate: Option<string>, prompt: Option<string>, llmModel: Option<string>,
                               projectId: Option<Id>, newId: Id, now: Timestamp)
    requires Valid(db)
    requires InsertReview(db, name, githubUrl, githubUrlType, promptTemplate, prompt, llmModel, projectId, newId, now).Ok?
    ensures DeleteReview(InsertReview(db, name, githubUrl, githubUrlType, promptTemplate, prompt, llmModel, projectId, newId, now).value.db, newId) == db
  {
    var row := Review(newId, name.value, githubUrl.value, githubUrlType, promptTemplate, prompt, llmModel, now, projectId);
    DeleteFilesNoMatch(db.files, newId);
    DeleteReviewRowLast(db.reviews, row);
  }

  /** A filtered table stays keyed. */
  lemma {:induction false} DeleteFilesKeepsKey(files: seq<FileRow>, reviewId: Id)
    requires FilesKeyed(files)
    ensures FilesKeyed(DeleteFilesOf(files, reviewId))
  {
    if |files| > 0 {
      FilesTailKeyed(files);
      DeleteFilesKeepsKey(files[1..], reviewId);
      if files[0].reviewId != reviewId {
        FilesConsKeyed(files[0], DeleteFilesOf(files[1..], reviewId));
      }
    }
  }

  /** The rows after the first of a keyed table: keyed, and none shares the first's id. */
  lemma FilesTailKeyed(files: seq<FileRow>)
    requires FilesKeyed(files) && |files| > 0
    ensures FilesKeyed(files[1..]) && forall x :: x in files[1..] ==> x.id != files[0].id
  {
    forall x | x in files[1..] ensures x.id != files[0].id {
      var k :| 0 <= k < |files[1..]| && files[1..][k] == x;
      assert files[k + 1] == x;
    }
  }

  lemma FilesConsKeyed(h: FileRow, rest: seq<FileRow>)
    requires FilesKeyed(rest) && forall x :: x in rest ==> x.id != h.id
    ensures FilesKeyed([h] + rest)
  {
    var all := [h] + rest;
    forall i, j | 0 <= i < j < |all| ensures all[i].id != all[j].id {
      if i == 0 {
        assert all[j] in rest;
      } else {
        assert all[i] == rest[i - 1] && all[j] == rest[j - 1];
      }
    }
  }

  lemma {:induction false} DeleteReviewRowKeepsKey(reviews: seq<Review>, id: Id)
    requires ReviewsKeyed(reviews)
    ensures ReviewsKeyed(DeleteReviewRow(reviews, id))
  {
    if |reviews| > 0 {
      ReviewsTailKeyed(reviews);
      DeleteReviewRowKeepsKey(reviews[1..], id);
      if reviews[0].id != id {
        ReviewsConsKeyed(reviews[0], DeleteReviewRow(reviews[1..], id));
      }
    }
  }

  lemma ReviewsTailKeyed(reviews: seq<Review>)
    requires ReviewsKeyed(reviews) && |reviews| > 0
    ensures ReviewsKeyed(reviews[1..]) && forall x :: x in reviews[1..] ==> x.id != reviews[0].id
  {
    forall x | x in reviews[1..] ensures x.id != reviews[0].id {
      var k :| 0 <= k < |reviews[1..]| && reviews[1..][k] == x;
      assert reviews[k + 1] == x;
    }
  }

  lemma ReviewsConsKeyed(h: Review, rest: seq<Review>)
    requires ReviewsKeyed(rest) && forall x :: x in rest ==> x.id != h.id
    ensures ReviewsKeyed([h] + rest)
  {
    var all := [h] + rest;
    forall i, j | 0 <= i < j < |all| ensures all[i].id != all[j].id {
      if i == 0 {
        assert all[j] in rest;
      } else {
        assert all[i] == rest[i - 1] && all[j] == rest[j - 1];
      }
    }
  }

  /** Every file left after `delete_review` still has its review. */
  lemma DeleteReviewKeepsFileRefs(db: ReviewDb, reviewId: Id)
    requires forall f :: f in db.files ==> f.reviewId in ReviewIds(db)
    ensures var out := DeleteReview(db, reviewId); forall f :: f in out.files ==> f.reviewId in ReviewIds(out)
  {
    var out := DeleteReview(db, reviewId);
    forall f | f in out.files ensures f.reviewId in ReviewIds(out) {
      var r :| r in db.reviews && r.id == f.reviewId;
      assert r in out.reviews;
    }
  }

  /** `delete_review` keeps the keys: files go with their review, and no
      other table refers to reviews. */
  lemma DeleteReviewKeepsKeys(db: ReviewDb, reviewId: Id)
    requires Valid(db)
    ensures Valid(DeleteReview(db, reviewId))
  {
    DeleteFilesKeepsKey(db.files, reviewId);
    DeleteReviewRowKeepsKey(db.reviews, reviewId);
    DeleteReviewKeepsFileRefs(db, reviewId);
  }

  /** `dict(zip(columns, row))[columns[k]] == row[k]` when no later column
      has the same name. */
  lemma {:induction false} ZipDictLookup(columns: seq<string>, row: Row, k: nat)
    requires k < |columns| && k < |row|
    requires forall j :: k < j < |columns| ==> columns[j] != columns[k]
    ensures columns[k] in ZipDict(columns, row) && ZipDict(columns, row)[columns[k]] == row[k]
    decreases |columns|
  {
    var n := if |columns| < |row| then |columns| else |row|;
    if k < n - 1 {
      var cs := columns[..n - 1];
      assert cs[k] == columns[k];
      assert forall j :: k < j < |cs| ==> cs[j] == columns[j];
      ZipDictLookup(cs, row[..n - 1], k);
      assert columns[n - 1] != columns[k];
    }
  }

  /** For a known id, lemma/db.py's `get_review_with_files` returns the
      review row as a dict and, in rowid order, the dict of each file of
      the review. */
  lemma ReviewDictsOfKnownId(db: ReviewDb, reviewId: Id)
    requires FindReview(db.reviews, reviewId).Some?
    ensures var r := ReviewWithFilesDicts(db, reviewId);
      var files := FilesOf(db.files, reviewId);
      r.Ok? && r.value.0 == ZipDict(ReviewColumns, ReviewRow(FindReview(db.reviews, reviewId).value)) &&
      |r.value.1| == |files| &&
      forall i :: 0 <= i < |files| ==> r.value.1[i] == ZipDict(FileColumns, FileRowValues(files[i]))
  {
  }

  /** The review dict maps each column name to that column's value; both
      timestamps are the insert's `CURRENT_TIMESTAMP` text. */
  lemma ReviewDictFields(review: Review)
    ensures var d := ZipDict(ReviewColumns, ReviewRow(review));
      "id" in d && "name" in d && "project_id" in d && "created_at" in d && "updated_at" in d &&
      d["id"] == Text(review.id) && d["name"] == Text(review.name) && d["project_id"] == OptText(review.projectId) &&
      d["created_at"] == Text(review.createdAt) && d["updated_at"] == Text(review.createdAt)
  {
    var cs := ReviewColumns;
    var row := ReviewRow(review);
    ReviewColumnLengths();
    assert row[0] == Text(review.id) && row[1] == Text(review.name) && row[9] == OptText(review.projectId);
    assert row[7] == Text(review.createdAt) && row[8] == Text(review.createdAt);
    ZipDictLookup(cs, row, 9);
    ZipDictLookup(cs, row, 8);
    ZipDictLookup(cs, row, 7);
    ZipDictLookup(cs, row, 1);
    ZipDictLookup(cs, row, 0);
  }

  /** "id" and "name" are the only review columns of length 2 and 4. */
  lemma ReviewColumnLengths()
    ensures |ReviewColumns| == 10 && ReviewColumns[0] == "id" && ReviewColumns[1] == "name" && ReviewColumns[9] == "project_id"
    ensures ReviewColumns[7] == "created_at" && ReviewColumns[8] == "updated_at"
    ensures ReviewColumns[7][0] == 'c' && ReviewColumns[8][0] == 'u' && ReviewColumns[9][0] == 'p'
    ensures forall j :: 1 <= j < |ReviewColumns| ==> |ReviewColumns[j]| >= 4
    ensures forall j :: 2 <= j < |ReviewColumns| ==> |ReviewColumns[j]| >= 6
  {
  }

  /** A file dict maps "id" and "review_id" to the row's keys and both
      timestamps to the insert's `CURRENT_TIMESTAMP` text. */
  lemma FileDictFields(f: FileRow)
    ensures var d := ZipDict(FileColumns, FileRowValues(f));
      "id" in d && "review_id" in d && "created_at" in d && "updated_at" in d &&
      d["id"] == Text(f.id) && d["review_id"] == Text(f.reviewId) &&
      d["created_at"] == Text(f.createdAt) && d["updated_at"] == Text(f.createdAt)
  {
    var cs := FileColumns;
    var row := FileRowValues(f);
    FileColumnHeads();
    assert row[0] == Text(f.id) && row[1] == Text(f.reviewId);
    assert row[6] == Text(f.createdAt) && row[7] == Text(f.createdAt);
    ZipDictLookup(cs, row, 7);
    ZipDictLookup(cs, row, 6);
    ZipDictLookup(cs, row, 1);
    ZipDictLookup(cs, row, 0);
  }

  /** The facts `ZipDictLookup` needs about the file columns. */
  lemma FileColumnHeads()
    ensures |FileColumns| == 8 && FileColumns[0] == "id" && FileColumns[1] == "review_id"
    ensures FileColumns[6] == "created_at" && FileColumns[7] == "updated_at"
    ensures forall j :: 1 <= j < |FileColumns| ==> |FileColumns[j]| >= 4
    ensures forall j :: 2 <= j < |FileColumns| ==> FileColumns[j] != FileColumns[1]
    ensures FileColumns[6][0] == 'c' && FileColumns[7][0] == 'u'
  {
  }

  /** The files of a review after one more row. */
  lemma {:induction false} FilesOfAppend(files: seq<FileRow>, f: FileRow, reviewId: Id)
    ensures FilesOf(files + [f], reviewId) == FilesOf(files, reviewId) + (if f.reviewId == reviewId then [f] else [])
  {
    if |files| > 0 {
      assert (files + [f])[1..] == files[1..] + [f];
      FilesOfAppend(files[1..], f, reviewId);
    } else {
      assert [] + [f] == [f];
    }
  }

  /** After `insert_file`, db.py's `get_review_with_files` for that review
      returns exactly one more file, the one inserted, last. */
  lemma InsertFileThenQuery(db: ReviewDb, reviewId: Id, fileName: Option<string>, diff: Option<string>, code: Option<string>,
                            response: Option<string>, newId: Id, now: Timestamp)
    requires InsertFile(db, reviewId, fileName, diff, code, response, newId, now).Ok?
    ensures var out := InsertFile(db, reviewId, fileName, diff, code, response, newId, now).value.db;
      var q := ReviewWithFiles(out, reviewId);
      q.Some? && q.value.1 == FilesOf(db.files, reviewId) + [FileRow(newId, reviewId, fileName.value, diff, code, response, now)]
  {
    var row := FileRow(newId, reviewId, fileName.value, diff, code, response, now);
    FilesOfAppend(db.files, row, reviewId);
  }
}

=== FILE: search.dfy ===
/** `search_similar_code`: the post-processing of the nearest-neighbour
    pairs returned for a query into result records. A position is resolved
    against the project's embedding rows in rowid order, which is not the
    mapping the index builder writes; `SearchViaMapping` is the resolution
    through `faiss_index_mapping` that the builder's mapping supports. */
module Search {
  import opened Wrappers
  import opened Store
  import Text

  /** One pair of the k-NN answer: a distance and a position in the index. */
  datatype Neighbour = Neighbour(distance: real, position: int)

  /** One result record. */
  datatype Hit = Hit(chunkId: Id, repoPath: string, filePath: string, chunkIndex: int, chunkText: string, distance: real)

  datatype SearchError =
    | IndexFileNotFound(path: string)  // FileNotFoundError before anything else
    | EmbeddingServiceError            // raised by the embedding service
    | PositionIndexError               // IndexError from a position below -len
    | DimensionMismatch                // AssertionError: query width differs from the index's

  /** faiss's `index.search` asserts that the query is as wide as the
      index. The builder writes an index file only when it holds vectors,
      all of one width, so the width is that of the first vector; a file
      without vectors is not something the builder writes and is not checked. */
  predicate QueryFits(index: seq<Vector>, query: Vector) {
    |index| == 0 || |query| == |index[0]|
  }

  /** `SELECT id FROM file_chunks WHERE project_id = ?`. */
  function ProjectChunkIds(rows: seq<ChunkRow>, projectId: string): set<Id> {
    set r | r in rows && r.projectId == projectId :: r.id
  }

  /** The chunk ids of the embedding rows whose chunk is in `among`, in rowid order. */
  function IdsAmong(rows: seq<EmbeddingRow>, among: set<Id>): (r: seq<Id>)
    ensures |r| <= |rows|
    ensures forall x :: x in r ==> x in among && x in EmbeddedIds(rows)
  {
    if |rows| == 0 then []
    else
      assert EmbeddedIds(rows) == {rows[0].chunkId} + EmbeddedIds(rows[1..]) by {
        assert forall e :: e in rows <==> e == rows[0] || e in rows[1..];
      }
      (if rows[0].chunkId in among then [rows[0].chunkId] else []) + IdsAmong(rows[1..], among)
  }

  lemma {:induction false} IdsAmongAppend(a: seq<EmbeddingRow>, b: seq<EmbeddingRow>, among: set<Id>)
    ensures IdsAmong(a + b, among) == IdsAmong(a, among) + IdsAmong(b, among)
  {
    if |a| > 0 {
      assert (a + b)[1..] == a[1..] + b;
      IdsAmongAppend(a[1..], b, among);
    } else {
      assert a + b == b;
    }
  }

  /** Only membership of each row's chunk id matters. */
  lemma {:induction false} IdsAmongSame(rows: seq<EmbeddingRow>, s: set<Id>, t: set<Id>)
    requires forall e :: e in rows ==> (e.chunkId in s <==> e.chunkId in t)
    ensures IdsAmong(rows, s) == IdsAmong(rows, t)
  {
    if |rows| > 0 {
      assert rows[0] in rows;
      assert forall e :: e in rows[1..] ==> e in rows;
      IdsAmongSame(rows[1..], s, t);
    }
  }

  /** When every row qualifies, the list is every row's chunk id. */
  lemma {:induction false} IdsAmongAll(rows: seq<EmbeddingRow>, among: set<Id>)
    requires forall j :: 0 <= j < |rows| ==> rows[j].chunkId in among
    ensures |IdsAmong(rows, among)| == |rows|
    ensures forall j :: 0 <= j < |rows| ==> IdsAmong(rows, among)[j] == rows[j].chunkId
  {
    if |rows| > 0 {
      IdsAmongAll(rows[1..], among);
    }
  }

  /** `chunk_id_in_order`: the query at search.py's lines 80-93. */
  function RowidOrder(db: Db, projectId: string): seq<Id> {
    IdsAmong(db.embeddings, ProjectChunkIds(db.chunks, projectId))
  }

  /** `chunk_id_in_order[idx_val]` behind the test `idx_val < len(...)`:
      `Ok(None)` is a dropped position. Python indexing lets a negative
      position count from the end. */
  function ResolvePosition(order: seq<Id>, pos: int): (r: Result<Option<Id>, SearchError>)
    ensures r.Err? <==> pos < -|order|
    ensures r == Ok(None) <==> pos >= |order|
    ensures r.Ok? && r.value.Some? ==> r.value.value in order
    ensures 0 <= pos < |order| ==> r == Ok(Some(order[pos]))
    ensures -|order| <= pos < 0 ==> r == Ok(Some(order[|order| + pos]))
  {
    if pos >= |order| then Ok(None)
    else if pos >= 0 then Ok(Some(order[pos]))
    else if pos >= -|order| then Ok(Some(order[|order| + pos]))
    else Err(PositionIndexError)
  }

  /** A hit carries its chunk's row and its pair's distance. */
  predicate FromRow(h: Hit, row: ChunkRow, distance: real) {
    h.chunkId == row.id && h.repoPath == row.repoPath && h.filePath == row.filePath &&
    h.chunkIndex == row.chunkIndex && h.chunkText == row.chunkText && h.distance == distance
  }

  /** The record for a resolved chunk id, or nothing when `file_chunks` has no such row. */
  function HitFor(db: Db, id: Id, distance: real): (r: seq<Hit>)
    ensures |r| <= 1
    ensures |r| == 1 <==> id in ChunkIds(db.chunks)
    ensures |r| == 1 ==> FindChunk(db.chunks, id).Some? && FromRow(r[0], FindChunk(db.chunks, id).value, distance)
  {
    match FindChunk(db.chunks, id)
    case None => []
    case Some(row) => [Hit(id, row.repoPath, row.filePath, row.chunkIndex, row.chunkText, distance)]
  }

  /** The loop over the pairs, in order. The first position below `-len`
      raises and the results gathered so far are lost with it. */
  function ResolveHits(db: Db, order: seq<Id>, knn: seq<Neighbour>): (r: Result<seq<Hit>, SearchError>)
    ensures r.Err? <==> exists j :: 0 <= j < |knn| && knn[j].position < -|order|
    ensures r.Err? ==> r.error == PositionIndexError
    ensures r.Ok? ==> |r.value| <= |knn|
    ensures r.Ok? ==> forall h :: h in r.value ==>
      h.chunkId in order && FindChunk(db.chunks, h.chunkId).Some? &&
      FromRow(h, FindChunk(db.chunks, h.chunkId).value, h.distance)
  {
    if |knn| == 0 then Ok([])
    else
      var rest := ResolveHits(db, order, knn[1..]);
      assert forall j :: 1 <= j < |knn| ==> knn[j] == knn[1..][j - 1];
      match ResolvePosition(order, knn[0].position)
      case Err(e) => Err(e)
      case Ok(found) =>
        var here := if found.Some? then HitFor(db, found.value, knn[0].distance) else [];
        match rest
        case Err(e) => Err(e)
        case Ok(hits) => Ok(here + hits)
  }

  /** `search_similar_code(conn, project_id, query_text, top_k)`, with
      `query` the embedding service's reply for `[query_text]` and `knn` the
      first row of the index's answer, one pair per requested neighbour. */
  function SearchSimilarCode(db: Db, projectId: string, query: EmbedOutcome, knn: seq<Neighbour>, topK: int): (r: Result<seq<Hit>, SearchError>)
    requires |knn| == topK
    ensures IndexPath(projectId) !in db.indexFiles <==> r == Err(IndexFileNotFound(IndexPath(projectId)))
    ensures IndexPath(projectId) in db.indexFiles && (query == ReturnedNone || query == Returned([])) ==> r == Ok([])
    ensures IndexPath(projectId) in db.indexFiles && query.Returned? && |query.vectors| > 0 ==>
      (r == Err(DimensionMismatch) <==> !QueryFits(db.indexFiles[IndexPath(projectId)], query.vectors[0]))
    ensures r.Ok? ==> |r.value| <= topK
    ensures r.Ok? ==> forall h :: h in r.value ==> h.chunkId in RowidOrder(db, projectId)
  {
    var path := IndexPath(projectId);
    if path !in db.indexFiles then Err(IndexFileNotFound(path))
    else
      match query
      case Raised => Err(EmbeddingServiceError)
      case ReturnedNone => Ok([])
      case Returned(vs) =>
        if |vs| == 0 then Ok([])
        else if !QueryFits(db.indexFiles[path], vs[0]) then Err(DimensionMismatch)
        else ResolveHits(db, RowidOrder(db, projectId), knn)
  }

  /** The records one pair contributes, when its position resolves. */
  function PairHits(db: Db, order: seq<Id>, n: Neighbour): seq<Hit>
    requires ResolvePosition(order, n.position).Ok?
  {
    var found := ResolvePosition(order, n.position).value;
    if found.Some? then HitFor(db, found.value, n.distance) else []
  }

  /** One step of the loop, when it succeeds. */
  lemma ResolveHitsStep(db: Db, order: seq<Id>, knn: seq<Neighbour>)
    requires |knn| > 0 && ResolveHits(db, order, knn).Ok?
    ensures ResolvePosition(order, knn[0].position).Ok? && ResolveHits(db, order, knn[1..]).Ok?
    ensures ResolveHits(db, order, knn).value == PairHits(db, order, knn[0]) + ResolveHits(db, order, knn[1..]).value
  {
  }

  /** The converse step: a pair that resolves followed by pairs that do. */
  lemma ResolveHitsCons(db: Db, order: seq<Id>, knn: seq<Neighbour>)
    requires |knn| > 0 && ResolvePosition(order, knn[0].position).Ok? && ResolveHits(db, order, knn[1..]).Ok?
    ensures ResolveHits(db, order, knn) == Ok(PairHits(db, order, knn[0]) + ResolveHits(db, order, knn[1..]).value)
  {
  }

  /** The pairs are handled one at a time: the results for `a + b` are the
      results for `a` followed by those for `b`. */
  lemma {:induction false} ResolveHitsAppend(db: Db, order: seq<Id>, a: seq<Neighbour>, b: seq<Neighbour>)
    requires ResolveHits(db, order, a).Ok? && ResolveHits(db, order, b).Ok?
    ensures ResolveHits(db, order, a + b) == Ok(ResolveHits(db, order, a).value + ResolveHits(db, order, b).value)
  {
    if |a| > 0 {
      ResolveHitsStep(db, order, a);
      ResolveHitsAppend(db, order, a[1..], b);
      AppendAfterFirst(db, order, a, b);
    } else {
      assert a + b == b;
      var rb := ResolveHits(db, order, b).value;
      assert rb == [] + rb;
    }
  }

  /** The step of the append argument: the first pair of `a` followed by the
      rest of `a` and then `b`. */
  lemma AppendAfterFirst(db: Db, order: seq<Id>, a: seq<Neighbour>, b: seq<Neighbour>)
    requires |a| > 0 && ResolveHits(db, order, a).Ok? && ResolveHits(db, order, b).Ok?
    requires ResolveHits(db, order, a[1..]).Ok?
    requires ResolveHits(db, order, a[1..] + b) == Ok(ResolveHits(db, order, a[1..]).value + ResolveHits(db, order, b).value)
    ensures ResolveHits(db, order, a + b) == Ok(ResolveHits(db, order, a).value + ResolveHits(db, order, b).value)
  {
    var ab := a + b;
    Text.AppendHeadTail(a, b);
    ResolveHitsStep(db, order, a);
    ResolveHitsCons(db, order, ab);
    var here := PairHits(db, order, a[0]);
    var tail := ResolveHits(db, order, a[1..]).value;
    var rb := ResolveHits(db, order, b).value;
    Text.AppendAssoc(here, tail, rb);
  }

  /** One pair gives at most one record, with that pair's distance. */
  lemma OnePairResolves(db: Db, order: seq<Id>, n: Neighbour)
    requires ResolveHits(db, order, [n]).Ok?
    ensures var hits := ResolveHits(db, order, [n]).value;
      |hits| <= 1 &&
      (|hits| == 1 ==> hits[0].distance == n.distance && ResolvePosition(order, n.position) == Ok(Some(hits[0].chunkId)))
  {
    assert [n][1..] == [];
  }

  /** The record for an index position through `faiss_index_mapping`:
      positions without a mapping row (negative padding included) are dropped. */
  function MappedHit(db: Db, projectId: string, n: Neighbour): (r: seq<Hit>)
    ensures |r| <= 1
    ensures |r| == 1 ==> MappedChunk(db.mappings, projectId, n.position) == Some(r[0].chunkId)
    ensures |r| == 1 ==> FindChunk(db.chunks, r[0].chunkId).Some? && FromRow(r[0], FindChunk(db.chunks, r[0].chunkId).value, n.distance)
  {
    match MappedChunk(db.mappings, projectId, n.position)
    case None => []
    case Some(id) => HitFor(db, id, n.distance)
  }

  function ResolveViaMapping(db: Db, projectId: string, knn: seq<Neighbour>): (r: seq<Hit>)
    ensures |r| <= |knn|
  {
    if |knn| == 0 then [] else MappedHit(db, projectId, knn[0]) + ResolveViaMapping(db, projectId, knn[1..])
  }

  /** The search with positions resolved through the mapping rows the
      builder writes. */
  function SearchViaMapping(db: Db, projectId: string, query: EmbedOutcome, knn: seq<Neighbour>, topK: int): (r: Result<seq<Hit>, SearchError>)
    requires |knn| == topK
    ensures IndexPath(projectId) !in db.indexFiles <==> r == Err(IndexFileNotFound(IndexPath(projectId)))
    ensures IndexPath(projectId) in db.indexFiles && query.Returned? && |query.vectors| > 0 ==>
      (r == Err(DimensionMismatch) <==> !QueryFits(db.indexFiles[IndexPath(projectId)], query.vectors[0]))
    ensures r.Ok? ==> |r.value| <= topK
  {
    var path := IndexPath(projectId);
    if path !in db.indexFiles then Err(IndexFileNotFound(path))
    else
      match query
      case Raised => Err(EmbeddingServiceError)
      case ReturnedNone => Ok([])
      case Returned(vs) =>
        if |vs| == 0 then Ok([])
        else if !QueryFits(db.indexFiles[path], vs[0]) then Err(DimensionMismatch)
        else Ok(ResolveViaMapping(db, projectId, knn))
  }

  /** The mapping rows of a project list `order` position by position. */
  ghost predicate MappingFollows(db: Db, projectId: string, order: seq<Id>) {
    forall p: int :: MappedChunk(db.mappings, projectId, p) == (if 0 <= p < |order| then Some(order[p]) else None)
  }

  /** When the mapping lists exactly the rowid-ordered ids, the two
      resolutions agree on every non-negative position. */
  lemma {:induction false} ResolutionsAgree(db: Db, projectId: string, knn: seq<Neighbour>)
    requires MappingFollows(db, projectId, RowidOrder(db, projectId))
    requires forall j :: 0 <= j < |knn| ==> knn[j].position >= 0
    ensures ResolveHits(db, RowidOrder(db, projectId), knn) == Ok(ResolveViaMapping(db, projectId, knn))
  {
    if |knn| > 0 {
      assert knn[0].position >= 0;
      ResolutionsAgree(db, projectId, knn[1..]);
    }
  }

  lemma SearchesAgree(db: Db, projectId: string, query: EmbedOutcome, knn: seq<Neighbour>, topK: int)
    requires |knn| == topK
    requires MappingFollows(db, projectId, RowidOrder(db, projectId))
    requires forall j :: 0 <= j < |knn| ==> knn[j].position >= 0
    ensures SearchSimilarCode(db, projectId, query, knn, topK) == SearchViaMapping(db, projectId, query, knn, topK)
  {
    ResolutionsAgree(db, projectId, knn);
  }
}

=== FILE: segment.dfy ===
/** The segmenter of lemma/embeddings/segment.py: a walk over a repository
    (given here as data) is filtered file by file, and every surviving file's
    lines are cut into consecutive windows of at most `max_chunk_size` lines. */
module Segment {
  import opened Wrappers
  import opened Text

  /** One record of the result list: `{file_path, chunk_index, chunk_text}`. */
  datatype Chunk = Chunk(filePath: string, chunkIndex: nat, chunkText: string)

  /** A file seen by the walk. `content` is the text read in text mode, or
      `None` when opening or reading it raised. */
  datatype WalkFile = WalkFile(name: string, content: Option<string>)

  /** One `(root, _, files)` triple of `os.walk`: the absolute directory path,
      its path components relative to the repository, and its files. */
  datatype WalkDir = WalkDir(root: string, relDir: seq<string>, files: seq<WalkFile>)

  /** `f.readlines()`: the text cut after every newline, each line keeping it. */
  function ReadLines(t: string): (lines: seq<string>)
    ensures |lines| == 0 <==> t == ""
    decreases |t|
  {
    if |t| == 0 then []
    else
      var k := Find(t, '\n');
      if k < 0 then [t] else [t[..k + 1]] + ReadLines(t[k + 1..])
  }

  lemma {:induction false} ReadLinesRoundTrip(t: string)
    ensures Concat(ReadLines(t)) == t
    decreases |t|
  {
    if |t| > 0 {
      var k := Find(t, '\n');
      if k < 0 {
        ConcatSingle(t);
      } else {
        ReadLinesRoundTrip(t[k + 1..]);
        assert t == t[..k + 1] + t[k + 1..];
      }
    }
  }

  /** The lines of one window, `lines[lo:hi]`. */
  function Window(lines: seq<string>, lo: int, hi: int): seq<string> {
    Slice(lines, lo, hi)
  }

  /** The chunking loop of one file (segment.py lines 53-69), entered with
      `chunk_start == start` and `chunk_index == index`: one chunk per window
      of `size` lines, numbered on from `index`. Which lines each chunk holds
      is `FileChunkAt`; how many chunks there are is `FileChunkCount`. */
  function FileChunksFrom(path: string, lines: seq<string>, size: nat, start: nat, index: nat): (r: seq<Chunk>)
    requires size > 0
    ensures |r| == 0 <==> start >= |lines|
    ensures forall i :: 0 <= i < |r| ==> r[i].filePath == path && r[i].chunkIndex == index + i
    decreases |lines| - start
  {
    if start >= |lines| then []
    else
      [Chunk(path, index, Concat(Window(lines, start, start + size)))]
      + FileChunksFrom(path, lines, size, start + size, index + 1)
  }

  /** The first line of window `i` when windows of `size` lines start at
      `start`: `start + i * size`, written as repeated addition (see `ChunkStartIsProduct`). */
  function ChunkStart(start: nat, size: nat, i: nat): nat {
    if i == 0 then start else ChunkStart(start, size, i - 1) + size
  }

  lemma {:induction false} ChunkStartIsProduct(start: nat, size: nat, i: nat)
    ensures ChunkStart(start, size, i) == start + i * size
  {
    if i > 0 {
      ChunkStartIsProduct(start, size, i - 1);
      MulShift(size, i - 1);
    }
  }

  /** Window `i` of the lines after the first window is window `i + 1` of the whole. */
  lemma {:induction false} ChunkStartShift(start: nat, size: nat, i: nat)
    ensures ChunkStart(start + size, size, i) == ChunkStart(start, size, i + 1)
  {
    if i > 0 {
      ChunkStartShift(start, size, i - 1);
    }
  }

  /** Chunk `i` holds the window of lines `[start + i * size, start + (i + 1) * size)`. */
  lemma {:induction false} FileChunkAt(path: string, lines: seq<string>, size: nat, start: nat, index: nat, i: nat)
    requires size > 0
    requires i < |FileChunksFrom(path, lines, size, start, index)|
    ensures FileChunksFrom(path, lines, size, start, index)[i].chunkText
      == Concat(Window(lines, ChunkStart(start, size, i), ChunkStart(start, size, i + 1)))
    decreases i
  {
    if i > 0 {
      var j := i - 1;
      FileChunkAfterFirst(path, lines, size, start, index, i);
      FileChunkAt(path, lines, size, start + size, index + 1, j);
      ChunkStartShift(start, size, j);
      ChunkStartShift(start, size, i);
      assert j + 1 == i;
    } else {
      FileChunkFirst(path, lines, size, start, index);
    }
  }

  lemma FileChunkFirst(path: string, lines: seq<string>, size: nat, start: nat, index: nat)
    requires size > 0 && start < |lines|
    ensures FileChunksFrom(path, lines, size, start, index)[0].chunkText
      == Concat(Window(lines, ChunkStart(start, size, 0), ChunkStart(start, size, 1)))
  {
  }

  lemma FileChunkAfterFirst(path: string, lines: seq<string>, size: nat, start: nat, index: nat, i: nat)
    requires size > 0 && 0 < i < |FileChunksFrom(path, lines, size, start, index)|
    ensures var rest := FileChunksFrom(path, lines, size, start + size, index + 1);
      i - 1 < |rest| && FileChunksFrom(path, lines, size, start, index)[i] == rest[i - 1]
  {
  }

  /** The number of chunks is the least `k` with `k * size >= |lines| - start`. */
  lemma {:induction false} FileChunkCount(path: string, lines: seq<string>, size: nat, start: nat, index: nat)
    requires size > 0
    ensures var k := |FileChunksFrom(path, lines, size, start, index)|;
      start < |lines| ==> k > 0 && (k - 1) * size < |lines| - start <= k * size
    decreases |lines| - start
  {
    if start < |lines| {
      var k := |FileChunksFrom(path, lines, size, start, index)|;
      var rest := FileChunksFrom(path, lines, size, start + size, index + 1);
      assert k == 1 + |rest|;
      FileChunkCount(path, lines, size, start + size, index + 1);
      MulShift(size, |rest|);
      MulShift(size, |rest| - 1);
      MulShift(size, 0);
    }
  }

  /** One more window of `size` lines. */
  lemma MulShift(size: nat, i: int)
    ensures size + i * size == (i + 1) * size
  {
  }

  /** The chunks of one file: the loop entered with `chunk_start = chunk_index = 0`. */
  function FileChunks(path: string, lines: seq<string>, size: nat): seq<Chunk>
    requires size > 0
  {
    FileChunksFrom(path, lines, size, 0, 0)
  }

  function ChunkTexts(cs: seq<Chunk>): seq<string> {
    if |cs| == 0 then [] else [cs[0].chunkText] + ChunkTexts(cs[1..])
  }

  /** Concatenating the chunk texts in order gives back the lines from `start` on. */
  lemma {:induction false} ChunksReassembleFrom(path: string, lines: seq<string>, size: nat, start: nat, index: nat)
    requires size > 0
    requires start <= |lines|
    ensures Concat(ChunkTexts(FileChunksFrom(path, lines, size, start, index))) == Concat(lines[start..])
    decreases |lines| - start
  {
    if start < |lines| {
      if start + size <= |lines| {
        ChunksReassembleFrom(path, lines, size, start + size, index + 1);
        FullChunk(path, lines, size, start, index);
      } else {
        LastChunk(path, lines, size, start, index);
      }
    } else {
      assert lines[start..] == [];
    }
  }

  /** A full window followed by the chunks after it holds the lines from `start` on. */
  lemma FullChunk(path: string, lines: seq<string>, size: nat, start: nat, index: nat)
    requires size > 0 && start + size <= |lines|
    requires Concat(ChunkTexts(FileChunksFrom(path, lines, size, start + size, index + 1))) == Concat(lines[start + size..])
    ensures Concat(ChunkTexts(FileChunksFrom(path, lines, size, start, index))) == Concat(lines[start..])
  {
    var next := start + size;
    ChunkTextsCons(path, lines, size, start, index);
    assert Window(lines, start, next) == lines[start..next];
    SuffixSplit(lines, start, next);
    ConcatAppend(lines[start..next], lines[next..]);
  }

  /** A window that reaches past the end is the last chunk and holds the rest of the lines. */
  lemma LastChunk(path: string, lines: seq<string>, size: nat, start: nat, index: nat)
    requires size > 0 && start < |lines| < start + size
    ensures Concat(ChunkTexts(FileChunksFrom(path, lines, size, start, index))) == Concat(lines[start..])
  {
    ChunkTextsCons(path, lines, size, start, index);
    assert Window(lines, start, start + size) == lines[start..];
    assert FileChunksFrom(path, lines, size, start + size, index + 1) == [];
  }

  /** The first chunk's text followed by the texts of the chunks after it. */
  lemma ChunkTextsCons(path: string, lines: seq<string>, size: nat, start: nat, index: nat)
    requires size > 0 && start < |lines|
    ensures Concat(ChunkTexts(FileChunksFrom(path, lines, size, start, index)))
      == Concat(Window(lines, start, start + size)) + Concat(ChunkTexts(FileChunksFrom(path, lines, size, start + size, index + 1)))
  {
    var r := FileChunksFrom(path, lines, size, start, index);
    assert r[1..] == FileChunksFrom(path, lines, size, start + size, index + 1);
  }

  /** Round trip: the chunks of a file, joined in `chunk_index` order, are the
      file's text. */
  lemma FileRoundTrip(path: string, text: string, size: nat)
    requires size > 0
    ensures Concat(ChunkTexts(FileChunks(path, ReadLines(text), size))) == text
  {
    var lines := ReadLines(text);
    ChunksReassembleFrom(path, lines, size, 0, 0);
    assert lines[0..] == lines;
    ReadLinesRoundTrip(text);
  }

  lemma MulSucc(a: nat, size: nat)
    ensures (a + 1) * size == a * size + size
  {
  }

  lemma MulMono(a: nat, b: nat, size: nat)
    requires a <= b
    ensures a * size <= b * size
  {
  }

  /** Every chunk holds between 1 and `size` lines, and every chunk but the
      last holds exactly `size`. */
  lemma {:induction false} WindowSizes(path: string, lines: seq<string>, size: nat, i: nat)
    requires size > 0
    requires i < |FileChunks(path, lines, size)|
    ensures 1 <= |Window(lines, i * size, (i + 1) * size)| <= size
    ensures i + 1 < |FileChunks(path, lines, size)| ==> |Window(lines, i * size, (i + 1) * size)| == size
  {
    var k := |FileChunks(path, lines, size)|;
    FileChunkCount(path, lines, size, 0, 0);
    MulMono(i, k - 1, size);
    assert i * size < |lines|;
    assert (i + 1) * size == i * size + size;
    if i + 1 < k {
      MulMono(i + 1, k - 1, size);
    }
  }

  /** The number of chunks is `ceil(n / size)`, and zero for a file with no lines. */
  lemma ChunkCount(path: string, lines: seq<string>, size: nat)
    requires size > 0
    ensures |FileChunks(path, lines, size)| == (|lines| + size - 1) / size
  {
    var k := |FileChunks(path, lines, size)|;
    var n := |lines|;
    FileChunkCount(path, lines, size, 0, 0);
    if n > 0 {
      assert (k - 1) * size < n <= k * size;
      assert (k - 1) * size + size == k * size;
      assert (k + 1) * size == k * size + size;
      DivBetween(n + size - 1, k, size);
    }
  }

  lemma DivBetween(m: nat, k: nat, size: nat)
    requires size > 0
    requires k * size <= m < (k + 1) * size
    ensures m / size == k
  {
    var q := m / size;
    assert m == q * size + m % size;
    MulSucc(q, size);
    MulSucc(k, size);
    if q < k {
      MulMono(q + 1, k, size);
      assert false;
    }
    if q > k {
      MulMono(k + 1, q, size);
      assert false;
    }
  }

  /** The loop variable `chunk_start` after `k` iterations with step `size`. */
  function StartAfter(k: nat, size: int): int {
    if k == 0 then 0 else StartAfter(k - 1, size) + size
  }

  /** With `max_chunk_size <= 0` the loop never exits on a file with lines:
      `chunk_start` never grows, so `chunk_start < len(lines)` holds forever. */
  lemma {:induction false} NonPositiveSizeNeverExits(lines: seq<string>, size: int, k: nat)
    requires size <= 0
    requires |lines| > 0
    ensures StartAfter(k, size) <= 0 < |lines|
  {
    if k > 0 {
      NonPositiveSizeNeverExits(lines, size, k - 1);
    }
  }

  /** The repository-relative POSIX path of a file. */
  function RelPath(d: WalkDir, f: WalkFile): string {
    Join("/", d.relDir + [f.name])
  }

  /** Directories whose own path ends in ".git" are skipped; deeper ones are not. */
  predicate DirSkipped(d: WalkDir) {
    EndsWith(d.root, ".git")
  }

  /** A file passes the name filters: not ignored, and, with `ignoreTests`,
      no "test" anywhere in its lower-cased name. */
  predicate NamePasses(f: WalkFile, ignoreTests: bool, isIgnored: string -> bool) {
    !isIgnored(f.name) && !(ignoreTests && Contains(Lower(f.name), "test"))
  }

  /** A file contributes chunks: its directory is walked, its name passes and it could be read. */
  predicate FileKept(d: WalkDir, f: WalkFile, ignoreTests: bool, isIgnored: string -> bool) {
    !DirSkipped(d) && NamePasses(f, ignoreTests, isIgnored) && f.content.Some?
  }

  /** The inner `for filename in files` loop of one directory. */
  function DirChunks(d: WalkDir, files: seq<WalkFile>, size: nat, ignoreTests: bool, isIgnored: string -> bool): seq<Chunk>
    requires size > 0
  {
    if |files| == 0 then []
    else
      var f := files[0];
      var here := if FileKept(d, f, ignoreTests, isIgnored)
        then FileChunks(RelPath(d, f), ReadLines(f.content.value), size) else [];
      here + DirChunks(d, files[1..], size, ignoreTests, isIgnored)
  }

  /** `segment_codebase` over a walk given as data (segment.py lines 25-71). */
  function SegmentCodebase(walk: seq<WalkDir>, size: nat, ignoreTests: bool, isIgnored: string -> bool): seq<Chunk>
    requires size > 0
  {
    if |walk| == 0 then []
    else
      var here := if DirSkipped(walk[0]) then [] else DirChunks(walk[0], walk[0].files, size, ignoreTests, isIgnored);
      here + SegmentCodebase(walk[1..], size, ignoreTests, isIgnored)
  }

  /** A file that survives the filters, with its path and text. */
  datatype KeptFile = KeptFile(path: string, text: string)

  function KeptInDir(d: WalkDir, files: seq<WalkFile>, ignoreTests: bool, isIgnored: string -> bool): seq<KeptFile> {
    if |files| == 0 then []
    else
      var f := files[0];
      (if FileKept(d, f, ignoreTests, isIgnored) then [KeptFile(RelPath(d, f), f.content.value)] else [])
      + KeptInDir(d, files[1..], ignoreTests, isIgnored)
  }

  /** The files that survive the walk's filters, in walk order. */
  function KeptFiles(walk: seq<WalkDir>, ignoreTests: bool, isIgnored: string -> bool): seq<KeptFile> {
    if |walk| == 0 then []
    else KeptInDir(walk[0], walk[0].files, ignoreTests, isIgnored) + KeptFiles(walk[1..], ignoreTests, isIgnored)
  }

  /** The chunks of a list of kept files, file after file. */
  function ChunksOfFiles(kfs: seq<KeptFile>, size: nat): seq<Chunk>
    requires size > 0
  {
    if |kfs| == 0 then []
    else FileChunks(kfs[0].path, ReadLines(kfs[0].text), size) + ChunksOfFiles(kfs[1..], size)
  }

  lemma {:induction false} ChunksOfFilesAppend(a: seq<KeptFile>, b: seq<KeptFile>, size: nat)
    requires size > 0
    ensures ChunksOfFiles(a + b, size) == ChunksOfFiles(a, size) + ChunksOfFiles(b, size)
  {
    if |a| > 0 {
      assert (a + b)[1..] == a[1..] + b;
      ChunksOfFilesAppend(a[1..], b, size);
    } else {
      assert a + b == b;
    }
  }

  lemma {:induction false} DirChunksAreKeptFileChunks(d: WalkDir, files: seq<WalkFile>, size: nat, ignoreTests: bool, isIgnored: string -> bool)
    requires size > 0
    requires !DirSkipped(d)
    ensures DirChunks(d, files, size, ignoreTests, isIgnored) == ChunksOfFiles(KeptInDir(d, files, ignoreTests, isIgnored), size)
  {
    if |files| > 0 {
      var f := files[0];
      var head := if FileKept(d, f, ignoreTests, isIgnored) then [KeptFile(RelPath(d, f), f.content.value)] else [];
      DirChunksAreKeptFileChunks(d, files[1..], size, ignoreTests, isIgnored);
      ChunksOfFilesAppend(head, KeptInDir(d, files[1..], ignoreTests, isIgnored), size);
      if FileKept(d, f, ignoreTests, isIgnored) {
        assert ChunksOfFiles(head, size) == FileChunks(RelPath(d, f), ReadLines(f.content.value), size) + ChunksOfFiles([], size);
      }
    }
  }

  lemma {:induction false} SkippedDirKeepsNothing(d: WalkDir, files: seq<WalkFile>, ignoreTests: bool, isIgnored: string -> bool)
    requires DirSkipped(d)
    ensures KeptInDir(d, files, ignoreTests, isIgnored) == []
  {
    if |files| > 0 {
      SkippedDirKeepsNothing(d, files[1..], ignoreTests, isIgnored);
    }
  }

  /** The segmenter's output is the chunks of the kept files, one file's
      chunks after another's, in walk order: filtering first and chunking
      afterwards gives the same list. */
  lemma {:induction false} SegmentIsChunksOfKeptFiles(walk: seq<WalkDir>, size: nat, ignoreTests: bool, isIgnored: string -> bool)
    requires size > 0
    ensures SegmentCodebase(walk, size, ignoreTests, isIgnored) == ChunksOfFiles(KeptFiles(walk, ignoreTests, isIgnored), size)
  {
    if |walk| > 0 {
      var d := walk[0];
      SegmentIsChunksOfKeptFiles(walk[1..], size, ignoreTests, isIgnored);
      ChunksOfFilesAppend(KeptInDir(d, d.files, ignoreTests, isIgnored), KeptFiles(walk[1..], ignoreTests, isIgnored), size);
      if DirSkipped(d) {
        SkippedDirKeepsNothing(d, d.files, ignoreTests, isIgnored);
      } else {
        DirChunksAreKeptFileChunks(d, d.files, size, ignoreTests, isIgnored);
      }
    }
  }

  /** A kept file's chunks form one contiguous block of the output, preceded
      by the chunks of the kept files before it. */
  lemma {:induction false} KeptFileBlock(kfs: seq<KeptFile>, j: nat, size: nat)
    requires size > 0
    requires j < |kfs|
    ensures ChunksOfFiles(kfs, size)
      == ChunksOfFiles(kfs[..j], size) + FileChunks(kfs[j].path, ReadLines(kfs[j].text), size) + ChunksOfFiles(kfs[j + 1..], size)
  {
    assert kfs == kfs[..j] + [kfs[j]] + kfs[j + 1..];
    ChunksOfFilesAppend(kfs[..j] + [kfs[j]], kfs[j + 1..], size);
    ChunksOfFilesAppend(kfs[..j], [kfs[j]], size);
    assert ChunksOfFiles([kfs[j]], size) == FileChunks(kfs[j].path, ReadLines(kfs[j].text), size) + ChunksOfFiles([], size);
  }

  /** Every chunk of a file carries that file's path and its position in the file. */
  lemma FileChunkFields(path: string, lines: seq<string>, size: nat, i: nat)
    requires size > 0
    requires i < |FileChunks(path, lines, size)|
    ensures FileChunks(path, lines, size)[i].filePath == path
    ensures FileChunks(path, lines, size)[i].chunkIndex == i
  {
  }

  /** A file that fails the name filters or cannot be read is never kept,
      whatever directory it is in. */
  lemma FilteredFileNotKept(d: WalkDir, f: WalkFile, ignoreTests: bool, isIgnored: string -> bool)
    requires isIgnored(f.name) || (ignoreTests && Contains(Lower(f.name), "test")) || f.content.None?
    ensures !FileKept(d, f, ignoreTests, isIgnored)
  {
  }

  /** The test filter is a plain case-insensitive substring test on the
      name: "latest.py" is skipped as a test file, and so is "TEST_notes.md". */
  lemma NaiveTestFilter(pre: string, post: string)
    ensures Contains(Lower(pre + "test" + post), "test")
    ensures Contains(Lower(pre + "TEST" + post), "test")
  {
    LowerOfTest();
    LowerInside(pre, "test", post);
    LowerInside(pre, "TEST", post);
  }

  lemma LowerOfTest()
    ensures Lower("test") == "test" && Lower("TEST") == "test"
  {
  }

  lemma LowerInside(pre: string, w: string, post: string)
    requires |w| > 0
    ensures Contains(Lower(pre + w + post), Lower(w))
  {
    var name := pre + w + post;
    var low := Lower(name);
    assert low[|pre|..|pre| + |w|] == Lower(w) by {
      forall i | 0 <= i < |w| ensures low[|pre| + i] == Lower(w)[i] {
        assert name[|pre| + i] == w[i];
      }
    }
    ContainsAt(low, Lower(w), |pre|);
  }

  /** A directory is skipped exactly when its own path ends in ".git": the
      subdirectories of a skipped directory are still walked. */
  lemma GitSkipIsSuffixOnly()
    ensures DirSkipped(WalkDir("/repo/.git", [".git"], []))
    ensures !DirSkipped(WalkDir("/repo/.git/objects", [".git", "objects"], []))
    ensures DirSkipped(WalkDir("/repo/vendor/lib.git", ["vendor", "lib.git"], []))
  {
  }

  /** The 450-line scenario: windows of 200 lines give three chunks of 200,
      200 and 50 lines, numbered 0, 1, 2. */
  lemma FourHundredFiftyLines(path: string, lines: seq<string>)
    requires |lines| == 450
    ensures |FileChunks(path, lines, 200)| == 3
    ensures |Window(lines, 0, 200)| == 200 && |Window(lines, 200, 400)| == 200 && |Window(lines, 400, 600)| == 50
  {
    ChunkCount(path, lines, 200);
  }
}

=== FILE: store.dfy ===
/** The embeddings part of the SQLite database and the index files beside it.
    Each table is a sequence of rows in rowid order (an insert appends), and
    the primary and foreign keys of the schema are the invariant `Valid`. */
module Store {
  import opened Wrappers
  import Text

  type Id = string

  /** An embedding vector; components are integers, so "norm 0" means every component is 0. */
  type Vector = seq<int>

  /** A row of `file_chunks`. Every column is NOT NULL, so none is optional;
      `created_at` is left out. */
  datatype ChunkRow = ChunkRow(id: Id, projectId: string, repoPath: string, filePath: string, chunkIndex: int, chunkText: string)

  /** A row of `file_chunk_embeddings`. */
  datatype EmbeddingRow = EmbeddingRow(chunkId: Id, embedding: Vector, dim: int)

  /** A row of `faiss_index_mapping`. */
  datatype MappingRow = MappingRow(projectId: string, faissIndex: int, chunkId: Id)

  /** The three tables (present once `hasTables`) and the persisted indexes,
      keyed by file path, each the list of vectors in insertion order. */
  datatype Db = Db(
    hasTables: bool,
    chunks: seq<ChunkRow>,
    embeddings: seq<EmbeddingRow>,
    mappings: seq<MappingRow>,
    indexFiles: map<string, seq<Vector>>)

  /** What the embedding service returns for a list of texts: it may raise,
      return None, or return a list of vectors. */
  datatype EmbedOutcome = Raised | ReturnedNone | Returned(vectors: seq<Vector>)

  /** The errors a statement on these tables can raise. */
  datatype SqlError = NoSuchTable | ForeignKeyFailed

  function ChunkIds(rows: seq<ChunkRow>): set<Id> {
    set r | r in rows :: r.id
  }

  function EmbeddedIds(rows: seq<EmbeddingRow>): set<Id> {
    set e | e in rows :: e.chunkId
  }

  /** `id TEXT PRIMARY KEY` of `file_chunks`. */
  predicate ChunkKey(rows: seq<ChunkRow>) {
    forall i, j :: 0 <= i < j < |rows| ==> rows[i].id != rows[j].id
  }

  /** `PRIMARY KEY (chunk_id)` of `file_chunk_embeddings`. */
  predicate EmbeddingKey(rows: seq<EmbeddingRow>) {
    forall i, j :: 0 <= i < j < |rows| ==> rows[i].chunkId != rows[j].chunkId
  }

  /** `PRIMARY KEY (project_id, faiss_index)` of `faiss_index_mapping`. */
  predicate MappingKey(rows: seq<MappingRow>) {
    forall i, j :: 0 <= i < j < |rows| ==>
      rows[i].projectId != rows[j].projectId || rows[i].faissIndex != rows[j].faissIndex
  }

  /** Both `FOREIGN KEY (chunk_id) REFERENCES file_chunks (id)` clauses. */
  predicate References(db: Db) {
    (forall e :: e in db.embeddings ==> e.chunkId in ChunkIds(db.chunks)) &&
    (forall m :: m in db.mappings ==> m.chunkId in ChunkIds(db.chunks))
  }

  /** The schema's constraints; before the tables exist there are no rows. */
  predicate Valid(db: Db) {
    (!db.hasTables ==> db.chunks == [] && db.embeddings == [] && db.mappings == []) &&
    ChunkKey(db.chunks) && EmbeddingKey(db.embeddings) && MappingKey(db.mappings) &&
    References(db)
  }

  /** The path `os.path.join("bin", f"{project_id}_index.faiss")`: a project
      id starting with "/" makes the joined path absolute and drops "bin". */
  function IndexPath(projectId: string): (path: string)
    ensures Text.EndsWith(path, "_index.faiss")
    ensures |projectId| == 0 || projectId[0] != '/' ==> Text.StartsWith(path, "bin/")
  {
    if |projectId| > 0 && projectId[0] == '/' then projectId + "_index.faiss"
    else "bin/" + projectId + "_index.faiss"
  }

  /** `create_embeddings_tables`: every statement is `IF NOT EXISTS`, so
      existing rows are kept, and it never raises. */
  function CreateEmbeddingsTables(db: Db): (r: Db)
    ensures r.hasTables
    ensures r.chunks == db.chunks && r.embeddings == db.embeddings
    ensures r.mappings == db.mappings && r.indexFiles == db.indexFiles
    ensures Valid(db) ==> Valid(r)
  {
    db.(hasTables := true)
  }

  lemma CreateTablesIdempotent(db: Db)
    ensures CreateEmbeddingsTables(CreateEmbeddingsTables(db)) == CreateEmbeddingsTables(db)
  {
  }

  /** `DELETE FROM faiss_index_mapping WHERE project_id = ?`. */
  function DeleteProjectMappings(rows: seq<MappingRow>, projectId: string): (r: seq<MappingRow>)
    ensures forall m :: m in r <==> m in rows && m.projectId != projectId
    ensures |r| <= |rows|
    ensures MappingKey(rows) ==> MappingKey(r)
  {
    if |rows| == 0 then []
    else
      var rest := DeleteProjectMappings(rows[1..], projectId);
      assert forall m :: m in rows <==> m == rows[0] || m in rows[1..];
      if rows[0].projectId == projectId then
        MappingKeyTail(rows);
        rest
      else
        MappingKeyTail(rows);
        if MappingKey(rows) then MappingKeyCons(rows[0], rest); [rows[0]] + rest
        else [rows[0]] + rest
  }

  /** A mapping row other than the first never repeats the first row's key. */
  lemma MappingKeyTail(rows: seq<MappingRow>)
    requires |rows| > 0
    ensures MappingKey(rows) ==> MappingKey(rows[1..])
    ensures MappingKey(rows) ==> forall m :: m in rows[1..] ==> m.projectId != rows[0].projectId || m.faissIndex != rows[0].faissIndex
  {
    if MappingKey(rows) {
      forall m | m in rows[1..] ensures m.projectId != rows[0].projectId || m.faissIndex != rows[0].faissIndex {
        var j :| 0 <= j < |rows[1..]| && rows[1..][j] == m;
        assert rows[j + 1] == m;
      }
    }
  }

  /** A row whose key no later row repeats can be put in front of a keyed table. */
  lemma MappingKeyCons(x: MappingRow, rest: seq<MappingRow>)
    requires MappingKey(rest)
    requires forall m :: m in rest ==> m.projectId != x.projectId || m.faissIndex != x.faissIndex
    ensures MappingKey([x] + rest)
  {
    var r := [x] + rest;
    forall i, j | 0 <= i < j < |r| ensures r[i].projectId != r[j].projectId || r[i].faissIndex != r[j].faissIndex {
      if i == 0 {
        assert r[j] == rest[j - 1] && r[j] in rest;
      } else {
        assert r[i] == rest[i - 1] && r[j] == rest[j - 1];
      }
    }
  }

  /** `DELETE FROM faiss_index_mapping`. */
  function DeleteMappingsStep(db: Db): (r: Result<Db, SqlError>)
    ensures r.Ok? <==> db.hasTables
    ensures r.Ok? ==> r.value.mappings == [] && r.value.chunks == db.chunks && r.value.embeddings == db.embeddings
    ensures r.Ok? && Valid(db) ==> Valid(r.value)
  {
    if !db.hasTables then Err(NoSuchTable) else Ok(db.(mappings := []))
  }

  /** `DELETE FROM file_chunk_embeddings`: no key refers to this table. */
  function DeleteEmbeddingsStep(db: Db): (r: Result<Db, SqlError>)
    ensures r.Ok? <==> db.hasTables
    ensures r.Ok? ==> r.value.embeddings == [] && r.value.chunks == db.chunks && r.value.mappings == db.mappings
    ensures r.Ok? && Valid(db) ==> Valid(r.value)
  {
    if !db.hasTables then Err(NoSuchTable) else Ok(db.(embeddings := []))
  }

  /** Some embedding or mapping row refers to an existing chunk row. */
  predicate ChunkReferenced(db: Db) {
    (exists e :: e in db.embeddings && e.chunkId in ChunkIds(db.chunks)) ||
    (exists m :: m in db.mappings && m.chunkId in ChunkIds(db.chunks))
  }

  /** Under the foreign keys, any embedding or mapping row refers to an existing chunk. */
  lemma ReferencedWhenRowsExist(db: Db)
    ensures Valid(db) ==> (ChunkReferenced(db) <==> db.embeddings != [] || db.mappings != [])
  {
    if db.embeddings != [] {
      assert db.embeddings[0] in db.embeddings;
    }
    if db.mappings != [] {
      assert db.mappings[0] in db.mappings;
    }
  }

  /** `DELETE FROM file_chunks`, refused while another row still refers to a chunk. */
  function DeleteChunksStep(db: Db): (r: Result<Db, SqlError>)
    ensures r.Ok? <==> db.hasTables && !ChunkReferenced(db)
    ensures Valid(db) && db.hasTables ==> (r.Ok? <==> db.embeddings == [] && db.mappings == [])
    ensures r.Ok? ==> r.value.chunks == [] && r.value.embeddings == db.embeddings && r.value.mappings == db.mappings
    ensures r.Ok? && Valid(db) ==> Valid(r.value)
  {
    ReferencedWhenRowsExist(db);
    if !db.hasTables then Err(NoSuchTable)
    else if ChunkReferenced(db) then Err(ForeignKeyFailed)
    else Ok(db.(chunks := []))
  }

  /** `delete_all_embeddings`: the three deletes in one transaction, rolled
      back to the starting state when one of them raises. */
  function DeleteAllEmbeddings(db: Db): (r: Db)
    ensures r.hasTables == db.hasTables && r.indexFiles == db.indexFiles
    ensures Valid(db) ==> Valid(r)
  {
    match DeleteMappingsStep(db)
    case Err(_) => db
    case Ok(d1) =>
      match DeleteEmbeddingsStep(d1)
      case Err(_) => db
      case Ok(d2) =>
        match DeleteChunksStep(d2)
        case Err(_) => db
        case Ok(d3) => d3
  }

  /** With the tables present every step succeeds, because mappings and
      embeddings are gone before the chunks they refer to; without them the
      first delete raises and nothing changes. */
  lemma DeleteAllEmptiesTables(db: Db)
    ensures db.hasTables ==> DeleteAllEmbeddings(db).chunks == []
    ensures db.hasTables ==> DeleteAllEmbeddings(db).embeddings == []
    ensures db.hasTables ==> DeleteAllEmbeddings(db).mappings == []
    ensures !db.hasTables ==> DeleteAllEmbeddings(db) == db
  {
  }

  /** The order matters: deleting the chunks first is refused by the foreign keys. */
  lemma ChunksFirstIsRefused(db: Db)
    requires Valid(db) && db.hasTables && db.embeddings != []
    ensures DeleteChunksStep(db) == Err(ForeignKeyFailed)
  {
    assert db.embeddings[0] in db.embeddings;
  }

  /** The first row of `file_chunks` with the given id. */
  function FindChunk(rows: seq<ChunkRow>, id: Id): (r: Option<ChunkRow>)
    ensures r.Some? <==> id in ChunkIds(rows)
    ensures r.Some? ==> r.value in rows && r.value.id == id
  {
    if |rows| == 0 then None
    else if rows[0].id == id then Some(rows[0])
    else
      assert ChunkIds(rows) == {rows[0].id} + ChunkIds(rows[1..]) by {
        assert forall r :: r in rows <==> r == rows[0] || r in rows[1..];
      }
      FindChunk(rows[1..], id)
  }

  /** With unique ids the row found is the only row with that id. */
  lemma FindChunkUnique(rows: seq<ChunkRow>, k: nat)
    requires ChunkKey(rows) && k < |rows|
    ensures FindChunk(rows, rows[k].id) == Some(rows[k])
  {
    var r := FindChunk(rows, rows[k].id).value;
    var i :| 0 <= i < |rows| && rows[i] == r;
    assert i == k;
  }

  /** Appending rows does not change what an earlier id resolves to. */
  lemma {:induction false} FindChunkAppend(rows: seq<ChunkRow>, more: seq<ChunkRow>, id: Id)
    requires id in ChunkIds(rows)
    ensures FindChunk(rows + more, id) == FindChunk(rows, id)
  {
    if rows[0].id != id {
      assert (rows + more)[1..] == rows[1..] + more;
      assert ChunkIds(rows) == {rows[0].id} + ChunkIds(rows[1..]) by {
        assert forall r :: r in rows <==> r == rows[0] || r in rows[1..];
      }
      FindChunkAppend(rows[1..], more, id);
    }
  }

  /** The vector stored for a chunk id: the first `file_chunk_embeddings` row with that id. */
  function EmbeddingOf(rows: seq<EmbeddingRow>, id: Id): (r: Option<Vector>)
    ensures r.Some? <==> id in EmbeddedIds(rows)
    ensures r.Some? ==> exists e :: e in rows && e.chunkId == id && e.embedding == r.value
  {
    if |rows| == 0 then None
    else if rows[0].chunkId == id then Some(rows[0].embedding)
    else
      assert EmbeddedIds(rows) == {rows[0].chunkId} + EmbeddedIds(rows[1..]) by {
        assert forall e :: e in rows <==> e == rows[0] || e in rows[1..];
      }
      EmbeddingOf(rows[1..], id)
  }

  /** Under the embeddings' primary key, the lookup finds the one row with that id. */
  lemma EmbeddingOfRow(rows: seq<EmbeddingRow>, e: EmbeddingRow)
    requires EmbeddingKey(rows) && e in rows
    ensures EmbeddingOf(rows, e.chunkId) == Some(e.embedding)
  {
    var k :| 0 <= k < |rows| && rows[k] == e;
    assert e.chunkId in EmbeddedIds(rows);
    var f :| f in rows && f.chunkId == e.chunkId && f.embedding == EmbeddingOf(rows, e.chunkId).value;
    var i :| 0 <= i < |rows| && rows[i] == f;
    assert i == k;
  }

  /** The chunk id mapped to index position `pos` of a project: the first
      `faiss_index_mapping` row with that key. */
  function MappedChunk(rows: seq<MappingRow>, projectId: string, pos: int): (r: Option<Id>)
    ensures r.Some? ==> exists m :: m in rows && m.projectId == projectId && m.faissIndex == pos && m.chunkId == r.value
    ensures r.None? ==> forall m :: m in rows ==> m.projectId != projectId || m.faissIndex != pos
  {
    if |rows| == 0 then None
    else if rows[0].projectId == projectId && rows[0].faissIndex == pos then Some(rows[0].chunkId)
    else
      assert forall m :: m in rows <==> m == rows[0] || m in rows[1..];
      MappedChunk(rows[1..], projectId, pos)
  }

  /** Under the mappings' primary key, the lookup finds the one row with that key. */
  lemma MappedChunkRow(rows: seq<MappingRow>, m: MappingRow)
    requires MappingKey(rows) && m in rows
    ensures MappedChunk(rows, m.projectId, m.faissIndex) == Some(m.chunkId)
  {
    var k :| 0 <= k < |rows| && rows[k] == m;
    var f :| f in rows && f.projectId == m.projectId && f.faissIndex == m.faissIndex && f.chunkId == MappedChunk(rows, m.projectId, m.faissIndex).value;
    var i :| 0 <= i < |rows| && rows[i] == f;
    assert i == k;
  }
}

=== FILE: text.dfy ===
/** The Python string operations the modelled code relies on, written out
    over `seq<char>`: joining, prefix/suffix/substring tests, ASCII case
    mapping, slicing with Python's index normalisation, `split`, `strip`
    and `replace`. */
module Text {

  /** `"".join(ss)`. */
  function Concat(ss: seq<string>): string {
    if |ss| == 0 then "" else ss[0] + Concat(ss[1..])
  }

  lemma {:induction false} ConcatAppend(a: seq<string>, b: seq<string>)
    ensures Concat(a + b) == Concat(a) + Concat(b)
  {
    if |a| == 0 {
      assert a + b == b;
    } else {
      assert (a + b)[1..] == a[1..] + b;
      ConcatAppend(a[1..], b);
    }
  }

  lemma ConcatSingle(s: string)
    ensures Concat([s]) == s
  {
    assert [s][1..] == [];
  }

  /** `sep.join(ss)`. */
  function Join(sep: string, ss: seq<string>): string {
    if |ss| == 0 then ""
    else if |ss| == 1 then ss[0]
    else ss[0] + sep + Join(sep, ss[1..])
  }

  predicate StartsWith(s: string, prefix: string) {
    prefix <= s
  }

  predicate EndsWith(s: string, suffix: string) {
    |suffix| <= |s| && s[|s| - |suffix|..] == suffix
  }

  /** Python's `sub in s`. */
  predicate Contains(s: string, sub: string)
    decreases |s|
  {
    sub <= s || (|s| > 0 && Contains(s[1..], sub))
  }

  /** An occurrence at any offset is found by `Contains`. */
  lemma {:induction false} ContainsAt(s: string, sub: string, k: nat)
    requires k <= |s| && sub <= s[k..]
    ensures Contains(s, sub)
    decreases k
  {
    if k > 0 {
      assert s[1..][k - 1..] == s[k..];
      ContainsAt(s[1..], sub, k - 1);
    }
  }

  /** Python's `str.lower()` restricted to ASCII letters. */
  function LowerChar(c: char): char {
    if 'A' <= c <= 'Z' then (c as int + 32) as char else c
  }

  function Lower(s: string): (r: string)
    ensures |r| == |s|
    ensures forall i :: 0 <= i < |s| ==> r[i] == LowerChar(s[i])
  {
    if |s| == 0 then "" else [LowerChar(s[0])] + Lower(s[1..])
  }

  /** Text without capitals is its own lower case. */
  lemma LowerKeeps(s: string)
    requires forall i :: 0 <= i < |s| ==> !('A' <= s[i] <= 'Z')
    ensures Lower(s) == s
  {
  }

  /** Python's `str.upper()` restricted to ASCII letters. */
  function UpperChar(c: char): char {
    if 'a' <= c <= 'z' then (c as int - 32) as char else c
  }

  function Upper(s: string): (r: string)
    ensures |r| == |s|
    ensures forall i :: 0 <= i < |s| ==> r[i] == UpperChar(s[i])
  {
    if |s| == 0 then "" else [UpperChar(s[0])] + Upper(s[1..])
  }

  /** Python's normalisation of a slice bound against a length:
      negative bounds count from the end, and both are clamped to `[0, len]`. */
  function SliceBound(i: int, len: nat): (r: nat)
    ensures r <= len
  {
    if i < 0 then (if i + len < 0 then 0 else i + len)
    else if i > len then len else i
  }

  /** Python's `s[start:end]` on a string or a list. */
  function Slice<T>(s: seq<T>, start: int, end: int): (r: seq<T>)
    ensures |r| <= |s|
  {
    var a := SliceBound(start, |s|);
    var b := SliceBound(end, |s|);
    if a < b then s[a..b] else []
  }

  /** A suffix is the slice up to a later point followed by the suffix from there. */
  lemma SuffixSplit<T>(s: seq<T>, a: nat, b: nat)
    requires a <= b <= |s|
    ensures s[a..] == s[a..b] + s[b..]
  {
  }

  /** Concatenation regroups freely. */
  lemma AppendAssoc<T>(x: seq<T>, y: seq<T>, z: seq<T>)
    ensures x + (y + z) == (x + y) + z
  {
  }

  /** Dropping a prefix leaves what followed it. */
  lemma DropPrefix<T>(p: seq<T>, x: seq<T>)
    ensures (p + x)[|p|..] == x
  {
  }

  /** A suffix of `a`, extended by `b`, is a suffix of `a + b`. */
  lemma SuffixAppend<T>(a: seq<T>, b: seq<T>, k: nat)
    requires k <= |a|
    ensures (a + b)[k..] == a[k..] + b
  {
  }

  /** A sequence that starts with `a` and ends with `b`, with room for both,
      is `a`, the part between, and `b`. */
  lemma Framed<T>(s: seq<T>, a: seq<T>, b: seq<T>)
    requires |s| >= |a| + |b| && a <= s && s[|s| - |b|..] == b
    ensures s == a + s[|a|..|s| - |b|] + b
  {
  }

  /** `a + x + b` starts with `a`, ends with `b`, and holds `x` between them. */
  lemma FrameParts<T>(a: seq<T>, x: seq<T>, b: seq<T>)
    ensures var s := a + x + b;
      |s| >= |a| + |b| && a <= s && s[|s| - |b|..] == b && s[|a|..|s| - |b|] == x
  {
  }

  /** A sequence is its prefix up to a point followed by the rest. */
  lemma PrefixSplit<T>(s: seq<T>, k: nat)
    requires k <= |s|
    ensures s == s[..k] + s[k..]
  {
  }

  /** A sequence around one of its positions. */
  lemma SplitAround<T>(s: seq<T>, k: nat)
    requires k < |s|
    ensures s == s[..k] + [s[k]] + s[k + 1..]
  {
  }

  /** What a sequence lacks, its prefixes lack. */
  lemma PrefixLacks<T>(p: seq<T>, s: seq<T>, x: T)
    requires p <= s && x !in s
    ensures x !in p
  {
    assert forall j :: 0 <= j < |p| ==> p[j] == s[j];
  }

  /** A common prefix keeps a prefix relation. */
  lemma PrefixAppend<T>(a: seq<T>, p: seq<T>, b: seq<T>)
    requires p <= b
    ensures a + p <= a + b
  {
    assert (a + b)[..|a + p|] == a + b[..|p|];
  }

  /** The head and tail of `a + b` when `a` is not empty. */
  lemma AppendHeadTail<T>(a: seq<T>, b: seq<T>)
    requires |a| > 0
    ensures (a + b)[0] == a[0] && (a + b)[1..] == a[1..] + b
  {
  }

  /** Python's `s[:n]` for `n >= 0`. */
  function Take<T>(s: seq<T>, n: nat): (r: seq<T>)
    ensures |r| == if n < |s| then n else |s|
    ensures r <= s
  {
    Slice(s, 0, n)
  }

  /** Python's `s.split(c)` for a one-character separator: never empty,
      and the pieces joined back with `c` give `s`. */
  function Split(s: string, c: char): (r: seq<string>)
    ensures |r| >= 1
    decreases |s|
  {
    if |s| == 0 then [""]
    else
      var rest := Split(s[1..], c);
      if s[0] == c then [""] + rest else [[s[0]] + rest[0]] + rest[1..]
  }

  /** Joining the pieces of `s.split(c)` with `c` gives back `s`. */
  lemma {:induction false} SplitJoin(s: string, c: char)
    ensures Join([c], Split(s, c)) == s
    decreases |s|
  {
    if |s| > 0 {
      var rest := Split(s[1..], c);
      SplitJoin(s[1..], c);
      if s[0] == c {
        JoinCons([c], "", rest);
      } else {
        JoinExtendHead([c], [s[0]], rest);
      }
      assert s == [s[0]] + s[1..];
    }
  }

  /** No piece of `s.split(c)` contains `c`. */
  lemma {:induction false} SplitPiecesFree(s: string, c: char)
    ensures forall k :: 0 <= k < |Split(s, c)| ==> c !in Split(s, c)[k]
    decreases |s|
  {
    if |s| > 0 {
      var rest := Split(s[1..], c);
      SplitPiecesFree(s[1..], c);
      var r := Split(s, c);
      if s[0] == c {
        assert r == [""] + rest;
        assert forall k :: 0 < k < |r| ==> r[k] == rest[k - 1];
      } else {
        assert r == [[s[0]] + rest[0]] + rest[1..];
        assert forall k :: 0 < k < |r| ==> r[k] == rest[k];
      }
    }
  }

  lemma JoinCons(sep: string, x: string, ss: seq<string>)
    requires |ss| > 0
    ensures Join(sep, [x] + ss) == x + sep + Join(sep, ss)
  {
    assert ([x] + ss)[1..] == ss;
  }

  /** Prefixing the first piece prefixes the joined text. */
  lemma JoinExtendHead(sep: string, a: string, ss: seq<string>)
    requires |ss| > 0
    ensures Join(sep, [a + ss[0]] + ss[1..]) == a + Join(sep, ss)
  {
    if |ss| > 1 {
      JoinCons(sep, a + ss[0], ss[1..]);
    } else {
      assert [a + ss[0]] + ss[1..] == [a + ss[0]];
    }
  }

  /** `s.split(c)` is the text before the first `c` followed by the pieces of the rest. */
  lemma {:induction false} SplitAtFirst(s: string, c: char)
    ensures var k := Find(s, c);
      if k < 0 then Split(s, c) == [s] else Split(s, c) == [s[..k]] + Split(s[k + 1..], c)
    decreases |s|
  {
    if |s| > 0 && s[0] != c {
      var t := s[1..];
      SplitAtFirst(t, c);
      var k := Find(t, c);
      var rest := Split(t, c);
      assert Split(s, c) == [[s[0]] + rest[0]] + rest[1..];
      if k >= 0 {
        SplitStep(s, c, k);
      } else {
        assert s == [s[0]] + t;
      }
    } else if |s| > 0 {
      assert Find(s, c) == 0 && s[..0] == "";
    }
  }

  /** The inductive step of `SplitAtFirst` when the tail holds a separator. */
  lemma SplitStep(s: string, c: char, k: nat)
    requires |s| > 0 && s[0] != c && k == Find(s[1..], c)
    requires Split(s[1..], c) == [s[1..][..k]] + Split(s[1..][k + 1..], c)
    ensures Find(s, c) == k + 1
    ensures Split(s, c) == [s[..k + 1]] + Split(s[k + 2..], c)
  {
    var t := s[1..];
    assert s[..k + 1] == [s[0]] + t[..k];
    assert s[k + 2..] == t[k + 1..];
  }

  /** Splitting pieces joined with `c` gives them back when none holds `c`. */
  lemma {:induction false} JoinSplit(ss: seq<string>, c: char)
    requires |ss| > 0
    requires forall i :: 0 <= i < |ss| ==> c !in ss[i]
    ensures Split(Join([c], ss), c) == ss
    decreases |ss|
  {
    var x := ss[0];
    if |ss| == 1 {
      NoSeparatorOnePiece(x, c);
    } else {
      var rest := ss[1..];
      JoinSplit(rest, c);
      var s := Join([c], ss);
      assert s == x + [c] + Join([c], rest);
      assert s[..|x|] == x && s[|x|] == c;
      FindUnique(s, c, |x|);
      SplitAtFirst(s, c);
      assert s[|x| + 1..] == Join([c], rest);
      assert ss == [x] + rest;
    }
  }

  /** A text without `c` splits into itself. */
  lemma NoSeparatorOnePiece(s: string, c: char)
    requires c !in s
    ensures Split(s, c) == [s]
  {
    SplitAtFirst(s, c);
  }

  /** The last piece of a text ending in `c` followed by `c`-free `b` is `b`. */
  lemma {:induction false} SplitLastPiece(x: string, c: char, b: string)
    requires c !in b
    ensures |Split(x + [c] + b, c)| >= 2
    ensures Split(x + [c] + b, c)[|Split(x + [c] + b, c)| - 1] == b
    decreases |x|
  {
    var s := x + [c] + b;
    if |x| == 0 {
      assert s == [c] + b && s[1..] == b;
      NoSeparatorOnePiece(b, c);
    } else {
      assert s[1..] == x[1..] + [c] + b;
      SplitLastPiece(x[1..], c, b);
    }
  }

  /** `(x + c + b).split(c)[-1]` is `b` when `b` holds no `c`. */
  lemma LastPieceAfter(x: string, c: char, b: string)
    requires c !in b
    ensures LastPiece(x + [c] + b, c) == b
  {
    SplitLastPiece(x, c, b);
  }

  /** `s.split(c)[-1]`: the text after the last `c`. */
  function LastPiece(s: string, c: char): (r: string)
    ensures c !in r
  {
    SplitPiecesFree(s, c);
    Split(s, c)[|Split(s, c)| - 1]
  }

  /** `s.lstrip(c)` for one character. */
  function StripLeft(s: string, c: char): (r: string)
    ensures |r| == 0 || r[0] != c
    decreases |s|
  {
    if |s| > 0 && s[0] == c then StripLeft(s[1..], c) else s
  }

  /** `s.rstrip(c)` for one character. */
  function StripRight(s: string, c: char): (r: string)
    ensures |r| == 0 || r[|r| - 1] != c
    ensures r <= s
    decreases |s|
  {
    if |s| > 0 && s[|s| - 1] == c then StripRight(s[..|s| - 1], c) else s
  }

  /** `s.strip(c)` for one character. */
  function Strip(s: string, c: char): (r: string)
    ensures |r| == 0 || (r[0] != c && r[|r| - 1] != c)
  {
    var l := StripLeft(s, c);
    var r := StripRight(l, c);
    assert |r| > 0 ==> r[0] == l[0];
    r
  }

  /** Python's `s.replace(pat, rep)`: occurrences are found left to right and
      do not overlap; text created by a replacement is not searched again. */
  function ReplaceAll(s: string, pat: string, rep: string): string
    requires |pat| > 0
    decreases |s|
  {
    if |s| < |pat| then s
    else if pat <= s then rep + ReplaceAll(s[|pat|..], pat, rep)
    else [s[0]] + ReplaceAll(s[1..], pat, rep)
  }

  /** Python's `str.find(c)`, or `-1`. */
  function Find(s: string, c: char): (r: int)
    ensures -1 <= r < |s|
    ensures r == -1 <==> c !in s
    ensures r >= 0 ==> s[r] == c && c !in s[..r]
    decreases |s|
  {
    if |s| == 0 then -1
    else if s[0] == c then 0
    else
      var k := Find(s[1..], c);
      assert k >= 0 ==> s[..k + 1] == [s[0]] + s[1..][..k];
      if k < 0 then -1 else k + 1
  }

  /** `Find` is the first occurrence: any occurrence with none before it is the one found. */
  lemma {:induction false} FindUnique(s: string, c: char, j: nat)
    requires j < |s| && s[j] == c && c !in s[..j]
    ensures Find(s, c) == j
    decreases j
  {
    if j > 0 {
      assert s[..j][0] == s[0];
      assert s[1..][..j - 1] == s[1..j];
      assert forall x :: x in s[1..j] ==> x in s[..j];
      FindUnique(s[1..], c, j - 1);
    }
  }

  predicate IsDigit(c: char) {
    '0' <= c <= '9'
  }

  predicate AllDigits(s: string) {
    forall i :: 0 <= i < |s| ==> IsDigit(s[i])
  }

  /** `int(ds, 10)` for a run of ASCII digits. */
  function DecimalValue(ds: string): (n: nat)
    requires AllDigits(ds)
    decreases |ds|
  {
    if |ds| == 0 then 0
    else DecimalValue(ds[..|ds| - 1]) * 10 + (ds[|ds| - 1] as int - '0' as int)
  }

  /** Python's `str(n)` for a natural number. */
  function NatToString(n: nat): (s: string)
    ensures |s| > 0 && AllDigits(s)
    decreases n
  {
    var d := [('0' as int + n % 10) as char];
    if n < 10 then d else NatToString(n / 10) + d
  }

  lemma {:induction false} DecimalRoundTrip(n: nat)
    ensures DecimalValue(NatToString(n)) == n
    decreases n
  {
    var s := NatToString(n);
    if n >= 10 {
      DecimalRoundTrip(n / 10);
      assert s[..|s| - 1] == NatToString(n / 10);
    }
  }
}

=== FILE: ui.dfy ===
/** The pure helpers of the two Streamlit views (lemma/views/ui.py and
    views/ui.py): the titles shown for a saved review, the patch lists of
    the per-file and combined modes, the escaping that embeds a diff in the
    viewer's JavaScript template literal, the viewer height and the slice
    that extracts a Mermaid diagram. The patch lists, the escaping, the
    height and the Mermaid slice have the same code in both views and are
    modelled once; the review title is lemma/views/ui.py's `get_review_title`
    and the sidebar title is views/ui.py's. */
module ReviewUi {
  import opened Wrappers
  import Text
  import Exceptions
  import Processing

  // ---------------------------------------------------------------- titles

  /** `s[:n] + "..."` when `s` is longer than `n`, else `s`. */
  function Truncate(s: string, n: nat): (r: string)
    ensures |s| <= n ==> r == s
    ensures |s| > n ==> |r| == n + 3 && r[..n] == s[..n] && r[n..] == "..."
  {
    if |s| > n then s[..n] + "..." else s
  }

  /** A title truncated once is not shortened again. */
  lemma TruncateIdempotent(s: string, n: nat)
    ensures Truncate(Truncate(s, n), n) == Truncate(s, n)
  {
    if |s| > n {
      var t := Truncate(s, n);
      assert t[..n] == s[..n];
    }
  }

  /** How `get_review_title` shows each URL type: the text put between the
      template and the URL's last segment, and how many characters of that
      segment it keeps. */
  function UrlTypeShape(urlType: string): Option<(string, nat)> {
    if urlType == "file_path" then Some((" ", 14))
    else if urlType == "folder_path" then Some((" /", 14))
    else if urlType == "branch" then Some((" ", 14))
    else if urlType == "pull_request" then Some((" pull/", 14))
    else if urlType == "commit" then Some((" ", 7))
    else None
  }

  /** The URL type is one `get_review_title` shows from the URL. */
  predicate ShownFromUrl(urlType: Option<string>) {
    Truthy(urlType) && UrlTypeShape(urlType.value).Some?
  }

  /** `None + str` in Python. */
  const NoneTemplate := Exceptions.TypeError("unsupported operand type(s) for +: 'NoneType' and 'str'")

  /** Prompts longer than this are truncated in a review's title. */
  const PromptTitleLimit := 26

  /** `get_review_title(review)`, from the review's `github_url`,
      `github_url_type`, `prompt_template` and `prompt`; the result is
      `None` when the fallback reaches a missing template. */
  function ReviewTitle(url: string, urlType: Option<string>, template: Option<string>, prompt: Option<string>)
    : (r: Result<Option<string>, Exceptions.Raised>)
    ensures r.Err? <==> ShownFromUrl(urlType) && template.None?
    ensures r.Err? ==> r.error == NoneTemplate
    ensures ShownFromUrl(urlType) && r.Ok? ==>
      var (sep, limit) := UrlTypeShape(urlType.value).value;
      var last := Text.LastPiece(url, '/');
      var head := template.value + sep;
      r.value.Some? && head <= r.value.value
      && r.value.value[|head|..] <= last
      && |r.value.value| - |head| == (if limit < |last| then limit else |last|)
    ensures !ShownFromUrl(urlType) && Truthy(prompt) ==> r == Ok(Some(Truncate(prompt.value, PromptTitleLimit)))
    ensures !ShownFromUrl(urlType) && !Truthy(prompt) ==> r == Ok(template)
  {
    if ShownFromUrl(urlType) then
      var (sep, limit) := UrlTypeShape(urlType.value).value;
      if template.None? then Err(NoneTemplate)
      else Ok(Some(template.value + sep + Text.Take(Text.LastPiece(url, '/'), limit)))
    else if Truthy(prompt) && |prompt.value| > PromptTitleLimit then
      Ok(Some(prompt.value[..PromptTitleLimit] + "..."))
    else if Truthy(prompt) then Ok(prompt)
    else Ok(template)
  }

  /** A pull request's title ends with "pull/" and its number, in full when
      the number has at most 14 digits. */
  lemma {:induction false} PullRequestTitle(template: string, repo: string, number: string, prompt: Option<string>)
    requires '/' !in number && |number| <= 14
    ensures ReviewTitle(repo + "/pull/" + number, Some("pull_request"), Some(template), prompt)
      == Ok(Some(template + " pull/" + number))
  {
    assert repo + "/pull/" + number == (repo + "/pull") + ['/'] + number;
    Text.LastPieceAfter(repo + "/pull", '/', number);
    assert UrlTypeShape("pull_request") == Some((" pull/", 14));
    assert Text.Take(number, 14) == number;
  }

  /** A commit's title shows the first seven characters of its hash. */
  lemma {:induction false} CommitTitle(template: string, repo: string, hash: string, prompt: Option<string>)
    requires '/' !in hash && |hash| >= 7
    ensures ReviewTitle(repo + "/commit/" + hash, Some("commit"), Some(template), prompt)
      == Ok(Some(template + " " + hash[..7]))
  {
    assert repo + "/commit/" + hash == (repo + "/commit") + ['/'] + hash;
    Text.LastPieceAfter(repo + "/commit", '/', hash);
    assert UrlTypeShape("commit") == Some((" ", 7));
  }

  /** Without a URL type the title is the prompt, cut to 26 characters and
      "...", so it never exceeds 29 characters and starts as the prompt does. */
  lemma PromptTitleBounded(url: string, template: Option<string>, prompt: string)
    requires prompt != ""
    ensures var r := ReviewTitle(url, None, template, Some(prompt));
      r.Ok? && r.value.Some? && |r.value.value| <= PromptTitleLimit + 3
      && (if |prompt| <= PromptTitleLimit then r.value.value == prompt
          else r.value.value[..PromptTitleLimit] == prompt[..PromptTitleLimit])
  {
  }

  /** Templates longer than this are truncated in the sidebar. */
  const SidebarLimit := 22

  /** The sidebar label of a review row, from `review[4]` and `review[3]`:
      with `SELECT *` over the reviews table these are `prompt_template`
      and `github_url_type`. */
  function SidebarTitle(template: Option<string>, urlType: Option<string>): (r: Option<string>)
    ensures Truthy(template) ==> r.Some? && |r.value| <= SidebarLimit + 3
    ensures Truthy(template) ==> r == Some(Truncate(template.value, SidebarLimit))
    ensures !Truthy(template) ==> r == urlType
  {
    if Truthy(template) && |template.value| > SidebarLimit then Some(template.value[..SidebarLimit] + "...")
    else if Truthy(template) then template
    else urlType
  }

  // --------------------------------------------------------------- patches

  /** `get_individual_patches(diffs)`: the patches and names as given,
      which is what the processing view lists per file. */
  function IndividualPatches(diffs: Processing.DiffData): (r: (seq<string>, seq<string>))
    ensures r == Processing.GetPatches(diffs, true)
  {
    (diffs.patches, diffs.fileNames)
  }

  /** The second components of `zip(xs, ys)`: `zip` stops at the shorter list. */
  function ZipSeconds<A, B>(xs: seq<A>, ys: seq<B>): (r: seq<B>)
    ensures r == Text.Take(ys, |xs|)
    decreases |xs|
  {
    if |xs| == 0 || |ys| == 0 then [] else [ys[0]] + ZipSeconds(xs[1..], ys[1..])
  }

  /** `get_combined_patches(diffs)`: one patch joining, with newlines, the
      patches that have a file name, under the name "Combined Files". */
  function CombinedPatches(diffs: Processing.DiffData): (r: (seq<string>, seq<string>))
    ensures r.1 == [Processing.CombinedName] && |r.0| == 1
    ensures r.0[0] == Text.Join("\n", Text.Take(diffs.patches, |diffs.fileNames|))
  {
    ([Text.Join("\n", ZipSeconds(diffs.fileNames, diffs.patches))], [Processing.CombinedName])
  }

  /** With a name for every patch the view combines exactly as the
      processing view does. */
  lemma CombinedAgreesWithProcessing(diffs: Processing.DiffData)
    requires |diffs.fileNames| >= |diffs.patches|
    ensures CombinedPatches(diffs) == Processing.GetPatches(diffs, false)
  {
    assert Text.Take(diffs.patches, |diffs.fileNames|) == diffs.patches;
  }

  /** The combined patch splits back into the named patches when none of
      them spans lines. */
  lemma CombinedSplitsBack(diffs: Processing.DiffData)
    requires |diffs.fileNames| > 0 && |diffs.patches| > 0
    requires forall i :: 0 <= i < |diffs.patches| ==> '\n' !in diffs.patches[i]
    ensures Text.Split(CombinedPatches(diffs).0[0], '\n') == Text.Take(diffs.patches, |diffs.fileNames|)
  {
    var named := Text.Take(diffs.patches, |diffs.fileNames|);
    assert forall i :: 0 <= i < |named| ==> named[i] == diffs.patches[i];
    Text.JoinSplit(named, '\n');
  }

  // -------------------------------------------------------------- escaping

  /** `diff.replace("`", "\\`").replace("${", "${'$'}{")`: the text placed
      between the backticks of the diff viewer's `var diffString = `...``. */
  function EscapeDiff(diff: string): string {
    Text.ReplaceAll(Text.ReplaceAll(diff, "`", "\\`"), DollarBrace, Replacement)
  }

  const DollarBrace := "${"

  /** A substitution whose value is a dollar sign. */
  const DollarSubstitution := "${'$'}"

  const Replacement := DollarSubstitution + "{"

  /** Every backtick follows a backslash. */
  predicate BackticksEscaped(s: string) {
    forall i :: 0 <= i < |s| && s[i] == '`' ==> 0 < i && s[i - 1] == '\\'
  }

  /** The characters a JavaScript template literal denotes for the text
      between its backticks, for the forms the escaping produces: the
      escapes `\``, `\\` and `\$`, and the substitution `${'$'}`. It is
      `None` when a backtick ends the literal early, and for any other
      escape or substitution, whose reading is not modelled. */
  function ReadTemplate(s: string): (r: Option<string>)
    ensures r.Some? ==> |r.value| <= |s|
    decreases |s|
  {
    if |s| == 0 then Some("")
    else if s[0] == '`' then None
    else if s[0] == '\\' then
      if |s| >= 2 && (s[1] == '`' || s[1] == '\\' || s[1] == '$') then Prepend(s[1], ReadTemplate(s[2..]))
      else None
    else if DollarBrace <= s then
      if DollarSubstitution <= s then Prepend('$', ReadTemplate(s[|DollarSubstitution|..])) else None
    else Prepend(s[0], ReadTemplate(s[1..]))
  }

  function Prepend(c: char, o: Option<string>): (r: Option<string>)
    ensures r.Some? <==> o.Some?
    ensures r.Some? ==> r.value == [c] + o.value
  {
    if o.None? then None else Some([c] + o.value)
  }

  /** One character's escape: backticks always, backslashes only when
      `escapeBackslash` is set. */
  function EscapeChar(c: char, escapeBackslash: bool): string {
    if c == '`' then "\\`" else if c == '\\' && escapeBackslash then "\\\\" else [c]
  }

  /** The escaped text written in one left-to-right pass: each "${" becomes
      `Replacement`, every other character its `EscapeChar`. */
  function Encoded(d: string, escapeBackslash: bool): string
    decreases |d|
  {
    if |d| == 0 then ""
    else if DollarBrace <= d then Replacement + Encoded(d[2..], escapeBackslash)
    else EscapeChar(d[0], escapeBackslash) + Encoded(d[1..], escapeBackslash)
  }

  /** The escaping with backslashes doubled first, as a template literal needs. */
  function EscapeDiffCorrected(diff: string): string {
    EscapeDiff(Text.ReplaceAll(diff, "\\", "\\\\"))
  }

  /** `ReplaceAll` with a one-character pattern distributes over `+`. */
  lemma {:induction false} ReplaceCharConcat(x: string, y: string, c: char, rep: string)
    ensures Text.ReplaceAll(x + y, [c], rep) == Text.ReplaceAll(x, [c], rep) + Text.ReplaceAll(y, [c], rep)
    decreases |x|
  {
    if |x| > 0 {
      assert (x + y)[1..] == x[1..] + y;
      ReplaceCharHead(x + y, c, rep);
      ReplaceCharHead(x, c, rep);
      ReplaceCharConcat(x[1..], y, c, rep);
    } else {
      assert x + y == y;
    }
  }

  /** A one-character pattern is replaced character by character. */
  lemma ReplaceCharHead(s: string, c: char, rep: string)
    requires |s| > 0
    ensures Text.ReplaceAll(s, [c], rep) == (if s[0] == c then rep else [s[0]]) + Text.ReplaceAll(s[1..], [c], rep)
  {
    assert [c] <= s <==> s[0] == c;
  }

  /** The text before the "${" pass: backticks escaped, and backslashes
      doubled when `escapeBackslash` is set. */
  function BeforeDollarPass(d: string, escapeBackslash: bool): string {
    var doubled := if escapeBackslash then Text.ReplaceAll(d, "\\", "\\\\") else d;
    Text.ReplaceAll(doubled, "`", "\\`")
  }

  lemma BeforeDollarPassHead(d: string, escapeBackslash: bool)
    requires |d| > 0
    ensures BeforeDollarPass(d, escapeBackslash) == EscapeChar(d[0], escapeBackslash) + BeforeDollarPass(d[1..], escapeBackslash)
  {
    assert d == [d[0]] + d[1..];
    if escapeBackslash {
      var h := if d[0] == '\\' then "\\\\" else [d[0]];
      assert "\\" <= d <==> d[0] == '\\';
      assert Text.ReplaceAll(d, "\\", "\\\\") == h + Text.ReplaceAll(d[1..], "\\", "\\\\");
      ReplaceCharConcat(h, Text.ReplaceAll(d[1..], "\\", "\\\\"), '`', "\\`");
      if d[0] == '\\' {
        assert Text.ReplaceAll(h, "`", "\\`") == "\\\\" by {
          assert h[1..] == "\\";
          assert Text.ReplaceAll(h[1..], "`", "\\`") == "\\";
        }
      } else {
        assert Text.ReplaceAll(h, "`", "\\`") == EscapeChar(d[0], true) by {
          assert h[1..] == "";
        }
      }
    } else {
      assert "`" <= d <==> d[0] == '`';
    }
  }

  /** Replacing "${" leaves a leading character alone unless it begins "${". */
  lemma DollarPassHead(x: char, y: string)
    requires x != '$' || |y| == 0 || y[0] != '{'
    ensures Text.ReplaceAll([x] + y, DollarBrace, Replacement) == [x] + Text.ReplaceAll(y, DollarBrace, Replacement)
  {
    var s := [x] + y;
    assert s[1..] == y;
    assert !(DollarBrace <= s);
  }

  /** The two-pass replacement is the one-pass `Encoded`. */
  lemma {:induction false} PassesAreEncoded(d: string, escapeBackslash: bool)
    ensures Text.ReplaceAll(BeforeDollarPass(d, escapeBackslash), DollarBrace, Replacement) == Encoded(d, escapeBackslash)
    decreases |d|
  {
    if |d| == 0 {
      assert BeforeDollarPass(d, escapeBackslash) == "";
    } else if DollarBrace <= d {
      PassesAreEncoded(d[2..], escapeBackslash);
      PassesDollarCase(d, escapeBackslash);
    } else {
      PassesAreEncoded(d[1..], escapeBackslash);
      PassesCharCase(d, escapeBackslash);
    }
  }

  /** The step of `PassesAreEncoded` at a "${". */
  lemma PassesDollarCase(d: string, escapeBackslash: bool)
    requires DollarBrace <= d
    requires Text.ReplaceAll(BeforeDollarPass(d[2..], escapeBackslash), DollarBrace, Replacement) == Encoded(d[2..], escapeBackslash)
    ensures Text.ReplaceAll(BeforeDollarPass(d, escapeBackslash), DollarBrace, Replacement) == Encoded(d, escapeBackslash)
  {
    var t := BeforeDollarPass(d, escapeBackslash);
    BeforeDollarPassHead(d, escapeBackslash);
    BeforeDollarPassHead(d[1..], escapeBackslash);
    assert d[1..][1..] == d[2..];
    assert t == DollarBrace + BeforeDollarPass(d[2..], escapeBackslash);
    DollarPassMatch(BeforeDollarPass(d[2..], escapeBackslash));
  }

  /** The step of `PassesAreEncoded` at any other character. */
  lemma PassesCharCase(d: string, escapeBackslash: bool)
    requires |d| > 0 && !(DollarBrace <= d)
    requires Text.ReplaceAll(BeforeDollarPass(d[1..], escapeBackslash), DollarBrace, Replacement) == Encoded(d[1..], escapeBackslash)
    ensures Text.ReplaceAll(BeforeDollarPass(d, escapeBackslash), DollarBrace, Replacement) == Encoded(d, escapeBackslash)
  {
    var t := BeforeDollarPass(d, escapeBackslash);
    var rest := BeforeDollarPass(d[1..], escapeBackslash);
    BeforeDollarPassHead(d, escapeBackslash);
    if |d| > 1 {
      BeforeDollarPassHead(d[1..], escapeBackslash);
    }
    var e := EscapeChar(d[0], escapeBackslash);
    var encodedRest := Encoded(d[1..], escapeBackslash);
    assert Encoded(d, escapeBackslash) == e + encodedRest;
    if |e| == 1 {
      assert d[0] == '$' ==> |d| == 1 || d[1] != '{';
      assert e == [e[0]];
      DollarPassOne(e[0], rest, encodedRest);
    } else {
      assert e == [e[0], e[1]];
      DollarPassTwo(e[0], e[1], rest, encodedRest);
    }
  }

  lemma DollarPassOne(x: char, rest: string, encodedRest: string)
    requires x != '$' || |rest| == 0 || rest[0] != '{'
    requires Text.ReplaceAll(rest, DollarBrace, Replacement) == encodedRest
    ensures Text.ReplaceAll([x] + rest, DollarBrace, Replacement) == [x] + encodedRest
  {
    DollarPassHead(x, rest);
  }

  lemma DollarPassTwo(x: char, y: char, rest: string, encodedRest: string)
    requires x != '$' && y != '$'
    requires Text.ReplaceAll(rest, DollarBrace, Replacement) == encodedRest
    ensures Text.ReplaceAll([x, y] + rest, DollarBrace, Replacement) == [x, y] + encodedRest
  {
    DollarPassHead(y, rest);
    DollarPassHead(x, [y] + rest);
    assert [x, y] + rest == [x] + ([y] + rest);
    assert [x, y] + encodedRest == [x] + ([y] + encodedRest);
  }

  lemma DollarPassMatch(y: string)
    ensures Text.ReplaceAll(DollarBrace + y, DollarBrace, Replacement) == Replacement + Text.ReplaceAll(y, DollarBrace, Replacement)
  {
    assert (DollarBrace + y)[|DollarBrace|..] == y;
  }

  /** The source's escaping is `Encoded` without backslash doubling. */
  lemma EscapeDiffIsEncoded(diff: string)
    ensures EscapeDiff(diff) == Encoded(diff, false)
  {
    PassesAreEncoded(diff, false);
  }

  lemma EscapeDiffCorrectedIsEncoded(diff: string)
    ensures EscapeDiffCorrected(diff) == Encoded(diff, true)
  {
    PassesAreEncoded(diff, true);
  }

  lemma BackticksEscapedConcat(a: string, b: string)
    requires BackticksEscaped(a) && BackticksEscaped(b)
    ensures BackticksEscaped(a + b)
  {
    var s := a + b;
    forall i | 0 <= i < |s| && s[i] == '`'
      ensures 0 < i && s[i - 1] == '\\'
    {
      if i >= |a| {
        assert b[i - |a|] == '`';
      } else {
        assert a[i] == '`';
      }
    }
  }

  lemma {:induction false} EncodedEscapesBackticks(d: string, escapeBackslash: bool)
    ensures BackticksEscaped(Encoded(d, escapeBackslash))
    decreases |d|
  {
    if |d| > 0 {
      if DollarBrace <= d {
        EncodedEscapesBackticks(d[2..], escapeBackslash);
        ReplacementEscaped(Replacement);
        BackticksEscapedConcat(Replacement, Encoded(d[2..], escapeBackslash));
      } else {
        EncodedEscapesBackticks(d[1..], escapeBackslash);
        EscapeCharEscaped(d[0], escapeBackslash);
        BackticksEscapedConcat(EscapeChar(d[0], escapeBackslash), Encoded(d[1..], escapeBackslash));
      }
    }
  }

  lemma ReplacementEscaped(r: string)
    requires r == Replacement
    ensures BackticksEscaped(r)
  {
    assert '`' !in r;
  }

  lemma EscapeCharEscaped(c: char, escapeBackslash: bool)
    ensures BackticksEscaped(EscapeChar(c, escapeBackslash))
  {
  }

  /** Every backtick of the escaped diff follows a backslash. */
  lemma EscapeDiffEscapesBackticks(diff: string)
    ensures BackticksEscaped(EscapeDiff(diff))
  {
    EscapeDiffIsEncoded(diff);
    EncodedEscapesBackticks(diff, false);
  }

  /** As written: a backslash before a backtick is not itself escaped, so
      the literal reads `\\` as one backslash and the backtick then ends it,
      although every backtick of the output follows a backslash. */
  lemma BackslashBacktickEndsLiteral(diff: string)
    requires diff == "\\`"
    ensures BackticksEscaped(EscapeDiff(diff))
    ensures ReadTemplate(EscapeDiff(diff)) == None
  {
    EscapeDiffEscapesBackticks(diff);
    EscapeDiffIsEncoded(diff);
    assert !(DollarBrace <= diff) && !(DollarBrace <= diff[1..]);
    assert Encoded(diff, false) == "\\" + "\\`" + "";
    var s := EscapeDiff(diff);
    assert s[2..] == "`";
  }

  /** A diff without backslashes reads back unchanged from the source's
      escaping. */
  lemma {:induction false} EscapeDiffReadsBackWithoutBackslash(diff: string)
    requires '\\' !in diff
    ensures ReadTemplate(EscapeDiff(diff)) == Some(diff)
  {
    EscapeDiffIsEncoded(diff);
    EncodedIgnoresFlag(diff);
    EncodedReadsBack(diff);
  }

  lemma {:induction false} EncodedIgnoresFlag(d: string)
    requires '\\' !in d
    ensures Encoded(d, false) == Encoded(d, true)
    decreases |d|
  {
    if |d| > 0 {
      assert d[0] in d;
      assert forall c :: c in d[1..] ==> c in d;
      if DollarBrace <= d {
        assert forall c :: c in d[2..] ==> c in d;
        EncodedIgnoresFlag(d[2..]);
      } else {
        EncodedIgnoresFlag(d[1..]);
      }
    }
  }

  lemma EncodedFirst(d: string)
    requires |d| > 0
    ensures |Encoded(d, true)| > 0
    ensures Encoded(d, true)[0] == '{' <==> d[0] == '{'
  {
  }

  /** The text escaped with backslashes doubled reads back as the diff. */
  lemma {:induction false} EncodedReadsBack(d: string)
    ensures ReadTemplate(Encoded(d, true)) == Some(d)
    decreases |d|
  {
    if |d| == 0 {
    } else if DollarBrace <= d {
      EncodedReadsBack(d[2..]);
      ReadsBackDollar(d);
    } else {
      EncodedReadsBack(d[1..]);
      assert d == [d[0]] + d[1..];
      ReadsBackCons(d[0], d[1..]);
    }
  }

  /** The step of `EncodedReadsBack` at a "${". */
  lemma ReadsBackDollar(d: string)
    requires DollarBrace <= d
    requires ReadTemplate(Encoded(d[2..], true)) == Some(d[2..])
    ensures ReadTemplate(Encoded(d, true)) == Some(d)
  {
    var rest := Encoded(d[2..], true);
    EncodedAtDollar(d, DollarSubstitution);
    ReadSubstitution(DollarSubstitution, ['{'] + rest);
    ReadPlain('{', rest);
    assert d[0] == DollarBrace[0] && d[1] == DollarBrace[1];
    assert d == ['$'] + (['{'] + d[2..]);
  }

  /** `Encoded` at a "${", with the replacement split after its substitution. */
  lemma EncodedAtDollar(d: string, sub: string)
    requires DollarBrace <= d && sub == DollarSubstitution
    ensures Encoded(d, true) == sub + (['{'] + Encoded(d[2..], true))
  {
    var x := Encoded(d[2..], true);
    assert Replacement == sub + ['{'];
    Text.AppendAssoc(sub, ['{'], x);
  }

  /** The step of `EncodedReadsBack` at any other character `c`. */
  lemma ReadsBackCons(c: char, t: string)
    requires !(DollarBrace <= [c] + t)
    requires ReadTemplate(Encoded(t, true)) == Some(t)
    ensures ReadTemplate(Encoded([c] + t, true)) == Some([c] + t)
  {
    EncodedCons(c, t);
    if c == '`' || c == '\\' {
      ReadsBackEscaped(c, Encoded(t, true), t);
    } else {
      if c == '$' && |t| > 0 {
        NoDollarBrace(c, t);
        EncodedFirst(t);
      }
      ReadsBackPlain(c, Encoded(t, true), t);
    }
  }

  lemma NoDollarBrace(c: char, t: string)
    requires !(DollarBrace <= [c] + t) && c == '$' && |t| > 0
    ensures t[0] != '{'
  {
    assert ([c] + t)[..2] == [c, t[0]];
  }

  lemma EncodedCons(c: char, t: string)
    requires !(DollarBrace <= [c] + t)
    ensures Encoded([c] + t, true) == EscapeChar(c, true) + Encoded(t, true)
  {
    assert ([c] + t)[1..] == t;
  }

  lemma ReadsBackEscaped(c: char, rest: string, tail: string)
    requires c == '`' || c == '\\'
    requires ReadTemplate(rest) == Some(tail)
    ensures ReadTemplate(EscapeChar(c, true) + rest) == Some([c] + tail)
  {
    ReadEscape(c, rest);
    assert EscapeChar(c, true) == ['\\', c];
  }

  lemma ReadsBackPlain(c: char, rest: string, tail: string)
    requires c != '`' && c != '\\' && (c != '$' || |rest| == 0 || rest[0] != '{')
    requires ReadTemplate(rest) == Some(tail)
    ensures ReadTemplate(EscapeChar(c, true) + rest) == Some([c] + tail)
  {
    ReadPlain(c, rest);
    assert EscapeChar(c, true) == [c];
  }

  lemma ReadPlain(x: char, rest: string)
    requires x != '`' && x != '\\' && (x != '$' || |rest| == 0 || rest[0] != '{')
    ensures ReadTemplate([x] + rest) == Prepend(x, ReadTemplate(rest))
  {
    assert ([x] + rest)[1..] == rest;
    assert !(DollarBrace <= [x] + rest);
  }

  lemma ReadEscape(e: char, rest: string)
    requires e == '`' || e == '\\' || e == '$'
    ensures ReadTemplate(['\\', e] + rest) == Prepend(e, ReadTemplate(rest))
  {
    assert (['\\', e] + rest)[2..] == rest;
  }

  lemma ReadSubstitution(sub: string, rest: string)
    requires sub == DollarSubstitution
    ensures ReadTemplate(sub + rest) == Prepend('$', ReadTemplate(rest))
  {
    var s := sub + rest;
    assert s[0] == '$' && s[1] == '{';
    assert DollarBrace <= s && sub <= s;
    assert s[|sub|..] == rest;
  }

  /** Corrected: with backslashes doubled first, the literal reads back as
      the diff itself, and every backtick still follows a backslash. */
  lemma CorrectedEscapeReadsBack(diff: string)
    ensures ReadTemplate(EscapeDiffCorrected(diff)) == Some(diff)
    ensures BackticksEscaped(EscapeDiffCorrected(diff))
  {
    EscapeDiffCorrectedIsEncoded(diff);
    EncodedReadsBack(diff);
    EncodedEscapesBackticks(diff, true);
  }

  // ---------------------------------------------------------------- height

  const MaxPerFileHeight := 1000

  /** The viewer height for code of `codeHeight` pixels (`get_code_height`):
      capped at 1000 in per-file mode. */
  function ViewerHeight(codeHeight: int, perFile: bool): (h: int)
    ensures perFile ==> h <= MaxPerFileHeight && h <= codeHeight
    ensures perFile ==> (h == codeHeight <==> codeHeight <= MaxPerFileHeight)
    ensures !perFile ==> h == codeHeight
  {
    if perFile then (if codeHeight < MaxPerFileHeight then codeHeight else MaxPerFileHeight) else codeHeight
  }

  /** A taller code block never gets a shorter viewer. */
  lemma ViewerHeightMonotone(a: int, b: int, perFile: bool)
    requires a <= b
    ensures ViewerHeight(a, perFile) <= ViewerHeight(b, perFile)
  {
  }

  // --------------------------------------------------------------- mermaid

  const MermaidFence := "```mermaid"

  const ClosingFence := "```"

  /** The diagram source `render_response` hands to Mermaid: `content[10:-3]`
      when the answer starts with "```mermaid", else nothing. */
  function MermaidSource(content: string): (r: Option<string>)
    ensures r.Some? <==> Text.StartsWith(content, MermaidFence)
    ensures r.Some? && |content| >= |MermaidFence| + |ClosingFence| ==> r.value == content[|MermaidFence|..|content| - |ClosingFence|]
    ensures r.Some? && |content| < |MermaidFence| + |ClosingFence| ==> r.value == ""
  {
    if Text.StartsWith(content, MermaidFence) then Some(Text.Slice(content, 10, -3)) else None
  }

  /** A fenced diagram gives back the text between the fences. */
  lemma MermaidRoundTrip(code: string)
    ensures MermaidSource(MermaidFence + code + ClosingFence) == Some(code)
  {
    Text.FrameParts(MermaidFence, code, ClosingFence);
  }
}

=== FILE: urls.dfy ===
/** The GitHub URL classifier and extractors of github_api.py and ask_pr.py.
    Each regular expression is written out as a matcher over `/`-separated
    segments. `re.match` anchors a pattern at the start of the text only, so
    anything may follow a match; `re.search` takes the leftmost offset at
    which the pattern matches. `\d` is taken to be the ASCII digits. */
module GitHubUrls {
  import opened Wrappers
  import Text

  datatype UrlType = PullRequest | Branch | Commit | Unknown

  const Host: string := "https://github.com/"

  /** `https://github\.com/` at the start of `s`; with `looseDot`, the
      unescaped `https://github.com/`, whose `.` matches any character but a
      newline. */
  predicate HostAt(s: string, looseDot: bool) {
    |s| >= 19 && s[..14] == "https://github" && s[15..19] == "com/" &&
    (if looseDot then s[14] != '\n' else s[14] == '.')
  }

  /** What `[^/]+` matches. */
  predicate IsSegment(s: string) {
    |s| > 0 && '/' !in s
  }

  /** `[^/]+/`: the run before the first `/`, which must be non-empty, and
      the text after that `/`. */
  function Segment(s: string): (r: Option<(string, string)>)
    ensures r.Some? ==> IsSegment(r.value.0) && s == r.value.0 + "/" + r.value.1
  {
    var k := Text.Find(s, '/');
    if k <= 0 then None
    else
      assert s == s[..k] + "/" + s[k + 1..];
      Some((s[..k], s[k + 1..]))
  }

  /** The first `/` after a segment is the one that ends it. */
  lemma FindAfterSegment(seg: string, tail: string)
    requires IsSegment(seg)
    ensures Text.Find(seg + "/" + tail, '/') == |seg|
  {
    var s := seg + "/" + tail;
    assert s[..|seg|] == seg;
    Text.FindUnique(s, '/', |seg|);
  }

  /** A `/` inside `p` is found before anything appended to `p`. */
  lemma FindInPrefix(p: string, q: string)
    requires '/' in p
    ensures Text.Find(p + q, '/') == Text.Find(p, '/')
  {
    var k := Text.Find(p, '/');
    assert (p + q)[..k] == p[..k];
    Text.FindUnique(p + q, '/', k);
  }

  lemma SegmentOf(seg: string, tail: string)
    requires IsSegment(seg)
    ensures Segment(seg + "/" + tail) == Some((seg, tail))
  {
    var s := seg + "/" + tail;
    FindAfterSegment(seg, tail);
    assert s[..|seg|] == seg && s[|seg| + 1..] == tail;
  }

  /** A repository name as the extractors build it: two segments joined by one `/`. */
  predicate TwoPartName(s: string) {
    var k := Text.Find(s, '/');
    k > 0 && IsSegment(s[k + 1..])
  }

  lemma NameOfSegments(owner: string, repo: string)
    requires IsSegment(owner) && IsSegment(repo)
    ensures TwoPartName(owner + "/" + repo)
  {
    FindAfterSegment(owner, repo);
    assert (owner + "/" + repo)[|owner| + 1..] == repo;
  }

  /** The owner, the repository and the text after `owner/repo/`. */
  datatype Located = Located(owner: string, repo: string, rest: string)

  /** `https://github\.com/[^/]+/[^/]+/` (or its loose-dot form) at the start of `url`. */
  function Locate(url: string, looseDot: bool): (r: Option<Located>)
    ensures r.Some? ==>
      HostAt(url, looseDot) && IsSegment(r.value.owner) && IsSegment(r.value.repo) &&
      url[19..] == r.value.owner + "/" + r.value.repo + "/" + r.value.rest
  {
    if !HostAt(url, looseDot) then None
    else
      match Segment(url[19..])
      case None => None
      case Some((owner, after)) =>
        match Segment(after)
        case None => None
        case Some((repo, rest)) =>
          Text.AppendAssoc(owner + "/", repo + "/", rest);
          Text.AppendAssoc(owner + "/", repo, "/");
          Some(Located(owner, repo, rest))
  }

  /** Any decomposition of a URL into host, owner, repository and rest is the one `Locate` finds. */
  lemma {:induction false} LocateOf(url: string, looseDot: bool, owner: string, repo: string, rest: string)
    requires HostAt(url, looseDot) && IsSegment(owner) && IsSegment(repo)
    requires url[19..] == owner + "/" + repo + "/" + rest
    ensures Locate(url, looseDot) == Some(Located(owner, repo, rest))
  {
    assert url[19..] == owner + "/" + (repo + "/" + rest);
    SegmentOf(owner, repo + "/" + rest);
    SegmentOf(repo, rest);
  }

  /** `\d+` is greedy: the longest run of digits at the start of `s`. */
  function DigitRun(s: string): (r: string)
    ensures r <= s && Text.AllDigits(r)
    ensures r == s || !Text.IsDigit(s[|r|])
    decreases |s|
  {
    if |s| == 0 || !Text.IsDigit(s[0]) then ""
    else [s[0]] + DigitRun(s[1..])
  }

  lemma {:induction false} DigitRunOf(digits: string, tail: string)
    requires Text.AllDigits(digits)
    requires tail == "" || !Text.IsDigit(tail[0])
    ensures DigitRun(digits + tail) == digits
    decreases |digits|
  {
    if |digits| > 0 {
      assert (digits + tail)[1..] == digits[1..] + tail;
      DigitRunOf(digits[1..], tail);
      assert digits == [digits[0]] + digits[1..];
    } else {
      assert digits + tail == tail;
    }
  }

  datatype PullRef = PullRef(prNumber: nat, repoName: string)

  /** What must follow `owner/repo/` for a pull request: `pull/` and a digit. */
  predicate PullTail(rest: string) {
    "pull/" <= rest && |rest| > 5 && Text.IsDigit(rest[5])
  }

  /** `https://github\.com/([^/]+)/([^/]+)/pull/(\d+)` (or its loose-dot form)
      matched at the start of `url`, as the dict the extractors return. */
  function PullRequestAt(url: string, looseDot: bool): (r: Option<PullRef>)
    ensures r.Some? <==> Locate(url, looseDot).Some? && PullTail(Locate(url, looseDot).value.rest)
    ensures r.Some? ==> TwoPartName(r.value.repoName)
  {
    match Locate(url, looseDot)
    case None => None
    case Some(l) =>
      if PullTail(l.rest) then
        NameOfSegments(l.owner, l.repo);
        Some(PullRef(Text.DecimalValue(DigitRun(l.rest[5..])), l.owner + "/" + l.repo))
      else None
  }

  /** A pull-request URL yields its owner/repository and the value of its whole digit run. */
  lemma {:induction false} PullRequestOf(url: string, looseDot: bool, owner: string, repo: string,
                                         digits: string, tail: string)
    requires HostAt(url, looseDot) && IsSegment(owner) && IsSegment(repo)
    requires |digits| > 0 && Text.AllDigits(digits) && (tail == "" || !Text.IsDigit(tail[0]))
    requires url[19..] == owner + "/" + repo + "/pull/" + digits + tail
    ensures PullRequestAt(url, looseDot) == Some(PullRef(Text.DecimalValue(digits), owner + "/" + repo))
  {
    var rest := "pull/" + (digits + tail);
    Text.AppendAssoc("pull/", digits, tail);
    assert url[19..] == owner + "/" + repo + "/" + rest;
    LocateOf(url, looseDot, owner, repo, rest);
    Text.DropPrefix("pull/", digits + tail);
    DigitRunOf(digits, tail);
  }

  datatype BranchRef = BranchRef(repoName: string, branch: string)

  /** What `[^/]+(?:/[^/]+)*` matches: non-empty segments joined by single `/`s. */
  predicate SegmentPath(b: string) {
    |b| > 0 && b[0] != '/' && b[|b| - 1] != '/' &&
    forall i :: 0 <= i < |b| - 1 ==> !(b[i] == '/' && b[i + 1] == '/')
  }

  /** Where a greedy segment path stops: at the end, or at a `/` not followed by a segment. */
  predicate PathStop(tail: string) {
    tail == "" || (tail[0] == '/' && (|tail| == 1 || tail[1] == '/'))
  }

  /** The greedy match of `[^/]+(?:/[^/]+)*` at the start of `s`: segments
      are taken while a `/` is followed by a non-empty segment. */
  function BranchRun(s: string): (r: string)
    requires |s| > 0 && s[0] != '/'
    ensures 0 < |r| && r <= s
    decreases |s|
  {
    var k := Text.Find(s, '/');
    if k < 0 then s
    else if k + 1 < |s| && s[k + 1] != '/' then
      var more := BranchRun(s[k + 1..]);
      assert s == s[..k + 1] + s[k + 1..];
      s[..k + 1] + more
    else s[..k]
  }

  /** The greedy match is a segment path, and it stops only where no further
      segment can be taken. */
  lemma {:induction false} BranchRunShape(s: string)
    requires |s| > 0 && s[0] != '/'
    ensures SegmentPath(BranchRun(s)) && PathStop(s[|BranchRun(s)|..])
    decreases |s|
  {
    var k := Text.Find(s, '/');
    if k >= 0 && k + 1 < |s| && s[k + 1] != '/' {
      var more := BranchRun(s[k + 1..]);
      BranchRunShape(s[k + 1..]);
      assert k != 0;
      ShapeJoin(s, k, more);
    } else if k >= 0 {
      assert s[..k][k - 1] == s[k - 1];
    }
  }

  /** A segment and its `/` in front of a segment path make a segment path. */
  lemma ShapeJoin(s: string, k: nat, more: string)
    requires 0 < k && k + 1 < |s| && s[0] != '/' && s[k] == '/' && '/' !in s[..k]
    requires SegmentPath(more) && more <= s[k + 1..] && PathStop(s[k + 1..][|more|..])
    ensures SegmentPath(s[..k + 1] + more) && PathStop(s[|s[..k + 1] + more|..])
  {
    var head := s[..k + 1];
    var r := head + more;
    var n := k + 1;
    forall i | 0 <= i < |r| - 1
      ensures !(r[i] == '/' && r[i + 1] == '/')
    {
      if i + 1 < k {
        assert s[..k][i] == r[i];
      } else if i + 1 == k {
        assert s[..k][i] == r[i];
      } else if i + 1 == n {
        assert r[i + 1] == more[0];
      } else {
        assert r[i] == more[i - n] && r[i + 1] == more[i - n + 1];
      }
    }
    assert s[|r|..] == s[k + 1..][|more|..];
  }

  /** Any segment path that stops where the greedy match must stop is the match. */
  lemma {:induction false} BranchRunOf(b: string, tail: string)
    requires SegmentPath(b) && PathStop(tail)
    ensures BranchRun(b + tail) == b
    decreases |b|
  {
    var s := b + tail;
    if '/' in b {
      FindInPrefix(b, tail);
      var k := Text.Find(b, '/');
      assert 0 < k < |b| - 1 && b[k + 1] != '/';
      var b2 := b[k + 1..];
      SegmentPathAfter(b, k);
      Text.SuffixAppend(b, tail, k + 1);
      BranchRunOf(b2, tail);
      BranchRunJoin(s, b, k);
    } else if tail == "" {
      assert s == b;
    } else {
      assert tail == "/" + tail[1..];
      FindAfterSegment(b, tail[1..]);
      assert s[..|b|] == b;
    }
  }

  /** One step of `BranchRunOf`: the first segment of `b`, its `/`, and the run after it make `b`. */
  lemma BranchRunJoin(s: string, b: string, k: nat)
    requires k + 1 < |b| <= |s| && b <= s && s[0] != '/'
    requires Text.Find(s, '/') == k && s[k + 1] != '/'
    requires BranchRun(s[k + 1..]) == b[k + 1..]
    ensures BranchRun(s) == b
  {
    assert s[..k + 1] == b[..k + 1];
    assert b == b[..k + 1] + b[k + 1..];
  }

  /** The path after a `/` of a segment path is again a segment path. */
  lemma SegmentPathAfter(b: string, k: nat)
    requires SegmentPath(b) && k < |b| && b[k] == '/'
    ensures SegmentPath(b[k + 1..])
  {
    var b2 := b[k + 1..];
    forall i | 0 <= i < |b2| - 1
      ensures !(b2[i] == '/' && b2[i + 1] == '/')
    {
      var j := k + 1 + i;
      assert b2[i] == b[j] && b2[i + 1] == b[j + 1];
    }
  }

  /** `https://github\.com/([^/]+)/([^/]+)/tree/([^/]+(?:/[^/]+)*)` matched at the start of `url`. */
  function BranchAt(url: string): (r: Option<BranchRef>)
    ensures r.Some? <==> Locate(url, false).Some? && BranchTail(Locate(url, false).value.rest)
    ensures r.Some? ==> TwoPartName(r.value.repoName) && SegmentPath(r.value.branch)
  {
    match Locate(url, false)
    case None => None
    case Some(l) =>
      if BranchTail(l.rest) then
        NameOfSegments(l.owner, l.repo);
        BranchRunShape(l.rest[5..]);
        Some(BranchRef(l.owner + "/" + l.repo, BranchRun(l.rest[5..])))
      else None
  }

  /** What must follow `owner/repo/` for a branch: `tree/` and a segment character. */
  predicate BranchTail(rest: string) {
    "tree/" <= rest && |rest| > 5 && rest[5] != '/'
  }

  /** A branch URL yields its owner/repository and the whole segment path after `/tree/`. */
  lemma {:induction false} BranchOf(url: string, owner: string, repo: string, branch: string, tail: string)
    requires HostAt(url, false) && IsSegment(owner) && IsSegment(repo)
    requires SegmentPath(branch) && PathStop(tail)
    requires url[19..] == owner + "/" + repo + "/tree/" + branch + tail
    ensures BranchAt(url) == Some(BranchRef(owner + "/" + repo, branch))
  {
    var rest := "tree/" + (branch + tail);
    Text.AppendAssoc("tree/", branch, tail);
    assert url[19..] == owner + "/" + repo + "/" + rest;
    LocateOf(url, false, owner, repo, rest);
    Text.DropPrefix("tree/", branch + tail);
    BranchRunOf(branch, tail);
  }

  datatype CommitRef = CommitRef(repoName: string, commitHash: string)

  predicate LowerHex(s: string) {
    forall i :: 0 <= i < |s| ==> '0' <= s[i] <= '9' || 'a' <= s[i] <= 'f'
  }

  /** What must follow `owner/repo/` for a commit: `commit/` and 40 lower-case hex digits. */
  predicate CommitTail(rest: string) {
    "commit/" <= rest && |rest| >= 47 && LowerHex(rest[7..47])
  }

  /** `https://github\.com/([^/]+)/([^/]+)/commit/([0-9a-f]{40})` matched at the start of `url`. */
  function CommitAt(url: string): (r: Option<CommitRef>)
    ensures r.Some? <==> Locate(url, false).Some? && CommitTail(Locate(url, false).value.rest)
    ensures r.Some? ==> TwoPartName(r.value.repoName) && |r.value.commitHash| == 40 && LowerHex(r.value.commitHash)
  {
    match Locate(url, false)
    case None => None
    case Some(l) =>
      if CommitTail(l.rest) then
        NameOfSegments(l.owner, l.repo);
        Some(CommitRef(l.owner + "/" + l.repo, l.rest[7..47]))
      else None
  }

  /** `pull/`, `tree/` and `commit/` start with different letters. */
  lemma TailsExclusive(rest: string)
    ensures PullTail(rest) ==> !BranchTail(rest) && !CommitTail(rest)
    ensures BranchTail(rest) ==> !CommitTail(rest)
  {
    if PullTail(rest) {
      assert rest[0] == "pull/"[0];
    } else if BranchTail(rest) {
      assert rest[0] == "tree/"[0];
    }
  }

  /** At most one of the three patterns matches a URL. */
  lemma PatternsExclusive(url: string)
    ensures PullRequestAt(url, false).Some? ==> BranchAt(url).None? && CommitAt(url).None?
    ensures BranchAt(url).Some? ==> CommitAt(url).None?
  {
    if Locate(url, false).Some? {
      TailsExclusive(Locate(url, false).value.rest);
    }
  }

  /** `identify_github_url_type`. The three patterns need `pull/`, `tree/` and
      `commit/` after `owner/repo/`, so at most one matches and each type is
      exactly the URLs its own pattern matches, whatever the order of the tests. */
  function Identify(url: string): (t: UrlType)
    ensures t == PullRequest <==> PullRequestAt(url, false).Some?
    ensures t == Branch <==> BranchAt(url).Some?
    ensures t == Commit <==> CommitAt(url).Some?
  {
    PatternsExclusive(url);
    if PullRequestAt(url, false).Some? then PullRequest
    else if BranchAt(url).Some? then Branch
    else if CommitAt(url).Some? then Commit
    else Unknown
  }

  /** Only a prefix is matched: text appended to a classified URL keeps its type. */
  lemma {:induction false} IdentifyKeepsPrefix(url: string, extra: string)
    requires Identify(url) != Unknown
    ensures Identify(url + extra) == Identify(url)
  {
    var l := Locate(url, false).value;
    var u := url + extra;
    assert u[..19] == url[..19];
    Text.SuffixAppend(url, extra, 19);
    Text.AppendAssoc(l.owner + "/" + l.repo + "/", l.rest, extra);
    LocateOf(u, false, l.owner, l.repo, l.rest + extra);
    TailsExtend(l.rest, extra);
  }

  /** The tails are prefix conditions, so appending text keeps them. */
  lemma TailsExtend(rest: string, extra: string)
    ensures PullTail(rest) ==> PullTail(rest + extra)
    ensures BranchTail(rest) ==> BranchTail(rest + extra)
    ensures CommitTail(rest) ==> CommitTail(rest + extra)
  {
    var r := rest + extra;
    assert r[..|rest|] == rest;
    if CommitTail(rest) {
      assert r[7..47] == rest[7..47];
    }
  }

  /** `/commit/` followed by fewer than 40 lower-case hex digits is no known type. */
  lemma {:induction false} ShortOrUpperHashUnknown(url: string, owner: string, repo: string, tail: string)
    requires HostAt(url, false) && IsSegment(owner) && IsSegment(repo)
    requires url[19..] == owner + "/" + repo + "/commit/" + tail
    requires |tail| < 40 || !LowerHex(tail[..40])
    ensures Identify(url) == Unknown
  {
    var rest := "commit/" + tail;
    assert url[19..] == owner + "/" + repo + "/" + rest;
    LocateOf(url, false, owner, repo, rest);
    CommitTailOf(tail);
  }

  /** The commit tail read off the text after `commit/`. */
  lemma CommitTailOf(tail: string)
    ensures CommitTail("commit/" + tail) <==> |tail| >= 40 && LowerHex(tail[..40])
    ensures !PullTail("commit/" + tail) && !BranchTail("commit/" + tail)
  {
    var rest := "commit/" + tail;
    assert rest[0] == 'c';
    if |tail| >= 40 {
      assert rest[7..47] == tail[..40];
    }
  }

  /** `extract_repo_and_pr_number`: the pull-request pattern with its dot unescaped. */
  function ExtractRepoAndPrNumber(url: string): (r: Option<PullRef>)
    ensures r.Some? ==> TwoPartName(r.value.repoName)
  {
    PullRequestAt(url, true)
  }

  /** Every URL classified as a pull request is extracted, with the same
      owner/repository and the value of its digit run. */
  lemma PullRequestExtracted(url: string)
    requires Identify(url) == PullRequest
    ensures ExtractRepoAndPrNumber(url) == PullRequestAt(url, false)
    ensures ExtractRepoAndPrNumber(url).Some?
  {
    var l := Locate(url, false).value;
    LocateOf(url, true, l.owner, l.repo, l.rest);
  }

  /** The unescaped dot: with any other character in place of `.`, the URL
      is of no known type, yet the extractor reads it as the `.com` URL. */
  lemma {:induction false} LooseDotExtracts(ch: char, path: string)
    requires ch != '.' && ch != '\n'
    ensures Identify("https://github" + [ch] + "com/" + path) == Unknown
    ensures ExtractRepoAndPrNumber("https://github" + [ch] + "com/" + path)
         == ExtractRepoAndPrNumber(Host + path)
  {
    var u := "https://github" + [ch] + "com/" + path;
    var v := Host + path;
    assert u[..14] == "https://github" && u[14] == ch && u[15..19] == "com/";
    assert !HostAt(u, false);
    assert v[..14] == "https://github" && v[14] == '.' && v[15..19] == "com/";
    assert u[19..] == path == v[19..];
    assert HostAt(u, true) && HostAt(v, true);
  }

  /** `re.search`: the leftmost offset from `i` on at which `at` matches, with the match. */
  function SearchFrom<T>(at: string -> Option<T>, s: string, i: nat): (r: Option<(nat, T)>)
    requires i <= |s|
    ensures r.Some? ==> i <= r.value.0 <= |s| && at(s[r.value.0..]) == Some(r.value.1)
    ensures forall j :: i <= j <= |s| && (r.None? || j < r.value.0) ==> at(s[j..]).None?
    decreases |s| - i
  {
    if at(s[i..]).Some? then Some((i, at(s[i..]).value))
    else if i == |s| then None
    else SearchFrom(at, s, i + 1)
  }

  /** `extract_repo_and_branch_name`: the branch pattern searched anywhere in `url`. */
  function ExtractRepoAndBranchName(url: string): (r: Option<BranchRef>)
    ensures r.Some? ==> TwoPartName(r.value.repoName) && SegmentPath(r.value.branch)
    ensures r.None? <==> forall j :: 0 <= j <= |url| ==> BranchAt(url[j..]).None?
  {
    match SearchFrom(BranchAt, url, 0)
    case None => None
    case Some((_, b)) => Some(b)
  }

  /** `extract_repo_and_commit_hash`: the commit pattern searched anywhere in `url`. */
  function ExtractRepoAndCommitHash(url: string): (r: Option<CommitRef>)
    ensures r.Some? ==> TwoPartName(r.value.repoName) && |r.value.commitHash| == 40 && LowerHex(r.value.commitHash)
    ensures r.None? <==> forall j :: 0 <= j <= |url| ==> CommitAt(url[j..]).None?
  {
    match SearchFrom(CommitAt, url, 0)
    case None => None
    case Some((_, c)) => Some(c)
  }

  /** A URL classified as a branch or commit is extracted at offset 0. */
  lemma ClassifiedExtracted(url: string)
    ensures Identify(url) == Branch ==> ExtractRepoAndBranchName(url) == BranchAt(url)
    ensures Identify(url) == Commit ==> ExtractRepoAndCommitHash(url) == CommitAt(url)
  {
    assert url[0..] == url;
  }

  /** `extract_pr_and_repo` of ask_pr.py: the same pattern, read here through
      the list of `/`-separated pieces after the host. */
  function ExtractPrAndRepo(url: string): (r: Option<PullRef>)
    ensures r.Some? ==> '/' in r.value.repoName
  {
    if !HostAt(url, true) then None
    else
      var parts := Text.Split(url[19..], '/');
      if |parts| >= 3 && |parts[0]| > 0 && |parts[1]| > 0 && PullPieces(parts[2..]) then
        assert (parts[0] + "/" + parts[1])[|parts[0]|] == '/';
        Some(PullRef(Text.DecimalValue(DigitRun(parts[3])), parts[0] + "/" + parts[1]))
      else None
  }

  /** The digit run of the first piece is the digit run of the whole text. */
  lemma DigitRunFirstPiece(s: string)
    ensures DigitRun(Text.Split(s, '/')[0]) == DigitRun(s)
  {
    Text.SplitAtFirst(s, '/');
    var k := Text.Find(s, '/');
    if k >= 0 {
      var d := DigitRun(s[..k]);
      assert s == s[..k] + s[k..];
      DigitRunPrefix(s[..k], s[k..]);
    }
  }

  /** Digits end where a non-digit starts. */
  lemma {:induction false} DigitRunPrefix(p: string, q: string)
    requires |q| > 0 && !Text.IsDigit(q[0])
    ensures DigitRun(p + q) == DigitRun(p)
    decreases |p|
  {
    if |p| > 0 {
      assert (p + q)[1..] == p[1..] + q;
      DigitRunPrefix(p[1..], q);
    } else {
      assert p + q == q;
    }
  }

  /** The pull-request tail read through the pieces of the text after `owner/repo/`. */
  predicate PullPieces(pieces: seq<string>) {
    |pieces| >= 2 && pieces[0] == "pull" && |pieces[1]| > 0 && Text.IsDigit(pieces[1][0])
  }

  /** Read through the pieces of the path, the pull-request tail after `owner/repo/`. */
  lemma PullTailPieces(rest: string)
    ensures PullPieces(Text.Split(rest, '/')) <==> PullTail(rest)
    ensures PullTail(rest) ==> DigitRun(Text.Split(rest, '/')[1]) == DigitRun(rest[5..])
  {
    if PullTail(rest) {
      PullTailToPieces(rest);
    } else if PullPieces(Text.Split(rest, '/')) {
      PiecesToPullTail(rest);
    }
  }

  lemma PullTailToPieces(rest: string)
    requires PullTail(rest)
    ensures PullPieces(Text.Split(rest, '/'))
    ensures DigitRun(Text.Split(rest, '/')[1]) == DigitRun(rest[5..])
  {
    assert rest[..4] == "pull" && rest[4] == '/';
    Text.FindUnique(rest, '/', 4);
    Text.SplitAtFirst(rest, '/');
    var more := rest[5..];
    PieceHead(more);
    DigitRunFirstPiece(more);
  }

  lemma PiecesToPullTail(rest: string)
    requires PullPieces(Text.Split(rest, '/'))
    ensures PullTail(rest)
  {
    Text.SplitAtFirst(rest, '/');
    var k := Text.Find(rest, '/');
    assert k == 4;
    assert rest[..5] == rest[..4] + [rest[4]];
    PieceHead(rest[5..]);
  }

  /** The first piece of a text starts with the text's first character, unless that is the separator. */
  lemma PieceHead(s: string)
    ensures |Text.Split(s, '/')[0]| > 0 <==> |s| > 0 && s[0] != '/'
    ensures |s| > 0 && s[0] != '/' ==> Text.Split(s, '/')[0][0] == s[0]
  {
  }

  /** `[^/]+/` read through the pieces: a segment exists when the first piece
      is not empty and a second piece follows. */
  lemma SegmentBySplit(s: string)
    ensures var parts := Text.Split(s, '/');
      Segment(s).Some? <==> |parts| >= 2 && |parts[0]| > 0
    ensures var parts := Text.Split(s, '/');
      Segment(s).Some? ==> Segment(s).value.0 == parts[0] && Text.Split(Segment(s).value.1, '/') == parts[1..]
  {
    Text.SplitAtFirst(s, '/');
  }

  /** The owner and repository are the first two pieces after the host, and the
      pieces of the rest are the remaining ones. */
  lemma LocateBySplit(url: string, looseDot: bool)
    requires HostAt(url, looseDot)
    ensures var parts := Text.Split(url[19..], '/');
      Locate(url, looseDot).Some? <==> |parts| >= 3 && |parts[0]| > 0 && |parts[1]| > 0
    ensures var parts := Text.Split(url[19..], '/');
      Locate(url, looseDot).Some? ==>
        var l := Locate(url, looseDot).value;
        l.owner == parts[0] && l.repo == parts[1] && Text.Split(l.rest, '/') == parts[2..]
  {
    var s := url[19..];
    var parts := Text.Split(s, '/');
    SegmentBySplit(s);
    if Segment(s).Some? {
      var after := Segment(s).value.1;
      SegmentBySplit(after);
      assert Text.Split(after, '/') == parts[1..];
      if Segment(after).Some? {
        var rest := Segment(after).value.1;
        assert Locate(url, looseDot) == Some(Located(parts[0], Segment(after).value.0, rest));
        assert parts[1..][1..] == parts[2..];
      } else {
        assert Locate(url, looseDot).None?;
      }
    } else {
      assert Locate(url, looseDot).None?;
    }
  }

  /** The two readings of `https://github.com/([^/]+)/([^/]+)/pull/(\d+)` agree:
      ask_pr.py and github_api.py extract the same result from every URL. */
  lemma {:induction false} AskPrAgrees(url: string)
    ensures ExtractPrAndRepo(url) == ExtractRepoAndPrNumber(url)
  {
    if HostAt(url, true) {
      var parts := Text.Split(url[19..], '/');
      LocateBySplit(url, true);
      if Locate(url, true).Some? {
        var l := Locate(url, true).value;
        PullTailPieces(l.rest);
      }
    }
  }
}

=== FILE: wrappers.dfy ===
/** Option and Result, the failure-carrying values every module returns. */
module Wrappers {

  /** A value that may be absent: Python's `None` or a present value. */
  datatype Option<+T> = None | Some(value: T) {
    function GetOr(default: T): T {
      match this
      case Some(v) => v
      case None => default
    }
  }

  /** The outcome of an operation that may raise: `Ok` or the exception it raises. */
  datatype Result<+T, +E> = Ok(value: T) | Err(error: E)

  /** Python truthiness of an optional string: `None` and `""` are false. */
  predicate Truthy(s: Option<string>) {
    s.Some? && s.value != ""
  }
}
